=== FILE: README.md ===
# Zenscape core in Dafny

Zenscape is a React wellness application with four areas:

- a zen **garden** builder: a palette of elements, a canvas to drag and rotate them on, and a gallery of saved gardens with save, duplicate, export and import;
- a **meditation** catalogue with a timed player, per-session progress, streaks and favourites;
- a **journal** with moods, tags, filters and mood statistics;
- an **ambient sound** player.

This project models the application logic of those four areas as pure Dafny functions over immutable datatypes, and proves properties of that logic:

- the record mappings the services build before calling the backend;
- the filters, toggles and list updates the pages apply to their state;
- the timer state machine of the meditation player;
- the progress, streak and favourite computations of the meditation service;
- the mood histogram of the journal service;
- the playing/volume state of the sound service and of its player widget.

The backend, timers, the clock, `Math.random`, `window.confirm` and rendering are not executed. Their results become parameters: a lookup result, a `now`, a position, a `confirmed` flag, an `outcome`.

Modules, one per source area:

| module | source |
|---|---|
| `Wrappers`, `Seqs`, `Text`, `Numerals` | shared building blocks: `Option`/`Result`, the JavaScript `\|\|` on strings, `filter`/`slice`/`find`/stable `sort`, `trim`/`toLowerCase`/`toUpperCase`/`includes`/`split`/`join`, decimal rendering and `padStart` |
| `Player` | `MeditationPlayer.jsx` |
| `MeditationService` | `meditationService.js` (progress map, totals, streak, favourites) |
| `MeditatePage`, `MeditationCard` | `Meditate.jsx`, `MeditationCard.jsx` |
| `GardenElement`, `GardenCanvas`, `ElementPalette` | the garden components |
| `GardenService`, `RecordApi` | `gardenService.js`, and the delete-response handling shared with `journalService.js` |
| `GardenPage` | `Garden.jsx` |
| `Encoding` | UTF-8 bytes read back as Windows-1252: the form the garden page's emoji literals are in |
| `JournalService`, `JournalEditor`, `JournalPage`, `JournalCard` | the journal service and components |
| `SoundService`, `SoundPlayer` | `soundService.js`, `SoundPlayer.jsx` |

## Model

| member | source | states |
|---|---|---|
| Player.Tick | src/components/organisms/MeditationPlayer.jsx:12-29 | A tick advances the time by one second only while playing and not completed. Reaching the duration clamps the time to it, stops playing and marks completion. `onComplete` fires exactly on the tick that turns completion on. |
| Player.PlayPause | src/components/organisms/MeditationPlayer.jsx:39-48 | On a completed session the button restarts from 0 and plays. Otherwise it only toggles playing. |
| Player.Seek | src/components/organisms/MeditationPlayer.jsx:50-57 | The new time is the floor of fraction × duration. Completion is cleared and playing is kept. |
| Player.SeekStaysInBar | src/components/organisms/MeditationPlayer.jsx:50-57 | A click inside the bar never seeks outside [0, duration]. |
| Player.Restart | src/components/organisms/MeditationPlayer.jsx:59-63 | At time 0 the disabled button does nothing. Otherwise it returns to 0, paused, not completed. |
| Player.Skip | src/components/organisms/MeditationPlayer.jsx:196-201 | The button is disabled once completed. Otherwise it jumps to the end without marking completion. |
| Player.StepPreservesValid | src/components/organisms/MeditationPlayer.jsx:12-63 | Every tick or control keeps the time within [0, duration]. A completed session stays at the end and does not play. |
| Player.InitialValid | src/components/organisms/MeditationPlayer.jsx:8-10 | The opening state (0, paused, not completed) is a valid player state. |
| Player.CompletedIsQuiet | src/components/organisms/MeditationPlayer.jsx:14 | Once completed, a tick changes nothing and does not report completion again. |
| Player.PlayingCompletesOnce | src/components/organisms/MeditationPlayer.jsx:12-29 | From a playing state, enough ticks to cover the remaining time end completed at the duration, with `onComplete` called exactly once. |
| Player.QuietTicks | src/components/organisms/MeditationPlayer.jsx:14 | Any number of ticks on a completed session change nothing and complete nothing. |
| Player.FormatTimeRoundTrip | src/components/organisms/MeditationPlayer.jsx:31-35 | The `m:ss` label reads back as the same number of seconds: minutes × 60 plus the two-digit seconds field. |
| Player.RemainingLabel | src/components/organisms/MeditationPlayer.jsx:173 | The remaining label denotes exactly duration − current time. |
| MeditationService.Lookup | src/services/api/meditationService.js:100-107 | A key is absent exactly when no entry of the insertion-ordered map has it. A found value is stored under that key. |
| MeditationService.GetProgress | src/services/api/meditationService.js:100-107 | A missing session reads as zero progress. A present one reads as its stored record. |
| MeditationService.SetEntry | src/services/api/meditationService.js:124 | After `set`, the key maps to the new record and every other key keeps its value. |
| MeditationService.SetEntryKeys | src/services/api/meditationService.js:124 | `set` adds exactly the key to the key set and keeps the keys distinct. |
| MeditationService.UpdateProgress | src/services/api/meditationService.js:109-125 | The returned record has one more completed session, the session's time added and today as last completion. It is stored under the id, and every other session is untouched. |
| MeditationService.UpdateAddsOneSession | src/services/api/meditationService.js:109-142 | Recording a completion raises the total session count reported by `getTotalStats` by exactly one. |
| MeditationService.UpdateChangesOnlyItsMinutes | src/services/api/meditationService.js:109-142 | Recording a completion changes the minutes total of `getTotalStats` by exactly the change in that session's own rounded minutes. |
| MeditationService.RoundMinutes | src/services/api/meditationService.js:137 | Minutes are seconds / 60 rounded half up: 60·r ≤ s + 30 < 60·r + 60. |
| MeditationService.MinutesRoundedPerEntry | src/services/api/meditationService.js:131-139 | Minutes are rounded per session before they are added: two 30-second sessions count 2 minutes, though together they last 1. |
| MeditationService.TwoCompletions | src/services/api/meditationService.js:109-125 | Two completions of a new session store 2 sessions and twice the duration. |
| MeditationService.CompletionDays | src/services/api/meditationService.js:146-148 | The days considered are exactly the last-completion days of the sessions that have one. |
| MeditationService.SortedDays | src/services/api/meditationService.js:146-150 | The days are sorted newest first, as a permutation of the input. |
| MeditationService.NoCompletionsNoStreak | src/services/api/meditationService.js:144-150 | With no completed session the streak is 0. |
| MeditationService.StreakDaysPresent | src/services/api/meditationService.js:144-170 | A streak of n means each of the n days ending today has a completion. |
| MeditationService.StreakPositiveIffToday | src/services/api/meditationService.js:144-170 | The streak is positive exactly when some session was last completed today and none in the future. |
| MeditationService.StreakIsMaximalForDistinctDays | src/services/api/meditationService.js:144-170 | With one completion per day and none in the future, the day just before the streak has no completion: the streak is the full run. |
| MeditationService.SameDayCompletionsStopTheWalk | src/services/api/meditationService.js:156-166 | The walk compares positions, not days. Two sessions completed today and one yesterday give a streak of 1. |
| MeditationService.TopSessionIdsRanking | src/services/api/meditationService.js:172-181 | Exactly min(3, n) ids are chosen, where n is the number of sessions with completions. All are ids of sessions with completions. No session with completions but left out has more completions than one kept. |
| MeditationService.TopSessionIdsCount | src/services/api/meditationService.js:172-181 | Exactly min(3, n) ids are chosen, where n is the number of sessions with completions. |
| MeditationService.TopSessionIdIsCompleted | src/services/api/meditationService.js:172-181 | Every chosen id is the id of a session with at least one completion. |
| MeditationService.TopSessionIdOutranks | src/services/api/meditationService.js:172-181 | With distinct keys, a chosen session has at least as many completions as any completed session left out. |
| MeditationService.GetFavorites | src/services/api/meditationService.js:172-191 | No ids or a failed catalogue gives []. Otherwise the catalogue sessions whose id is among the top ids, in catalogue order. |
| MeditationService.FavoritesAsWrittenAreEmpty | src/services/api/meditationService.js:172-191 | As written, the string `session.id?.toString()` never equals a numeric map key, so no favourite is ever returned, while the corrected comparison returns every catalogue session among the top ids. |
| MeditatePage.FilterSessions | src/components/pages/Meditate.jsx:53-65 | The result keeps catalogue order. A session is listed exactly when it matches both the category and the difficulty tab ("All" matches everything). With both on "All" the list is unchanged. |
| MeditatePage.FilterSessionsIsOneFilter | src/components/pages/Meditate.jsx:53-65 | The two conditional filters equal one filter by the conjunction. |
| MeditatePage.ToggleFavorite | src/components/pages/Meditate.jsx:99-113 | The favourite status by id flips. A favourite is removed with every entry of its id. A non-favourite is appended. |
| MeditatePage.ToggleTwice | src/components/pages/Meditate.jsx:99-113 | Toggling twice restores the status. For a session that was not a favourite, it restores the exact list. |
| MeditatePage.DisplayedFavorites | src/components/pages/Meditate.jsx:222 | Exactly min(3, n) favourites are shown, where n is the number of favourites. They are the first ones, in order. |
| MeditatePage.FavoritingBeyondThreeKeepsDisplay | src/components/pages/Meditate.jsx:222 | With three or more favourites, the shown ones are the first three. Favouriting one more session leaves the section unchanged. |
| MeditatePage.BeginnerPick | src/components/pages/Meditate.jsx:301-304 | "Start Your Journey" picks the first Beginner session, or none exactly when there is none. |
| MeditationCard.FormatDuration | src/components/molecules/MeditationCard.jsx:8-11 | The label ends in " min" and its digits denote seconds / 60, floored. |
| MeditationCard.DifficultyTones | src/components/molecules/MeditationCard.jsx:13-20 | Beginner, Intermediate and Advanced get the success, warning and error colours. Every other difficulty, "" included, gets the neutral sage. |
| MeditationCard.ShownTags | src/components/molecules/MeditationCard.jsx:61-63 | A session without tags shows none. Otherwise exactly min(3, n) tags are shown, where n is the number of tags. They are the first ones, in order. |
| MeditationCard.ShownTagsIgnoreLaterTags | src/components/molecules/MeditationCard.jsx:61-63 | Tags after the third never change the row. The row of a longer list is its first three tags. |
| GardenElement.ClampAxis | src/components/molecules/GardenElement.jsx:59-62 | A coordinate is never negative and, when the canvas is at least 50 wide, leaves room for the 50-unit element. In-range values are kept. |
| GardenElement.ClampAxisIdempotent | src/components/molecules/GardenElement.jsx:59-62 | Clamping a clamped coordinate changes nothing. |
| GardenElement.DragRelease | src/components/molecules/GardenElement.jsx:57-63 | The drop position is the old position plus the offset, clamped into the canvas on each axis. |
| GardenElement.StillDragKeepsPosition | src/components/molecules/GardenElement.jsx:57-63 | A zero-offset drag of an element inside the canvas leaves it where it is. |
| GardenElement.RotationOf | src/components/molecules/GardenElement.jsx:12 | The rotation defaults to 0 when unset. |
| GardenElement.ScaleOf | src/components/molecules/GardenElement.jsx:12 | The scale defaults to 1 when unset. |
| GardenElement.IconFallback | src/components/molecules/GardenElement.jsx:14-33 | The fallback icon is shown exactly for subtypes outside the fifteen known ones. Every subtype gets a non-empty icon. |
| GardenElement.SizeIsLargeOnlyForPlants | src/components/molecules/GardenElement.jsx:35-51 | Plants are drawn large. Rocks, water and every other type are drawn medium. |
| GardenCanvas.DragEnd | src/components/organisms/GardenCanvas.jsx:21-32 | Only the dragged element moves: it takes the new position and every other element is unchanged. A ripple appears exactly for water elements, centred 25 units in. |
| GardenCanvas.SecondDragWins | src/components/organisms/GardenCanvas.jsx:21-32 | Dragging the same element twice is the same as the last drag alone. |
| GardenCanvas.Rotate | src/components/organisms/GardenCanvas.jsx:53-61 | A double click adds 45 degrees to one element's rotation and leaves the others unchanged. |
| GardenCanvas.RotateTwice | src/components/organisms/GardenCanvas.jsx:53-61 | Two double clicks add 90 degrees. |
| GardenCanvas.RotateTimesAdds | src/components/organisms/GardenCanvas.jsx:53-61 | n double clicks add 45·n degrees and touch no other element. |
| GardenCanvas.CanvasClick | src/components/organisms/GardenCanvas.jsx:47-51 | A click on the canvas background clears the selection. A click on an element keeps it. |
| GardenCanvas.ClicksCompose | src/components/organisms/GardenCanvas.jsx:47-51 | Two clicks keep the selection exactly when neither landed on the background. Repeating a click changes nothing. |
| GardenCanvas.Clear | src/components/organisms/GardenCanvas.jsx:63-68 | A confirmed clear empties the canvas and the selection. A cancelled one changes nothing. |
| GardenCanvas.ClearCompose | src/components/organisms/GardenCanvas.jsx:47-68 | Two clears act as one clear confirmed when either was. After a confirmed clear, a click has no selection left to change. |
| ElementPalette.InitialCategory | src/components/molecules/ElementPalette.jsx:8 | The opening tab is the selected category when a non-empty one is given. A missing or empty one gives "Rocks". |
| ElementPalette.Distinct | src/components/molecules/ElementPalette.jsx:10 | `[...new Set(..)]` keeps exactly the same values, each once, in order of first appearance. |
| ElementPalette.Categories | src/components/molecules/ElementPalette.jsx:10 | The tabs are exactly the categories of the elements, each once, in the order in which each category first appears among the elements. |
| ElementPalette.Shown | src/components/molecules/ElementPalette.jsx:11 | The palette lists exactly the elements of the active category, in order. |
| ElementPalette.EmptyStateOnlyForUnlistedTabs | src/components/molecules/ElementPalette.jsx:86 | The empty-state message appears exactly when the active tab is not one of the elements' categories. |
| ElementPalette.OpensOnRocks | src/components/molecules/ElementPalette.jsx:8-11 | Opened without a category, the palette lists exactly the rock elements. It shows the empty-state message only when no element is a rock. |
| RecordApi.DeleteResult | src/services/api/gardenService.js:199-232 | An unsuccessful response raises. A success without per-record results is `true`. With results, the answer is whether any record was deleted. |
| RecordApi.DeleteReportsFalseOnlyWhenAllFailed | src/services/api/journalService.js:225-258 | `delete` answers false exactly when every per-record result failed, including the empty list. |
| GardenService.GlyphTextInjective | src/services/api/gardenService.js:456-473 | The thumbnail emoji are non-empty and pairwise different. |
| GardenService.MapForCreate | src/services/api/gardenService.js:99-106 | The name is the camel-case field when truthy, else the column-named one. Tags default to "". `elements` is the JSON text of the given array, or of [] when none is given. `is_template` is the `\|\|` of both spellings. The thumbnail is the given one or the sprout. |
| GardenService.MapForUpdate | src/services/api/gardenService.js:150-160 | An update sends the parsed id and exactly the fields a create would. |
| GardenService.CreateKeepsElements | src/services/api/gardenService.js:92-106 | A created garden's stored `elements` text parses back to the array given. |
| GardenService.GenerateThumbnail | src/services/api/gardenService.js:456-473 | No elements gives the sprout. Each emoji is chosen only when its priority rule's elements are present. The droplet is never produced. |
| GardenService.ThumbnailRules | src/services/api/gardenService.js:456-473 | For a non-empty garden each emoji is chosen exactly when its rule holds and no earlier rule in the priority list does; subtypes count only on plants. |
| GardenService.ThumbnailIgnoresOrder | src/services/api/gardenService.js:456-473 | The thumbnail depends only on which elements are present, not on their order or repetition. |
| GardenService.ThumbnailIgnoresOtherKinds | src/services/api/gardenService.js:456-473 | Adding an element that is not water, rock or plant does not change the thumbnail. |
| GardenService.Duplicate | src/services/api/gardenService.js:393-412 | The copy is named "<name> (Copy)", is not a template, and keeps the description. |
| GardenService.DuplicateRecord | src/services/api/gardenService.js:393-412 | The copy's record stores the original's elements and thumbnail (the sprout when it had none). |
| GardenService.ExportGarden | src/services/api/gardenService.js:414-431 | The export is the stored record plus the export time and version "1.0". |
| GardenService.FileOf | src/services/api/gardenService.js:420-424 | The exported file carries the record's column-named fields, its `elements` still as JSON text. |
| GardenService.ImportGardenAsWritten | src/services/api/gardenService.js:433-454 | As written, the import passes the file's `elements` on unchanged and forces `isTemplate` false. |
| GardenService.ImportAsWrittenDoubleEncodes | src/services/api/gardenService.js:437-447 | Importing an exported garden stores its elements as a JSON string of the old text, not as the array. |
| GardenService.ImportGarden | src/services/api/gardenService.js:433-454 | The corrected import parses `elements` when it is JSON text and otherwise passes it on. The rest is as written. |
| GardenService.ExportImportRoundTrip | src/services/api/gardenService.js:414-454 | With the corrected import, export then import creates a garden with the same elements and name, as a non-template. |
| GardenService.ImportsAgreeOnArrays | src/services/api/gardenService.js:433-454 | On a file whose `elements` is already an array, or absent, both imports agree. |
| GardenService.SortColumn | src/services/api/gardenService.js:364-367 | The three known fields map to their column names. Any other field passes through. |
| GardenService.SortBy | src/services/api/gardenService.js:358-376 | The order uses the mapped column. A missing direction sends "ASC". A given one is sent with every character upper-cased: "desc" becomes "DESC" and "asc" becomes "ASC". |
| GardenService.SortDirectionIgnoresCase | src/services/api/gardenService.js:358-376 | Directions differing only in letter case give the same order. |
| GardenService.CategoryWhere | src/services/api/gardenService.js:265-291 | "templates" filters on `is_template` true and "personal" on false. Any other category sends no filter. |
| GardenPage.InitialPage | src/components/pages/Garden.jsx:49-58 | The page's list is the stored records read through `ViewOf`. With records, the first one is opened with its parsed elements and its `Name`. With none, the canvas is empty and named "My Zen Garden". |
| GardenPage.ViewOf | src/services/api/gardenService.js:393-405 | A stored record reads as a page garden with its id, its `Name`, its `is_template` flag and the elements its JSON text holds. A missing text reads as no elements. |
| GardenPage.OpenThenSaveKeepsGarden | src/components/pages/Garden.jsx:49-115 | Opening the first stored personal garden and saving it unchanged updates it under its id, with its trimmed name and exactly its stored elements. |
| GardenPage.TemplateFlagLostAsWritten | src/components/pages/Garden.jsx:200-203 | As written, the page reads `isTemplate`, which the records lack. So the "templates" tab keeps nothing, and the save test of line 106 updates an opened template in place. Read through `is_template`, the tab keeps the template and the save creates a copy. |
| GardenPage.SelectElement | src/components/pages/Garden.jsx:67-83 | No element changes nothing. Otherwise the element is appended at the random position, with rotation 0 and scale 1, and the rest are kept. |
| GardenPage.PlacedElementFitsCanvas | src/components/pages/Garden.jsx:72-78 | A placed element lies inside a canvas of at least 450 × 350. |
| GardenPage.PageThumbnailAsWritten | src/components/pages/Garden.jsx:238-244 | As written, the thumbnail is the rock for type 'rocks', the herb for 'plants', the droplet for 'water', else the sprout. Each is chosen exactly when its rule holds. |
| GardenPage.PageTextsAreMisreadEmoji | src/components/pages/Garden.jsx:238-244 | Each of the page's four thumbnail texts is the service's emoji with its UTF-8 bytes decoded as Windows-1252. None of them equals any thumbnail text the service uses. |
| GardenPage.RockGardenLosesItsThumbnail | src/components/pages/Garden.jsx:238-244 | A garden of one rock gets the sprout from the page as written, and its save sends the page's sprout text. The service and the corrected page rule give the rock. |
| GardenPage.PageThumbnail | src/components/pages/Garden.jsx:238-244 | Corrected: rock first, then plant, then water, else the sprout. Each emoji is chosen exactly when its rule holds. |
| GardenPage.PageThumbnailAgreesOnSprout | src/components/pages/Garden.jsx:238-244 | The corrected page rule gives the sprout exactly when the service's own thumbnail rule does. |
| GardenPage.SaveData | src/components/pages/Garden.jsx:95-103 | A save sends the trimmed name, the canvas elements as an array, the element-count description and not-a-template. With a 'rocks' typed element the thumbnail is the page's rock text. Otherwise, with a 'plants' typed element it is the page's herb text. Without either, it is the page's droplet text for a canvas with water, else the page's sprout text. The thumbnail never equals a text the service uses. |
| GardenPage.SaveDataIntended | src/components/pages/Garden.jsx:97-103 | With both thumbnail slips corrected, everything but the thumbnail is as written. The stored thumbnail is the service's emoji for the corrected rule. An empty canvas stores exactly the service's own default. A garden of rocks stores the service's own rock. |
| GardenPage.SaveRequestOf | src/components/pages/Garden.jsx:89-115 | Nothing is sent exactly when the name is blank. An opened, non-template garden with a truthy id is updated under its id. Otherwise a new one is created. |
| GardenPage.SaveSendsTheElements | src/components/pages/Garden.jsx:89-115 | The record a save builds stores the canvas elements, which parse back unchanged. |
| GardenPage.ApplySave | src/components/pages/Garden.jsx:89-126 | A blank name or a failed call changes nothing. Otherwise the returned record, read through `ViewOf`, becomes current, and the canvas, name and selection are kept. An update replaces the id-matched gardens in place. A create puts it first. |
| GardenPage.SavedGardenReadsBack | src/components/pages/Garden.jsx:89-118 | A garden created by a save and stored reads back with its id, the trimmed name, exactly the canvas elements and the save's description, as a personal garden. |
| GardenPage.NewGarden | src/components/pages/Garden.jsx:230-236 | A new garden empties the canvas, drops the current garden and the selection, and is named "My New Garden". |
| GardenPage.NewGardenSavesAsNew | src/components/pages/Garden.jsx:89-115 | Saving right after "new garden" creates rather than updates. |
| GardenPage.DeleteGarden | src/components/pages/Garden.jsx:154-166 | A cancelled or failed delete changes nothing. A delete that returns, even with false, removes every garden with that id. Every copy of each other garden stays (multiset equality), in order. |
| GardenPage.GalleryFilter | src/components/pages/Garden.jsx:198-211 | The gallery keeps, in sorted order, exactly the gardens matching the category tab and containing the query in name or description. |
| GardenPage.GalleryResults | src/components/pages/Garden.jsx:185-214 | Without a sort field the fetched list is shown as fetched. With one, the result is a subsequence of the sorted list. It holds exactly the sorted gardens that pass the category test and the search test. |
| GardenPage.UnfilteredGalleryShowsSorted | src/components/pages/Garden.jsx:185-214 | With a sort field, the "all" tab and an empty search, the gallery is the sorted list, whole and in order. |
| GardenPage.GalleryFilterOrderFree | src/components/pages/Garden.jsx:198-211 | The category and query filters give the same list in either order. |
| GardenPage.GalleryCategoryMatchesService | src/components/pages/Garden.jsx:200-203 | Read through `is_template`, the page's category filter agrees with the service's category query on "templates" and "personal". For any other category except "all", the page keeps only personal gardens while the service applies no filter. |
| JournalService.GardenRef | src/services/api/journalService.js:130 | A garden reference is stored only for a truthy id. |
| JournalService.EntryForCreate | src/services/api/journalService.js:123-131 | The title defaults to "Untitled Entry" and is also the record name. The date defaults to now. Content and mood default to "". Tags are joined with "," and split back to the same list when no tag contains a comma. |
| JournalService.TagsColumnRoundTrip | src/services/api/journalService.js:128 | Comma-free tags survive the join with "," and a split on ",". |
| JournalService.EntryForUpdate | src/services/api/journalService.js:177-186 | An update sends the id and the create fields, except that the date is the given one. |
| JournalService.Bump | src/services/api/journalService.js:292-295 | Counting a mood keeps the mood keys distinct and adds the mood as a key if it was missing. |
| JournalService.BumpCounts | src/services/api/journalService.js:292-295 | Counting a mood adds one to that mood's count and leaves every other count unchanged. |
| JournalService.MoodCounts | src/services/api/journalService.js:291-297 | The histogram has distinct, non-empty moods. Each count is the number of entries with that mood. The counts sum to the entries that have a mood. Its keys are exactly the moods that occur. |
| JournalService.OccurrencesIsMultiplicity | src/services/api/journalService.js:291-297 | A mood's count is its multiplicity among the entries' moods. |
| JournalService.MoodCountsIgnoreOrder | src/services/api/journalService.js:291-297 | The counts do not depend on the order the entries arrive in. |
| JournalService.MoodStats | src/services/api/journalService.js:284-303 | A failed fetch gives the empty histogram. Otherwise each non-empty mood's count is the number of fetched entries with that mood. A mood is listed exactly when it is non-empty and some entry has it. The counts sum to the fetched entries that have a mood. |
| JournalService.CutoffMillis | src/services/api/journalService.js:260-266 | The cut-off is `days` days of milliseconds before now, 30 days by default. |
| JournalService.CutoffMonotone | src/services/api/journalService.js:260-266 | A longer window never starts later. |
| JournalEditor.NormalizeTagIsClean | src/components/organisms/JournalEditor.jsx:37-42 | The normal form of a non-blank tag input is non-empty, unpadded and lower-case. |
| JournalEditor.CleanTagIsNormal | src/components/organisms/JournalEditor.jsx:37-42 | A clean tag is its own normal form. |
| JournalEditor.AddTag | src/components/organisms/JournalEditor.jsx:37-42 | A non-blank input whose trimmed lower-case form is new is appended in that form and the box is cleared. Otherwise nothing changes. |
| JournalEditor.AddTagKeepsTagsClean | src/components/organisms/JournalEditor.jsx:37-42 | Adding keeps the tags clean and duplicate-free. |
| JournalEditor.AddSameTagAgain | src/components/organisms/JournalEditor.jsx:37-42 | Typing the same tag again, with other spacing or case, adds nothing. |
| JournalEditor.RemoveTag | src/components/organisms/JournalEditor.jsx:44-46 | Every copy of the tag goes. Every copy of each other tag stays (multiset equality), in order. |
| JournalEditor.RemoveUndoesAdd | src/components/organisms/JournalEditor.jsx:37-46 | Removing a tag just added restores the tag list. |
| JournalEditor.KeyDown | src/components/organisms/JournalEditor.jsx:69-74 | Keys other than Enter change nothing. |
| JournalEditor.EnterIsAddTag | src/components/organisms/JournalEditor.jsx:69-74 | Enter behaves exactly like the add button. |
| JournalEditor.ToggleMood | src/components/organisms/JournalEditor.jsx:132 | Clicking the selected mood clears it. Clicking another selects it. |
| JournalEditor.ToggleMoodTwice | src/components/organisms/JournalEditor.jsx:132 | Clicking a mood twice restores no mood or that mood. From another selected mood, it ends with none. |
| JournalEditor.Load | src/components/organisms/JournalEditor.jsx:28-35 | Without an entry nothing changes. Opening an entry sets the title, content and mood to the entry's values, or "" where a value is missing or empty, and the tags to its tag list or []. The tag box is kept. |
| JournalEditor.SaveEntry | src/components/organisms/JournalEditor.jsx:48-59 | Nothing is saved exactly when title and content are both blank. Otherwise: trimmed title (or "Untitled Entry"), trimmed content, the mood and tags, and the entry's date or now. |
| JournalEditor.LoadThenSaveKeepsEntry | src/components/organisms/JournalEditor.jsx:28-59 | Opening a tidy entry and saving it unchanged sends back its own fields. |
| JournalEditor.SavedTitleIsStored | src/components/organisms/JournalEditor.jsx:48-59 | The title the editor saves is the title the service stores. |
| JournalPage.FilterEntries | src/components/pages/Journal.jsx:59-97 | The result keeps order. It lists exactly the entries matching the search (title, content or a tag, case-folded), the mood and the month. A failed month query keeps every entry. |
| JournalPage.FilterEntriesIsOneFilter | src/components/pages/Journal.jsx:59-97 | The three conditional filters equal one filter by their conjunction. |
| JournalPage.MonthFirstSameResult | src/components/pages/Journal.jsx:59-97 | Applying the month filter first gives the same list. |
| JournalPage.NoFiltersListsAll | src/components/pages/Journal.jsx:59-97 | With no search, mood or month every entry is listed. |
| JournalPage.ApplyEntrySave | src/components/pages/Journal.jsx:116-140 | A failed save changes nothing. An edit replaces the entry with that id in place. A new entry goes first. |
| JournalPage.DeleteEntry | src/components/pages/Journal.jsx:142-159 | A cancelled or failed delete changes nothing. Otherwise every entry with the id is removed. Every copy of each other entry stays (multiset equality), in order. |
| JournalPage.DeleteUndoesCreate | src/components/pages/Journal.jsx:116-159 | Deleting an entry just created restores the list. |
| JournalPage.WordsIn | src/components/pages/Journal.jsx:167-171 | An entry counts one more word than its content has spaces, or none without content. |
| JournalPage.TotalWordsAppend | src/components/pages/Journal.jsx:167-171 | The word total of two lists is the sum of their totals. |
| JournalPage.TotalWordsAtLeastEntries | src/components/pages/Journal.jsx:167-171 | The total is at least the number of entries with content. |
| JournalCard.MoodIconFallback | src/components/molecules/JournalEntry.jsx:9-21 | The fallback icon is used exactly for a missing or unknown mood. |
| JournalCard.Preview | src/components/molecules/JournalEntry.jsx:24-26 | Content of up to 150 characters is shown whole. Longer content shows its first 150 characters and "...". |
| JournalCard.PreviewIdempotent | src/components/molecules/JournalEntry.jsx:24-26 | Previewing a preview changes nothing. |
| JournalCard.TagRowOf | src/components/molecules/JournalEntry.jsx:70-84 | At most three tags are shown, and "+n more" counts the rest. |
| JournalCard.DisplayTitle | src/components/molecules/JournalEntry.jsx:41 | The card shows the title, or "Untitled Entry" when it is empty or missing. |
| JournalCard.CardShowsStoredTitle | src/components/molecules/JournalEntry.jsx:41 | The card's fallback title is the one `create` stores (journalService.js lines 124 and 127), so a card shows the stored title of any entry. |
| SoundService.Play | src/services/api/soundService.js:102-119 | A play succeeds exactly when the lookup found the sound, and then records its id as playing. A failed play leaves the state as it was. |
| SoundService.Pause | src/services/api/soundService.js:121-130 | Pause reports what was playing and clears it. |
| SoundService.PauseReportsPlayedSound | src/services/api/soundService.js:102-130 | A pause after a successful play reports that sound. |
| SoundService.SetVolume | src/services/api/soundService.js:132-139 | The stored volume is the level clamped to [0, 1]. |
| SoundService.Clamp01 | src/services/api/soundService.js:134 | Levels inside [0, 1] are kept, lower ones become 0 and higher ones 1. |
| SoundService.SetVolumeIdempotent | src/services/api/soundService.js:132-139 | The volume is always within [0, 1], and setting the current volume again changes nothing. |
| SoundService.CurrentlyPlaying | src/services/api/soundService.js:141-151 | Nothing is reported when no id, or the falsy id 0, is playing, or when the lookup fails. Otherwise the record found is reported. |
| SoundService.PlayThenCurrentlyPlaying | src/services/api/soundService.js:102-151 | After a successful play of a non-zero id, the sound reported as playing is the one the play returned. After a play of id 0 nothing is reported. A failed play leaves the report as it was. |
| SoundService.ValidSounds | src/services/api/soundService.js:161-168 | Every sound a lookup found is in the mix. |
| SoundService.ValidSoundsFound | src/services/api/soundService.js:161-168 | Every sound in the mix was found by one of the lookups. |
| SoundService.ValidSoundsAppend | src/services/api/soundService.js:161-168 | The mix keeps the order of the ids. |
| SoundService.CreateMix | src/services/api/soundService.js:157-188 | The mix fails exactly when no id resolved. Otherwise it holds the resolved sounds, its id is the decimal clock reading, and its name is the given one or "Custom Mix <time>". |
| SoundService.FavoriteSounds | src/services/api/soundService.js:190-219 | A failed fetch gives none. Otherwise the result is a prefix of the popular sounds: all of them when there are at most four, else exactly the first four. |
| SoundService.FavoritesArePrefix | src/services/api/soundService.js:214 | Sounds listed after the first four never change the favourites. Taking the favourites of the favourites changes nothing. |
| SoundPlayer.ChooseSound | src/components/molecules/SoundPlayer.jsx:30-44 | Choosing the sound that is playing pauses it and clears the current sound. Any other choice plays it and makes it current if the lookup found it. A failed play changes neither side. |
| SoundPlayer.ChangeVolume | src/components/molecules/SoundPlayer.jsx:46-53 | The service stores the clamped level while the slider keeps the level as given. Playback state is untouched. |
| SoundPlayer.InitiallyInStep | src/components/molecules/SoundPlayer.jsx:10-12 | The widget and a fresh service agree, and nothing is shown as playing. |
| SoundPlayer.HandlersKeepInStep | src/components/molecules/SoundPlayer.jsx:30-53 | Both handlers keep the widget and the service in step. "Now playing" is shown exactly while the service plays a sound. |
| SoundPlayer.ChooseTwiceStops | src/components/molecules/SoundPlayer.jsx:30-44 | Choosing the same sound twice from a quiet player ends with nothing playing on either side. |
| SoundPlayer.SliderVolumeAgrees | src/components/molecules/SoundPlayer.jsx:78-86 | For slider values in [0, 1] the widget's and the service's volume agree. |
| Text.Trim | src/components/organisms/JournalEditor.jsx:38 | `trim` cuts exactly the white space at both ends. The result is empty exactly for blank strings. |
| Text.SplitJoin | src/services/api/journalService.js:128 | Splitting a join on a separator that no piece contains gives back the pieces. |

## Left out

- Backend I/O (`apperClient` fetch/create/update/delete/getRecordById), the simulated `delay`s and the `initializeClient` setup: each call is replaced by its result, given as a parameter.
- `getAll`, `getById`, `getElements`, `getTemplates`, `search`, `getByDateRange`, `getByCategory` (sessions and sounds): these only build a backend query and return its rows. `gardenService.getByCategory` is modelled through the where-clause it builds (`CategoryWhere`).
- The create and update handling of `results`/failed records (logging, then `successfulRecords[0].data`): a save's outcome is a parameter (`Result<StoredGarden>`, `Result<JournalEntry>`). Only the delete answer is modelled, in `RecordApi`.
- Clocks: `Date.now()`, `new Date().toISOString()`, and date-fns `format`/month parsing. Times are parameters (`now`, `today` as a day number, `idTime`, `nameTime`). The streak works on whole days, ignoring time-zone effects of `Math.floor` on millisecond differences.
- MeditationService.StreakWalk: days are day numbers, not timestamps. `Math.floor((today - date) / day)` is assumed to equal the difference of day numbers.
- `Math.random`: the placement position of a new garden element is a parameter constrained to the random ranges.
- `window.confirm`: a boolean parameter.
- Toasts, console logging, loading flags, modals, animation (framer-motion), the ripple's removal timer, the grid toggle and all rendering.
- JSON: only the two shapes that reach the garden `elements` column are modelled: an array of elements, and a string holding JSON text. `Stringify`/`Parse` are an abstract inverse pair, not a character-level JSON codec.
- GardenService.Persist: the backend is assumed to store the `elements` text it is sent, unchanged.
- Text.ToLower: only ASCII letters are folded; `toLowerCase` and `toUpperCase` also fold non-ASCII letters.
- JournalCard.Preview: strings are sequences of code points, while `substring(0, 150)` counts UTF-16 code units.
- GardenElement.IconFor: subtypes that are names of `Object.prototype` members (`toString`, ...) are treated as unknown.
- JournalCard.MoodIconFor: moods that are names of `Object.prototype` members (`toString`, ...) are treated as unknown. The source's `moodMap[mood]` finds the inherited member and shows no fallback icon.
- MeditationService.GetFavorites: compares the session ids as numbers, which is the corrected behaviour. The comparison as written is `GetFavoritesAsWritten` (see Findings).
- Player.FormatTime: defined for non-negative whole seconds; `formatTime` of a negative or fractional value is not modelled.
- GardenCanvas.DragEnd: an element's identity is its index on the canvas. The source compares objects with `el === element`, and the model has no object identity. Two equal elements at different indices are different objects in the source and different indices here.
- GardenPage.InitialPage: the page stores the service's records unchanged and reads `firstGarden.name` and `firstGarden.elements`. The records carry `Name` and `elements` as JSON text. The model reads them through `ViewOf`: the `Name` column and the parsed elements. As written, the name is `undefined`, so the next save throws at `gardenName.trim()`, and the canvas receives the JSON text.
- GardenPage.SaveRequestOf: the in-place test `!currentGarden.isTemplate` is modelled on `ViewOf`'s flag, the `is_template` column. As written the flag is always `undefined`, so an opened template is updated in place (shown by `TemplateFlagLostAsWritten`).
- GardenPage.ApplySave: the returned record is read through `ViewOf`, as for the initial load. As written, the page keeps the raw record, with the consequences listed under InitialPage and SaveRequestOf.
- GardenPage.GalleryFilter: filters gardens read through `ViewOf`. As written, `g.isTemplate` is `undefined` (so the "templates" tab is empty, see `TemplateFlagLostAsWritten`), and `g.name.toLowerCase()` throws on any non-empty query. That throw leaves the gallery unchanged and shows an error toast, which is not modelled.
- GardenPage.GalleryCategoryMatchesService: holds for records read through `ViewOf`. As written, the page's filter ignores `is_template`.
- JournalService.EntryForCreate: the entry's `tags` field stands for the list the pages read as `entry.tags`. The records carry only the comma-joined `Tags` column. As written, `entry.tags` is `undefined`. So tag search never matches, cards show no tags, and editing an entry loads no tags and saves it back with `Tags: ''`.
- JournalEditor.LoadThenSaveKeepsEntry: the round trip keeps the tags only for an entry carrying a `tags` list. Records the service returns have none (see JournalService.EntryForCreate above).
- JournalPage.FilterEntries: tag search is modelled on the `tags` list. As written it never matches records from the service.
- JournalCard.TagRowOf: shown tags come from the `tags` list. As written, cards of service records show none.
- SoundPlayer.InStep: holds for one widget driving the service. Several players sharing the singleton service are not modelled.
- The sound mix's `createdAt` timestamp and `type: 'mix'` marker.
- SoundPlayer.ChangeVolume: `setVolume` never rejects, so the handler's error branch, which would keep the old local volume, cannot be reached and is not modelled.
- The Blob/URL/anchor download that saves an export as a file; only the exported record is modelled.
- `Math.round(volume * 100)` in the volume display, and floating-point rounding of positions, volumes and rotations, which are modelled as exact reals.
- The progress ring percentage and the star-rating display.
- GardenPage.DeleteGarden, GardenPage.SaveRequestOf, GardenPage.ApplySave, GardenPage.ViewOf, JournalPage.ApplyEntrySave, JournalPage.DeleteEntry, JournalPage.FilterEntries, MeditatePage.ToggleFavorite, MeditatePage.IsFavorite, SoundPlayer.ChooseSound, MeditationService.GetFavorites and MeditationService.FavoritesAsWrittenAreEmpty: records are matched on a lower-case `id` field. This covers the garden and journal updates and deletes, the month test of the journal filter (Journal.jsx:89-90), the favourite test (Meditate.jsx:100-112), the sound widget's "same sound" test (SoundPlayer.jsx:32-37) and the progress key `session.id` (Meditate.jsx:73). The garden and journal services write the key column as `Id` (gardenService.js:153, journalService.js:178), and the session and sound services request no id field (meditationService.js:28, soundService.js:29). The model assumes records carry `id`. If they do not, every `id` is `undefined` and `undefined === undefined` holds. As written:
  - deletes and replacements match nothing;
  - the month filter keeps every entry;
  - a favourite toggle removes every favourite;
  - choosing any sound while one plays only pauses;
  - `getFavorites`' `includes(undefined)` returns every catalogue session.
- MeditationCard.ShownTags: takes the session's tag list. The session records carry the `Tags` column, not `tags` (meditationService.js:28, 52, 76). As written, `session.tags` is `undefined`, so the card shows no tags.

## Findings

The page's save (`GardenPage.SaveData`) keeps both thumbnail slips as written. The corrected save is `GardenPage.SaveDataIntended`. The gallery and the save test read records through `GardenPage.ViewOf`, the corrected reading, and `GardenPage.TemplateFlagLostAsWritten` records what the code as written does. `MeditationService.GetFavorites` is the corrected comparison, and `MeditationService.GetFavoritesAsWritten` is the one the code makes.

| source | as written | input that shows it | evidently intended | confidence | as-written member | corrected member |
|---|---|---|---|---|---|---|
| src/services/api/gardenService.js:437-447 | `importGarden` passes the exported `elements` (the stored JSON text) to `create`, which calls `JSON.stringify` on it again | export a garden whose `elements` column is `[{...}]`, then import the exported object | the import restores the same elements (an export/import round trip) | medium, not executed | GardenService.ImportAsWrittenDoubleEncodes | GardenService.ExportImportRoundTrip |
| src/components/pages/Garden.jsx:238-244 | the page's thumbnail tests the types 'rocks' and 'plants', while element types are 'rock' and 'plant' | a garden holding one rock element | the rock (or herb) emoji, as the service's thumbnail gives | medium, not executed | GardenPage.RockGardenLosesItsThumbnail | GardenPage.PageThumbnail |
| src/components/pages/Garden.jsx:101 | the page's thumbnail literals are its emoji misread (`ðŸŒ±` for the sprout): UTF-8 bytes decoded as Windows-1252 | save an empty garden: the stored `thumbnail` is `ðŸŒ±`, not the service's `🌱` | the same emoji texts the service stores | high, not executed | GardenPage.PageTextsAreMisreadEmoji | GardenPage.SaveDataIntended |
| src/components/pages/Garden.jsx:200-203 | the page reads `isTemplate` (also at line 106) on records that carry the flag as `is_template` | a stored template record with `is_template` true, under the "templates" tab | the tab lists the template, and saving it creates a copy | medium, not executed | GardenPage.TemplateFlagLostAsWritten | GardenPage.GalleryCategoryMatchesService |
| src/services/api/meditationService.js:184-186 | the favourite ids are the progress map's keys, the numeric `session.id` the meditation page records, but each session is tested with `includes(session.id?.toString())`, a string | complete session 1 once, then ask for favourites; this needs session records that carry `id` (without it every session is returned, see the `id` line under Left out) | session 1 is a favourite | medium, not executed | MeditationService.FavoritesAsWrittenAreEmpty | MeditationService.GetFavorites |

=== FILE: element_palette.dfy ===
/** The element palette: its category tabs, the elements of the active tab and
    the empty-tab message. */
module ElementPalette {

  import opened Wrappers
  import opened Seqs
  import opened GardenElement

  /** The position of the first occurrence of `x` in `s`. */
  function FirstIndex<T(==)>(s: seq<T>, x: T): (i: nat)
    requires x in s
    ensures i < |s| && s[i] == x && x !in s[..i]
  {
    if s[0] == x then 0 else 1 + FirstIndex(s[1..], x)
  }

  /** The first occurrence of an element of a prefix does not move when the
      sequence grows at the end. */
  lemma {:induction false} FirstIndexPrefix<T>(s: seq<T>, x: T, y: T)
    requires y in s
    ensures FirstIndex(s + [x], y) == FirstIndex(s, y)
  {
    if s[0] != y {
      assert (s + [x])[1..] == s[1..] + [x];
      FirstIndexPrefix(s[1..], x, y);
    }
  }

  /** `[...new Set(s)]`: every value once, in the order of its first
      appearance. */
  function Distinct(s: seq<string>): (r: seq<string>)
    ensures forall x :: x in r <==> x in s
    ensures forall i, j :: 0 <= i < j < |r| ==> r[i] != r[j]
    ensures forall i, j :: 0 <= i < j < |r| ==> FirstIndex(s, r[i]) < FirstIndex(s, r[j])
  {
    if s == [] then []
    else
      var front := s[..|s| - 1];
      var last := s[|s| - 1];
      var r := Distinct(front);
      assert s == front + [last];
      forall y | y in r
        ensures FirstIndex(s, y) == FirstIndex(front, y) < |front|
      {
        FirstIndexPrefix(front, last, y);
      }
      if last in r then r
      else
        assert FirstIndex(s, last) == |front|;
        r + [last]
  }

  /** The tab that is active when the palette opens: the one asked for, or
      "Rocks". */
  function InitialCategory(selected: Option<string>): (c: string)
    ensures c != ""
    ensures selected.Some? && selected.value != "" ==> c == selected.value
    ensures selected.None? || selected.value == "" ==> c == DefaultCategory
  {
    OrElse(selected, DefaultCategory)
  }

  const DefaultCategory := "Rocks"

  /** `elements.map(el => el.category)`. */
  function CategoryList(elements: seq<Element>): (all: seq<string>)
    ensures |all| == |elements|
    ensures forall i :: 0 <= i < |elements| ==> all[i] == elements[i].category
  {
    seq(|elements|, i requires 0 <= i < |elements| => elements[i].category)
  }

  /** The category tabs: the elements' categories, each once, in order of first
      appearance. */
  function Categories(elements: seq<Element>): (cs: seq<string>)
    ensures forall c :: c in cs <==> exists e :: e in elements && e.category == c
    ensures forall c :: c in cs <==> c in CategoryList(elements)
    ensures forall i, j :: 0 <= i < j < |cs| ==> cs[i] != cs[j]
    ensures forall i, j :: 0 <= i < j < |cs| ==>
              FirstIndex(CategoryList(elements), cs[i]) < FirstIndex(CategoryList(elements), cs[j])
  {
    var all := CategoryList(elements);
    assert forall c :: c in all <==> exists e :: e in elements && e.category == c by {
      forall c | exists e :: e in elements && e.category == c
        ensures c in all
      {
        var e :| e in elements && e.category == c;
        var i :| 0 <= i < |elements| && elements[i] == e;
        assert all[i] == c;
      }
    }
    Distinct(all)
  }

  /** The elements of the active tab, in palette order. */
  function Shown(elements: seq<Element>, active: string): (r: seq<Element>)
    ensures IsSubsequence(r, elements)
    ensures forall e :: e in r <==> e in elements && e.category == active
  {
    FilterIsSubsequence((e: Element) => e.category == active, elements);
    Filter((e: Element) => e.category == active, elements)
  }

  /** The "No elements in this category" message appears exactly for a tab no
      element belongs to, so never for one of the listed tabs. */
  lemma EmptyStateOnlyForUnlistedTabs(elements: seq<Element>, active: string)
    ensures Shown(elements, active) == [] <==> active !in Categories(elements)
  {
    var r := Shown(elements, active);
    if active in Categories(elements) {
      var e :| e in elements && e.category == active;
      assert e in r;
    }
  }

  /** Opened without a category, the palette shows exactly the rock elements,
      in palette order; it shows the empty-tab message only when there are none. */
  lemma OpensOnRocks(elements: seq<Element>, selected: Option<string>)
    requires selected.None? || selected.value == ""
    ensures forall e :: e in Shown(elements, InitialCategory(selected)) <==> e in elements && e.category == "Rocks"
    ensures Shown(elements, InitialCategory(selected)) == [] <==> "Rocks" !in Categories(elements)
  {
    EmptyStateOnlyForUnlistedTabs(elements, InitialCategory(selected));
  }
}

=== FILE: encoding.dfy ===
/** Text as it reads when its UTF-8 bytes are decoded as Windows-1252: the way
    an emoji saved as UTF-8 and read back as Windows-1252 turns into a run of
    Latin letters and punctuation. */
module Encoding {

  /** The UTF-8 bytes of one Unicode scalar value. */
  function Utf8Bytes(c: char): (bs: seq<int>)
    ensures 1 <= |bs| <= 4
    ensures c as int < 0x80 <==> |bs| == 1
  {
    var n := c as int;
    if n < 0x80 then [n]
    else if n < 0x800 then [0xC0 + n / 64, 0x80 + n % 64]
    else if n < 0x1_0000 then [0xE0 + n / 4096, 0x80 + n / 64 % 64, 0x80 + n % 64]
    else [0xF0 + n / 262144, 0x80 + n / 4096 % 64, 0x80 + n / 64 % 64, 0x80 + n % 64]
  }

  /** The characters Windows-1252 assigns to the bytes 0x80 to 0x9F; the five
      bytes it leaves unassigned decode to the control character of the same
      number. */
  const High: seq<char> := [
    '\U{20AC}', '\U{0081}', '\U{201A}', '\U{0192}', '\U{201E}', '\U{2026}', '\U{2020}', '\U{2021}',
    '\U{02C6}', '\U{2030}', '\U{0160}', '\U{2039}', '\U{0152}', '\U{008D}', '\U{017D}', '\U{008F}',
    '\U{0090}', '\U{2018}', '\U{2019}', '\U{201C}', '\U{201D}', '\U{2022}', '\U{2013}', '\U{2014}',
    '\U{02DC}', '\U{2122}', '\U{0161}', '\U{203A}', '\U{0153}', '\U{009D}', '\U{017E}', '\U{0178}']

  /** The Windows-1252 character of one byte: the table above for 0x80 to 0x9F,
      the Latin-1 character of the same number otherwise. */
  function Cp1252Char(b: int): char
    requires 0 <= b < 256
  {
    if 0x80 <= b < 0xA0 then High[b - 0x80] else b as char
  }

  /** Bytes decoded one by one as Windows-1252. */
  function Cp1252Decode(bs: seq<int>): (s: string)
    requires forall i :: 0 <= i < |bs| ==> 0 <= bs[i] < 256
    ensures |s| == |bs|
    ensures forall i :: 0 <= i < |bs| ==> s[i] == Cp1252Char(bs[i])
  {
    if bs == [] then [] else [Cp1252Char(bs[0])] + Cp1252Decode(bs[1..])
  }

  /** A text written out as UTF-8 and read back as Windows-1252. */
  function Misread(s: string): (r: string)
    ensures |r| >= |s|
  {
    if s == [] then []
    else
      var bs := Utf8Bytes(s[0]);
      assert forall i :: 0 <= i < |bs| ==> 0 <= bs[i] < 256;
      Cp1252Decode(bs) + Misread(s[1..])
  }

  /** A character of four UTF-8 bytes misreads as the four characters of those
      bytes. */
  lemma MisreadFourBytes(c: char, bs: seq<int>)
    requires Utf8Bytes(c) == bs && |bs| == 4
    ensures forall i :: 0 <= i < 4 ==> 0 <= bs[i] < 256
    ensures Misread([c]) == [Cp1252Char(bs[0]), Cp1252Char(bs[1]), Cp1252Char(bs[2]), Cp1252Char(bs[3])]
  {
    assert [c][1..] == [];
    assert Misread([c]) == Cp1252Decode(bs) + Misread([]);
  }
}

=== FILE: garden_canvas.dfy ===
/** The garden canvas: moving and rotating one placed element, the ripple a
    water element leaves, and the click and clear controls. Elements are named
    by their index in the list, the model's stand-in for the object identity
    (`===`) the canvas compares by. */
module GardenCanvas {

  import opened Wrappers
  import opened GardenElement

  /** What a drag release produces: the new element list and, for a water
      element, the point where a ripple starts. */
  datatype DragOutcome = DragOutcome(elements: seq<Element>, ripple: Option<Position>)

  /** Half the element box: a ripple starts at the centre of the element. */
  const RippleOffset: real := 25.0

  /** `handleElementDragEnd`: the element at `target` (the `dragged` one) gets
      the released position; a ripple is started when it is water. */
  function DragEnd(elements: seq<Element>, target: int, dragged: Element, released: Position): (o: DragOutcome)
    ensures |o.elements| == |elements|
    ensures forall i :: 0 <= i < |elements| && i != target ==> o.elements[i] == elements[i]
    ensures 0 <= target < |elements| ==>
              o.elements[target] == elements[target].(position := Some(released))
    ensures o.ripple.Some? <==> dragged.kind == "water"
    ensures o.ripple.Some? ==>
              o.ripple.value == Position(released.x + RippleOffset, released.y + RippleOffset)
  {
    var moved := seq(|elements|, i requires 0 <= i < |elements| =>
                       if i == target then elements[i].(position := Some(released)) else elements[i]);
    var ripple := if dragged.kind == "water"
                  then Some(Position(released.x + RippleOffset, released.y + RippleOffset))
                  else None;
    DragOutcome(moved, ripple)
  }

  /** Two drags of the same element leave it where the second one ended. */
  lemma SecondDragWins(elements: seq<Element>, target: int, dragged: Element, first: Position, second: Position)
    ensures DragEnd(DragEnd(elements, target, dragged, first).elements, target, dragged, second).elements
            == DragEnd(elements, target, dragged, second).elements
  {
  }

  /** The step a double click turns an element by, in degrees. */
  const RotationStep: real := 45.0

  /** `handleElementDoubleClick`: the element at `target` turns by 45 degrees
      from its rotation (0 when missing), with no reduction modulo 360. */
  function Rotate(elements: seq<Element>, target: int): (r: seq<Element>)
    ensures |r| == |elements|
    ensures forall i :: 0 <= i < |elements| && i != target ==> r[i] == elements[i]
    ensures 0 <= target < |elements| ==>
              r[target] == elements[target].(rotation := Some(RotationOf(elements[target]) + RotationStep))
  {
    seq(|elements|, i requires 0 <= i < |elements| =>
          if i == target then elements[i].(rotation := Some(RotationOf(elements[i]) + RotationStep))
          else elements[i])
  }

  /** Rotating the same element twice adds exactly 90 degrees. */
  lemma RotateTwice(elements: seq<Element>, target: int)
    requires 0 <= target < |elements|
    ensures RotationOf(Rotate(Rotate(elements, target), target)[target]) == RotationOf(elements[target]) + 90.0
  {
  }

  /** `n` double clicks on the same element. */
  function RotateTimes(elements: seq<Element>, target: int, n: nat): (r: seq<Element>)
    ensures |r| == |elements|
  {
    if n == 0 then elements else Rotate(RotateTimes(elements, target, n - 1), target)
  }

  /** `n` double clicks add `45 n` degrees, so eight of them add a full 360
      rather than wrapping back to the start; the other elements never move. */
  lemma {:induction false} RotateTimesAdds(elements: seq<Element>, target: int, n: nat)
    requires 0 <= target < |elements|
    ensures RotationOf(RotateTimes(elements, target, n)[target]) == RotationOf(elements[target]) + 45.0 * n as real
    ensures forall i :: 0 <= i < |elements| && i != target ==> RotateTimes(elements, target, n)[i] == elements[i]
  {
    if n > 0 {
      RotateTimesAdds(elements, target, n - 1);
    }
  }

  /** `handleCanvasClick`: the selection is cleared only when the click landed
      on the canvas itself rather than on an element. */
  function CanvasClick(onCanvas: bool, selection: Option<Element>): (r: Option<Element>)
    ensures onCanvas ==> r.None?
    ensures !onCanvas ==> r == selection
  {
    if onCanvas then None else selection
  }

  /** Two clicks act like one: the selection survives both only when neither
      landed on the canvas itself. */
  lemma ClicksCompose(first: bool, second: bool, selection: Option<Element>)
    ensures CanvasClick(second, CanvasClick(first, selection)) == CanvasClick(first || second, selection)
    ensures CanvasClick(first, CanvasClick(first, selection)) == CanvasClick(first, selection)
  {
  }

  /** The canvas contents the clear button acts on. */
  datatype CanvasState = CanvasState(elements: seq<Element>, selection: Option<Element>)

  /** `clearCanvas`: `confirmed` is the answer to the confirmation dialog. */
  function Clear(st: CanvasState, confirmed: bool): (r: CanvasState)
    ensures confirmed ==> r.elements == [] && r.selection.None?
    ensures !confirmed ==> r == st
  {
    if confirmed then CanvasState([], None) else st
  }

  /** Clearing twice is clearing once when either dialog was confirmed, and a
      cleared canvas has nothing a click could still deselect. */
  lemma ClearCompose(st: CanvasState, first: bool, second: bool, onCanvas: bool)
    ensures Clear(Clear(st, first), second) == Clear(st, first || second)
    ensures first ==> CanvasClick(onCanvas, Clear(st, first).selection) == Clear(st, first).selection
  {
  }
}

=== FILE: garden_element.dfy ===
/** A garden element as the canvas draws it: the record itself, where a drag
    leaves it, and which glyph and size it is drawn with. */
module GardenElement {

  import opened Wrappers

  /** A point on the canvas, in pixels from its top-left corner. */
  datatype Position = Position(x: real, y: real)

  /** A palette element, or one placed on a garden (then it has a position and
      usually a rotation and a scale). `kind` is the record's `type` field. */
  datatype Element = Element(
    name: string,
    kind: string,
    subtype: string,
    category: string,
    position: Option<Position>,
    rotation: Option<real>,
    scale: Option<real>)

  /** The side of the box an element occupies on the canvas. */
  const ElementExtent: real := 50.0

  function Max(a: real, b: real): real { if a < b then b else a }
  function Min(a: real, b: real): real { if a < b then a else b }

  /** One coordinate after a drag: `max(0, min(extent - 50, v))`. */
  function ClampAxis(v: real, extent: real): (r: real)
    ensures r >= 0.0
    ensures extent >= ElementExtent ==> r <= extent - ElementExtent
    ensures 0.0 <= v <= extent - ElementExtent ==> r == v
    ensures extent < ElementExtent ==> r == 0.0
  {
    Max(0.0, Min(extent - ElementExtent, v))
  }

  /** A clamped coordinate is left alone by a second clamp. */
  lemma ClampAxisIdempotent(v: real, extent: real)
    ensures ClampAxis(ClampAxis(v, extent), extent) == ClampAxis(v, extent)
  {
  }

  /** The position reported when a drag is released: the old position moved by
      the drag offset, each coordinate clamped to the canvas. */
  function DragRelease(position: Position, offset: Position, width: real, height: real): (p: Position)
    ensures p.x >= 0.0 && p.y >= 0.0
    ensures width >= ElementExtent ==> p.x <= width - ElementExtent
    ensures height >= ElementExtent ==> p.y <= height - ElementExtent
    ensures 0.0 <= position.x + offset.x <= width - ElementExtent
            && 0.0 <= position.y + offset.y <= height - ElementExtent
            ==> p == Position(position.x + offset.x, position.y + offset.y)
  {
    Position(ClampAxis(position.x + offset.x, width), ClampAxis(position.y + offset.y, height))
  }

  /** Releasing a drag without moving keeps an element that already lies on the
      canvas where it is. */
  lemma StillDragKeepsPosition(position: Position, width: real, height: real)
    requires 0.0 <= position.x <= width - ElementExtent && 0.0 <= position.y <= height - ElementExtent
    ensures DragRelease(position, Position(0.0, 0.0), width, height) == position
  {
  }

  /** A missing rotation is drawn as 0 degrees. */
  function RotationOf(e: Element): (r: real)
    ensures e.rotation.Some? ==> r == e.rotation.value
    ensures e.rotation.None? ==> r == 0.0
  {
    e.rotation.GetOr(0.0)
  }

  /** A missing scale is drawn as 1. */
  function ScaleOf(e: Element): (r: real)
    ensures e.scale.Some? ==> r == e.scale.value
    ensures e.scale.None? ==> r == 1.0
  {
    e.scale.GetOr(1.0)
  }

  /** The glyph drawn for an element whose subtype has none of its own. */
  const FallbackIcon := "⚫"

  /** The subtypes that have a glyph of their own. */
  const KnownSubtypes: set<string> := {
    "meditation-stone", "large-boulder", "river-stone", "zen-stone",
    "bamboo", "cherry-blossom", "lotus", "moss", "fern", "night-jasmine", "single-bamboo",
    "small-pond", "stream", "fountain", "reflection-pool"}

  /** `getElementIcon`. */
  function IconFor(subtype: string): string
  {
    match subtype
    case "meditation-stone" => "⬜"
    case "large-boulder" => "🪨"
    case "river-stone" => "🥌"
    case "zen-stone" => "⚪"
    case "bamboo" => "🎋"
    case "cherry-blossom" => "🌸"
    case "lotus" => "🪷"
    case "moss" => "🟢"
    case "fern" => "🌿"
    case "night-jasmine" => "🌼"
    case "single-bamboo" => "🪴"
    case "small-pond" => "🫧"
    case "stream" => "〰️"
    case "fountain" => "⛲"
    case "reflection-pool" => "💧"
    case _ => FallbackIcon
  }

  /** The fallback glyph is drawn exactly for the subtypes without a glyph of
      their own, and every known subtype has a non-empty glyph. */
  lemma IconFallback(subtype: string)
    ensures IconFor(subtype) == FallbackIcon <==> subtype !in KnownSubtypes
    ensures IconFor(subtype) != ""
  {
  }

  /** The two text sizes `getElementSize` can pick. */
  datatype SizeClass = Medium | Large

  /** `getElementSize`. */
  function SizeFor(kind: string): SizeClass
  {
    if kind == "water" then Medium
    else if kind == "rock" then Medium
    else if kind == "plant" then Large
    else Medium
  }

  /** Plants are drawn large; water, rocks and every other type medium. */
  lemma SizeIsLargeOnlyForPlants(kind: string)
    ensures SizeFor(kind) == Large <==> kind == "plant"
    ensures SizeFor("water") == SizeFor("rock") == Medium
  {
  }
}

=== FILE: garden_page.dfy ===
/** The garden page: the garden being edited, placing palette elements on it,
    saving it (update in place or create), deleting from the list, the gallery
    filter and the page's own thumbnail choice. Service calls are given as
    their results; the random placement is given as a position. */
module GardenPage {

  import opened Wrappers
  import opened Seqs
  import opened Text
  import opened Numerals
  import opened GardenElement
  import opened GardenService
  import opened Encoding

  /** A garden as the page reads it. An id of 0 is falsy to the page's
      `currentGarden?.id` test, like a missing one. */
  datatype Garden = Garden(
    id: Option<int>,
    name: string,
    description: string,
    elements: seq<Element>,
    thumbnail: string,
    isTemplate: bool)

  /** The page state the handlers below change. */
  datatype PageState = PageState(
    gardens: seq<Garden>,
    current: Option<Garden>,
    elements: seq<Element>,
    name: string,
    selected: Option<Element>)

  predicate IdTruthy(id: Option<int>) {
    id.Some? && id.value != 0
  }

  /** The elements a stored record's `elements` text holds: the parsed array, or
      none when the text is missing or holds anything else. */
  function StoredElements(s: StoredGarden): seq<Element>
  {
    if s.elements.Some? && Parse(s.elements.value).JArray? then Parse(s.elements.value).items else []
  }

  /** A stored record read through the service's own column names: `Name`,
      `is_template`, and `elements` parsed from its JSON text. The page itself
      reads `name`, `isTemplate` and `elements` directly (see
      `TemplateFlagLostAsWritten`); this is the reading it evidently means. */
  function ViewOf(s: StoredGarden): (g: Garden)
    ensures g.id == Some(s.id) && g.name == s.name && g.isTemplate == s.isTemplate
    ensures g.description == s.description.GetOr("") && g.thumbnail == s.thumbnail.GetOr("")
    ensures s.elements.Some? && Parse(s.elements.value).JArray? ==> g.elements == Parse(s.elements.value).items
    ensures s.elements.None? ==> g.elements == []
  {
    Garden(Some(s.id), s.name, s.description.GetOr(""), StoredElements(s), s.thumbnail.GetOr(""), s.isTemplate)
  }

  function Views(stored: seq<StoredGarden>): (gs: seq<Garden>)
    ensures |gs| == |stored|
    ensures forall i :: 0 <= i < |stored| ==> gs[i] == ViewOf(stored[i])
  {
    if stored == [] then [] else [ViewOf(stored[0])] + Views(stored[1..])
  }

  const DefaultName := "My Zen Garden"
  const NewGardenName := "My New Garden"

  /** The state after the initial load of the stored gardens: the first one is
      opened when there is one, otherwise an empty garden named "My Zen
      Garden". */
  function InitialPage(stored: seq<StoredGarden>): (p: PageState)
    ensures p.gardens == Views(stored) && p.selected.None?
    ensures |stored| > 0 ==> p.current == Some(ViewOf(stored[0])) && p.elements == StoredElements(stored[0])
                             && p.name == stored[0].name
    ensures stored == [] ==> p.current.None? && p.elements == [] && p.name == DefaultName
  {
    var gardens := Views(stored);
    if |stored| > 0 then PageState(gardens, Some(gardens[0]), gardens[0].elements, gardens[0].name, None)
    else PageState(gardens, None, [], DefaultName, None)
  }

  /** Opening the first garden and saving it without changes updates that garden
      in place (unless it is a template) with its own name and exactly the
      elements it was stored with. */
  lemma OpenThenSaveKeepsGarden(stored: seq<StoredGarden>)
    requires |stored| > 0 && stored[0].id != 0 && !stored[0].isTemplate && !IsBlank(stored[0].name)
    ensures var r := SaveRequestOf(InitialPage(stored));
            && r.Some? && r.value == UpdateRequest(stored[0].id, r.value.data)
            && r.value.data.elements == Some(JArray(StoredElements(stored[0])))
            && r.value.data.name == Some(Trim(stored[0].name))
  {
  }

  /** The template flag as the page reads it from a stored record: the record
      carries the flag as `is_template`, so `isTemplate` is `undefined`. */
  function PageTemplateFlagAsWritten(s: StoredGarden): Option<bool>
  {
    None
  }

  /** The gallery's category test as written, on the stored records. */
  predicate CategoryKeepsAsWritten(category: string, s: StoredGarden) {
    category == "all"
    || (if category == "templates" then Truthy(PageTemplateFlagAsWritten(s)) else !Truthy(PageTemplateFlagAsWritten(s)))
  }

  /** The in-place save test as written, on a stored record. */
  predicate SavesInPlaceAsWritten(current: Option<StoredGarden>) {
    current.Some? && current.value.id != 0 && !Truthy(PageTemplateFlagAsWritten(current.value))
  }

  /** As written, the "templates" tab keeps no garden at all, and saving an
      opened template overwrites it; read through the record's columns, the
      tab keeps the templates and the save creates a copy. */
  lemma TemplateFlagLostAsWritten(sorted: seq<StoredGarden>, t: StoredGarden)
    requires t.isTemplate && t.id != 0
    ensures Filter((s: StoredGarden) => CategoryKeepsAsWritten("templates", s), sorted) == []
    ensures SavesInPlaceAsWritten(Some(t)) && !SavesInPlace(Some(ViewOf(t)))
    ensures CategoryKeeps("templates", ViewOf(t))
  {
    FilterNone((s: StoredGarden) => CategoryKeepsAsWritten("templates", s), sorted);
  }

  // ---------------------------------------------------------------- placing elements

  /** The range `Math.random() * 300 + 100` and `Math.random() * 200 + 100`
      place a new element in. */
  predicate InPlacementArea(at: Position) {
    100.0 <= at.x < 400.0 && 100.0 <= at.y < 300.0
  }

  /** `handleElementSelect`: a palette element is appended at `at`, unrotated
      and at scale 1; selecting nothing changes nothing. */
  function SelectElement(elements: seq<Element>, element: Option<Element>, at: Position): (r: seq<Element>)
    requires InPlacementArea(at)
    ensures element.None? ==> r == elements
    ensures element.Some? ==>
              |r| == |elements| + 1 && r[..|elements|] == elements
              && r[|elements|] == element.value.(position := Some(at), rotation := Some(0.0), scale := Some(1.0))
  {
    if element.None? then elements
    else elements + [element.value.(position := Some(at), rotation := Some(0.0), scale := Some(1.0))]
  }

  /** A newly placed element is drawn unrotated at scale 1, and on a canvas of
      at least 450 by 350 pixels a release without movement leaves it in place. */
  lemma PlacedElementFitsCanvas(elements: seq<Element>, element: Element, at: Position, width: real, height: real)
    requires InPlacementArea(at) && width >= 450.0 && height >= 350.0
    ensures var placed := SelectElement(elements, Some(element), at)[|elements|];
            && RotationOf(placed) == 0.0 && ScaleOf(placed) == 1.0
            && DragRelease(placed.position.value, Position(0.0, 0.0), width, height) == at
  {
  }

  // ---------------------------------------------------------------- thumbnail

  /** The four thumbnails the page itself can choose. */
  predicate PageGlyph(g: Glyph) {
    g.Sprout? || g.Rock? || g.Herb? || g.Droplet?
  }

  /** The page's own thumbnail texts. They are not the service's emoji: each is
      the emoji's UTF-8 bytes read as Windows-1252 (`ðŸŒ±` for the sprout). */
  function PageGlyphText(g: Glyph): string
    requires PageGlyph(g)
  {
    match g
    case Sprout => "\U{F0}\U{178}\U{152}\U{B1}"
    case Rock => "\U{F0}\U{178}\U{AA}\U{A8}"
    case Herb => "\U{F0}\U{178}\U{152}\U{BF}"
    case Droplet => "\U{F0}\U{178}\U{2019}\U{A7}"
  }

  /** Each page text is the service's emoji misread, and none of them equals any
      text the service stores as a thumbnail. */
  lemma PageTextsAreMisreadEmoji(g: Glyph)
    requires PageGlyph(g)
    ensures PageGlyphText(g) == Misread(GlyphText(g))
    ensures forall h :: PageGlyphText(g) != GlyphText(h)
  {
    match g {
      case Sprout => MisreadGlyph(Sprout, '\U{1F331}', [0xF0, 0x9F, 0x8C, 0xB1]);
      case Rock => MisreadGlyph(Rock, '\U{1FAA8}', [0xF0, 0x9F, 0xAA, 0xA8]);
      case Herb => MisreadGlyph(Herb, '\U{1F33F}', [0xF0, 0x9F, 0x8C, 0xBF]);
      case Droplet => MisreadGlyph(Droplet, '\U{1F4A7}', [0xF0, 0x9F, 0x92, 0xA7]);
    }
    PageTextsAreNotServiceTexts(g);
  }

  lemma MisreadGlyph(g: Glyph, c: char, bs: seq<int>)
    requires PageGlyph(g) && GlyphText(g) == [c]
    requires Utf8Bytes(c) == bs && |bs| == 4
    requires forall i :: 0 <= i < 4 ==> 0 <= bs[i] < 256
    requires PageGlyphText(g) == [Cp1252Char(bs[0]), Cp1252Char(bs[1]), Cp1252Char(bs[2]), Cp1252Char(bs[3])]
    ensures PageGlyphText(g) == Misread(GlyphText(g))
  {
    MisreadFourBytes(c, bs);
  }

  lemma PageTextsAreNotServiceTexts(g: Glyph)
    requires PageGlyph(g)
    ensures forall h :: PageGlyphText(g) != GlyphText(h)
  {
    forall h ensures PageGlyphText(g) != GlyphText(h) {
      assert PageGlyphText(g)[0] == '\U{F0}';
      assert GlyphText(h)[0] as int >= 0x1_0000;
    }
  }

  /** `getGardenThumbnail` as written: it looks for the type names `rocks` and
      `plants`, which no element has (elements are typed `rock` and `plant`). */
  function PageThumbnailAsWritten(elements: seq<Element>): (g: Glyph)
    ensures PageGlyph(g)
    ensures g == Rock <==> HasKind(elements, "rocks")
    ensures g == Herb <==> !HasKind(elements, "rocks") && HasKind(elements, "plants")
    ensures g == Droplet <==> !HasKind(elements, "rocks") && !HasKind(elements, "plants") && HasKind(elements, "water")
    ensures g == Sprout <==> !HasKind(elements, "rocks") && !HasKind(elements, "plants") && !HasKind(elements, "water")
  {
    if HasKind(elements, "rocks") then Rock
    else if HasKind(elements, "plants") then Herb
    else if HasKind(elements, "water") then Droplet
    else Sprout
  }

  /** A garden of rocks gets the sprout from the page's thumbnail as written,
      where the service's thumbnail and the corrected page rule give it a rock;
      its save sends the page's sprout text. */
  lemma RockGardenLosesItsThumbnail(e: Element, p: PageState)
    requires e.kind == "rock" && p.elements == [e]
    ensures PageThumbnailAsWritten([e]) == Sprout
    ensures GenerateThumbnail(Some([e])) == Rock
    ensures PageThumbnail([e]) == Rock
    ensures SaveData(p).thumbnail == Some(PageGlyphText(Sprout))
  {
    assert e in [e];
    assert !HasKind([e], "rocks") && !HasKind([e], "plants") && !HasKind([e], "water");
  }

  /** `getGardenThumbnail` with the element type names the rest of the
      application uses: rocks first, then plants, then water, else the sprout. */
  function PageThumbnail(elements: seq<Element>): (g: Glyph)
    ensures g == Rock <==> HasKind(elements, "rock")
    ensures g == Herb <==> !HasKind(elements, "rock") && HasKind(elements, "plant")
    ensures g == Droplet <==> !HasKind(elements, "rock") && !HasKind(elements, "plant") && HasKind(elements, "water")
    ensures g == Sprout <==> !HasKind(elements, "rock") && !HasKind(elements, "plant") && !HasKind(elements, "water")
  {
    if HasKind(elements, "rock") then Rock
    else if HasKind(elements, "plant") then Herb
    else if HasKind(elements, "water") then Droplet
    else Sprout
  }

  /** The corrected page rule and the service agree on which gardens get the
      plain sprout. */
  lemma PageThumbnailAgreesOnSprout(elements: seq<Element>)
    ensures PageThumbnail(elements) == Sprout <==> GenerateThumbnail(Some(elements)) == Sprout
  {
  }

  // ---------------------------------------------------------------- saving

  /** What a save sends: an update of the current garden or a new garden. */
  datatype SaveRequest = UpdateRequest(id: int, data: GardenInput) | CreateRequest(data: GardenInput)

  /** The save updates in place exactly when the current garden has a truthy id
      and is not a template. */
  predicate SavesInPlace(current: Option<Garden>) {
    current.Some? && IdTruthy(current.value.id) && !current.value.isTemplate
  }

  /** The garden data `handleSaveGarden` builds for a non-blank name, with the
      page's thumbnail rule and texts as written. */
  function SaveData(p: PageState): (d: GardenInput)
    ensures d.name == Some(Trim(p.name)) && d.isTemplate == Some(false)
    ensures d.elements == Some(JArray(p.elements))
    ensures d.description == Some("A peaceful garden with " + NatToString(|p.elements|) + " elements")
    ensures !HasKind(p.elements, "rocks") && !HasKind(p.elements, "plants") ==>
              d.thumbnail == Some(PageGlyphText(if HasKind(p.elements, "water") then Droplet else Sprout))
    ensures HasKind(p.elements, "rocks") ==> d.thumbnail == Some(PageGlyphText(Rock))
    ensures !HasKind(p.elements, "rocks") && HasKind(p.elements, "plants") ==> d.thumbnail == Some(PageGlyphText(Herb))
    ensures d.thumbnail.Some? && forall h :: d.thumbnail.value != GlyphText(h)
  {
    var g := if |p.elements| > 0 then PageThumbnailAsWritten(p.elements) else Sprout;
    PageTextsAreMisreadEmoji(g);
    GardenInput(
      Some(Trim(p.name)), None, None, None,
      Some("A peaceful garden with " + NatToString(|p.elements|) + " elements"),
      Some(JArray(p.elements)),
      Some(false), None,
      Some(PageGlyphText(g)))
  }

  /** The save data with both thumbnail slips corrected: the rule uses the
      application's type names and the texts are the service's emoji. The
      stored thumbnail then matches the service's: its sprout default for an
      empty canvas, its rock for a garden of rocks. */
  function SaveDataIntended(p: PageState): (d: GardenInput)
    ensures d.(thumbnail := None) == SaveData(p).(thumbnail := None)
    ensures MapForCreate(d).thumbnail == GlyphText(PageThumbnail(p.elements))
    ensures p.elements == [] ==> MapForCreate(d).thumbnail == MapForCreate(d.(thumbnail := None)).thumbnail
    ensures (forall e :: e in p.elements ==> e.kind == "rock") && p.elements != [] ==>
              MapForCreate(d).thumbnail == GlyphText(GenerateThumbnail(Some(p.elements)))
  {
    SaveData(p).(thumbnail := Some(GlyphText(PageThumbnail(p.elements))))
  }

  /** The request a save sends, or none when the name is blank. */
  function SaveRequestOf(p: PageState): (r: Option<SaveRequest>)
    ensures r.None? <==> IsBlank(p.name)
    ensures r.Some? ==> r.value.data == SaveData(p) && Trim(p.name) != ""
    ensures r.Some? ==> (r.value.UpdateRequest? <==> SavesInPlace(p.current))
    ensures r.Some? && r.value.UpdateRequest? ==> p.current.value.id == Some(r.value.id)
  {
    if Trim(p.name) == "" then None
    else if SavesInPlace(p.current) then Some(UpdateRequest(p.current.value.id.value, SaveData(p)))
    else Some(CreateRequest(SaveData(p)))
  }

  /** A saved garden reaches the record API as a personal garden with the
      trimmed name and exactly the page's elements. */
  lemma SaveSendsTheElements(p: PageState)
    requires !IsBlank(p.name)
    ensures var r := MapForCreate(SaveRequestOf(p).value.data);
            && Parse(r.elements) == JArray(p.elements)
            && !r.isTemplate
            && r.name == Some(Trim(p.name))
  {
  }

  /** `handleSaveGarden` once the service call has returned `saved`: the
      returned garden replaces the id-matched ones in place or is put first,
      and becomes the current garden. A blank name or a failed call changes
      nothing. */
  function ApplySave(p: PageState, saved: Result<StoredGarden>): (q: PageState)
    ensures IsBlank(p.name) || saved.Failure? ==> q == p
    ensures !IsBlank(p.name) && saved.Success? ==>
              q.current == Some(ViewOf(saved.value)) && q.elements == p.elements && q.name == p.name
              && q.selected == p.selected
    ensures !IsBlank(p.name) && saved.Success? && SavesInPlace(p.current) ==>
              |q.gardens| == |p.gardens|
              && forall i :: 0 <= i < |p.gardens| ==>
                   q.gardens[i] == (if p.gardens[i].id == p.current.value.id then ViewOf(saved.value) else p.gardens[i])
    ensures !IsBlank(p.name) && saved.Success? && !SavesInPlace(p.current) ==>
              q.gardens == [ViewOf(saved.value)] + p.gardens
  {
    var request := SaveRequestOf(p);
    if request.None? || saved.Failure? then p
    else
      var g := ViewOf(saved.value);
      if request.value.UpdateRequest? then
        p.(gardens := ReplaceWhere((h: Garden) => h.id, p.current.value.id, g, p.gardens), current := Some(g))
      else
        p.(gardens := [g] + p.gardens, current := Some(g))
  }

  /** A created garden, stored as the record API is taken to store it, reads
      back with the trimmed name, the canvas elements and the save's
      description, as a personal garden. */
  lemma SavedGardenReadsBack(p: PageState, id: int)
    requires !IsBlank(p.name)
    ensures var g := ViewOf(Persist(id, MapForCreate(SaveRequestOf(p).value.data)));
            && g.id == Some(id) && g.name == Trim(p.name) && g.elements == p.elements && !g.isTemplate
            && g.description == SaveData(p).description.value
  {
    var r := MapForCreate(SaveRequestOf(p).value.data);
    assert Parse(r.elements) == JArray(p.elements);
  }

  /** `handleNewGarden`: no current garden, no elements, the default new name,
      no selection; the list of gardens is kept. */
  function NewGarden(p: PageState): (q: PageState)
    ensures q.gardens == p.gardens && q.current.None? && q.elements == [] && q.selected.None?
    ensures q.name == NewGardenName
  {
    PageState(p.gardens, None, [], NewGardenName, None)
  }

  /** After "new garden", saving creates a new garden named "My New Garden"
      with the sprout thumbnail rather than overwriting the previous one. */
  lemma NewGardenSavesAsNew(p: PageState)
    ensures var r := SaveRequestOf(NewGarden(p));
            && r.Some? && r.value.CreateRequest?
            && r.value.data.name == Some(NewGardenName)
            && r.value.data.thumbnail == Some(PageGlyphText(Sprout))
  {
    TrimKeepsUnpadded(NewGardenName);
  }

  // ---------------------------------------------------------------- deleting

  /** `handleDeleteGarden`: after a confirmed delete whose service call did not
      fail, every garden with that id is removed and the others keep their
      order. The service's `false` (nothing deleted) is not consulted. */
  function DeleteGarden(gardens: seq<Garden>, garden: Garden, confirmed: bool, outcome: Result<bool>)
    : (r: seq<Garden>)
    ensures !confirmed || outcome.Failure? ==> r == gardens
    ensures confirmed && outcome.Success? ==>
              IsSubsequence(r, gardens) && forall g :: g in r <==> g in gardens && g.id != garden.id
    ensures confirmed && outcome.Success? ==>
              forall g :: multiset(r)[g] == if g.id != garden.id then multiset(gardens)[g] else 0
  {
    if !confirmed || outcome.Failure? then gardens
    else
      var r := Filter((g: Garden) => g.id != garden.id, gardens);
      FilterIsSubsequence((g: Garden) => g.id != garden.id, gardens);
      FilterMultiset((g: Garden) => g.id != garden.id, gardens);
      r
  }

  // ---------------------------------------------------------------- gallery

  /** The gallery's category test: `all` keeps everything, `templates` keeps
      templates, and any other category keeps personal gardens. */
  predicate CategoryKeeps(category: string, g: Garden) {
    category == "all" || (if category == "templates" then g.isTemplate else !g.isTemplate)
  }

  /** The gallery's search test: an empty query keeps everything, otherwise the
      lower-cased query must occur in the lower-cased name or description. */
  predicate QueryKeeps(query: string, g: Garden) {
    query == "" || Contains(ToLower(g.name), ToLower(query)) || Contains(ToLower(g.description), ToLower(query))
  }

  function ByCategory(category: string): Garden -> bool {
    (g: Garden) => CategoryKeeps(category, g)
  }

  function ByQuery(query: string): Garden -> bool {
    (g: Garden) => QueryKeeps(query, g)
  }

  /** The filtering `loadGalleryGardens` applies to the sorted list: the category
      test, then the search test. */
  function GalleryFilter(sorted: seq<Garden>, category: string, query: string): (r: seq<Garden>)
    ensures IsSubsequence(r, sorted)
    ensures forall g :: g in r <==> g in sorted && CategoryKeeps(category, g) && QueryKeeps(query, g)
  {
    var r := Filter(ByQuery(query), Filter(ByCategory(category), sorted));
    FilterIsSubsequence(ByCategory(category), sorted);
    FilterIsSubsequence(ByQuery(query), Filter(ByCategory(category), sorted));
    SubsequenceTransitive(r, Filter(ByCategory(category), sorted), sorted);
    r
  }

  /** The gallery list: with a sort key set, the filtered sorted list;
      otherwise what the search, category or full query returned. */
  function GalleryResults(sortBy: string, fetched: seq<Garden>, sorted: seq<Garden>, category: string, query: string)
    : (r: seq<Garden>)
    ensures sortBy == "" ==> r == fetched
    ensures sortBy != "" ==> IsSubsequence(r, sorted)
    ensures sortBy != "" ==>
              forall g :: g in r <==> g in sorted && CategoryKeeps(category, g) && QueryKeeps(query, g)
  {
    if sortBy != "" then GalleryFilter(sorted, category, query) else fetched
  }

  /** With a sort key, the `all` tab and an empty search show the sorted list
      whole and in order. */
  lemma {:induction false} UnfilteredGalleryShowsSorted(sortBy: string, fetched: seq<Garden>, sorted: seq<Garden>)
    requires sortBy != ""
    ensures GalleryResults(sortBy, fetched, sorted, "all", "") == sorted
  {
    FilterAll(ByCategory("all"), sorted);
    FilterAll(ByQuery(""), sorted);
  }

  /** The order of the two gallery tests does not matter. */
  lemma GalleryFilterOrderFree(sorted: seq<Garden>, category: string, query: string)
    ensures GalleryFilter(sorted, category, query)
            == Filter(ByCategory(category), Filter(ByQuery(query), sorted))
  {
    FilterCommutes(ByQuery(query), ByCategory(category), sorted);
  }

  /** For `templates` and `personal` the gallery keeps exactly the stored
      records the service's category query selects, once read through their
      `is_template` column; for any other category except `all` the service
      applies no filter while the gallery keeps only personal gardens. */
  lemma GalleryCategoryMatchesService(category: string, s: StoredGarden)
    ensures CategoryWhere(category).Some? ==>
              (CategoryKeeps(category, ViewOf(s)) <==> s.isTemplate == CategoryWhere(category).value)
    ensures category != "all" && CategoryWhere(category).None? ==> (CategoryKeeps(category, ViewOf(s)) <==> !s.isTemplate)
  {
  }
}

=== FILE: garden_service.dfy ===
/** The garden service: the records it sends to and reads from the hosted
    record API, the thumbnail it picks for a set of elements, and the
    duplicate/export/import record construction. The API calls themselves are
    not modelled; their results are inputs. */
module GardenService {

  import opened Wrappers
  import opened Text
  import opened GardenElement

  /** The thumbnail glyphs the application uses. */
  datatype Glyph = Sprout | Blossom | Landscape | Bamboo | Lotus | Wave | Herb | Rock | Droplet

  /** The text a glyph is stored as in a record's `thumbnail` field. */
  function GlyphText(g: Glyph): string
  {
    match g
    case Sprout => "🌱"
    case Blossom => "🌸"
    case Landscape => "🏞️"
    case Bamboo => "🎋"
    case Lotus => "🪷"
    case Wave => "🌊"
    case Herb => "🌿"
    case Rock => "🪨"
    case Droplet => "💧"
  }

  /** Distinct glyphs are stored as distinct, non-empty texts. */
  lemma GlyphTextInjective(g: Glyph, h: Glyph)
    ensures GlyphText(g) != ""
    ensures GlyphText(g) == GlyphText(h) ==> g == h
  {
  }

  // ---------------------------------------------------------------- elements as JSON

  /** The two shapes the `elements` field takes: the element array itself, or a
      string holding JSON text. */
  datatype Json = JArray(items: seq<Element>) | JString(text: JsonText)

  /** JSON text, represented by the value it encodes: `JSON.stringify` and
      `JSON.parse` are taken to be inverse to each other on these values. */
  datatype JsonText = Encoded(value: Json)

  function Stringify(v: Json): JsonText { Encoded(v) }

  function Parse(t: JsonText): Json { t.value }

  /** The JSON text of an empty array, `'[]'`. */
  const EmptyArrayText := Stringify(JArray([]))

  // ---------------------------------------------------------------- records

  /** A garden as the record API stores and returns it. `name` is the `Name`
      column and `elements` holds JSON text. */
  datatype StoredGarden = StoredGarden(
    id: int,
    name: string,
    tags: string,
    description: Option<string>,
    elements: Option<JsonText>,
    isTemplate: bool,
    thumbnail: Option<string>)

  /** The garden data a caller hands to `create` or `update`. Both spellings of
      a field are accepted: `name`/`Name`, `tags`/`Tags` and
      `isTemplate`/`is_template`. */
  datatype GardenInput = GardenInput(
    name: Option<string>,
    nameField: Option<string>,
    tags: Option<string>,
    tagsField: Option<string>,
    description: Option<string>,
    elements: Option<Json>,
    isTemplate: Option<bool>,
    isTemplateField: Option<bool>,
    thumbnail: Option<string>)

  /** The record sent to the API: only its updateable columns. */
  datatype CreateRecord = CreateRecord(
    name: Option<string>,
    tags: string,
    description: Option<string>,
    elements: JsonText,
    isTemplate: bool,
    thumbnail: string)

  /** The record an update sends: the same columns plus the record id. */
  datatype UpdateRecord = UpdateRecord(id: int, record: CreateRecord)

  /** The field mapping `create` applies before sending. */
  function MapForCreate(d: GardenInput): (r: CreateRecord)
    ensures d.name.Some? && d.name.value != "" ==> r.name == d.name
    ensures (d.name.None? || d.name.value == "") ==> r.name == d.nameField
    ensures d.tags.Some? && d.tags.value != "" ==> r.tags == d.tags.value
    ensures r.tags == "" <==> (d.tags.None? || d.tags.value == "") && (d.tagsField.None? || d.tagsField.value == "")
    ensures r.description == d.description
    ensures Parse(r.elements) == d.elements.GetOr(JArray([]))
    ensures r.isTemplate <==> Truthy(d.isTemplate) || Truthy(d.isTemplateField)
    ensures r.thumbnail != ""
    ensures d.thumbnail.Some? && d.thumbnail.value != "" ==> r.thumbnail == d.thumbnail.value
    ensures (d.thumbnail.None? || d.thumbnail.value == "") ==> r.thumbnail == GlyphText(Sprout)
  {
    CreateRecord(
      OrOpt(d.name, d.nameField),
      OrElse(d.tags, OrElse(d.tagsField, "")),
      d.description,
      Stringify(d.elements.GetOr(JArray([]))),
      Truthy(d.isTemplate) || Truthy(d.isTemplateField),
      OrElse(d.thumbnail, GlyphText(Sprout)))
  }

  /** The field mapping `update` applies: the same defaults as `create`, plus the
      record id. */
  function MapForUpdate(id: int, d: GardenInput): (r: UpdateRecord)
    ensures r.id == id
    ensures r.record == MapForCreate(d)
  {
    UpdateRecord(id, MapForCreate(d))
  }

  /** What the record API is taken to store for a created record: the columns
      as sent (a missing name becomes the empty name). */
  function Persist(id: int, r: CreateRecord): (g: StoredGarden)
    ensures g.id == id && g.isTemplate == r.isTemplate && g.elements == Some(r.elements)
  {
    StoredGarden(id, r.name.GetOr(""), r.tags, r.description, Some(r.elements), r.isTemplate, Some(r.thumbnail))
  }

  /** Creating a garden from element data and reading its `elements` back
      yields that data again. */
  lemma CreateKeepsElements(id: int, d: GardenInput, items: seq<Element>)
    requires d.elements == Some(JArray(items))
    ensures Parse(Persist(id, MapForCreate(d)).elements.value) == JArray(items)
  {
  }

  // ---------------------------------------------------------------- thumbnail

  /** Some element has type `kind`. */
  predicate HasKind(elements: seq<Element>, kind: string) {
    exists e :: e in elements && e.kind == kind
  }

  /** Some element of type `plant` has subtype `subtype`. */
  predicate HasPlant(elements: seq<Element>, subtype: string) {
    exists e :: e in elements && e.kind == "plant" && e.subtype == subtype
  }

  /** `generateThumbnail`: the first matching rule of a fixed priority list;
      subtypes count only on elements of type `plant`. */
  function GenerateThumbnail(elements: Option<seq<Element>>): (g: Glyph)
    ensures g == Sprout <==>
              elements.None? || !(HasKind(elements.value, "water") || HasKind(elements.value, "rock")
                                  || HasKind(elements.value, "plant"))
    ensures g == Landscape ==> HasKind(elements.value, "water") && HasKind(elements.value, "rock")
    ensures g == Wave ==> HasKind(elements.value, "water") && !HasKind(elements.value, "rock")
    ensures g == Blossom ==> HasPlant(elements.value, "cherry-blossom")
    ensures g == Bamboo ==> HasPlant(elements.value, "bamboo")
    ensures g == Lotus ==> HasPlant(elements.value, "lotus")
    ensures g == Herb ==> HasKind(elements.value, "plant") && !HasKind(elements.value, "water")
    ensures g == Rock ==> HasKind(elements.value, "rock") && !HasKind(elements.value, "water")
                          && !HasKind(elements.value, "plant")
    ensures g != Droplet
  {
    if elements.None? || elements.value == [] then Sprout
    else
      var es := elements.value;
      if HasKind(es, "water") && HasPlant(es, "cherry-blossom") then Blossom
      else if HasKind(es, "water") && HasKind(es, "rock") then Landscape
      else if HasPlant(es, "bamboo") then Bamboo
      else if HasPlant(es, "lotus") then Lotus
      else if HasKind(es, "water") then Wave
      else if HasPlant(es, "cherry-blossom") then Blossom
      else if HasKind(es, "plant") then Herb
      else if HasKind(es, "rock") then Rock
      else Sprout
  }

  /** The priority list spelled out: for a non-empty garden, each emoji is
      chosen exactly when its rule holds and no earlier rule does. */
  lemma ThumbnailRules(es: seq<Element>)
    requires es != []
    ensures var w, r, p := HasKind(es, "water"), HasKind(es, "rock"), HasKind(es, "plant");
            var c, b, l := HasPlant(es, "cherry-blossom"), HasPlant(es, "bamboo"), HasPlant(es, "lotus");
            var g := GenerateThumbnail(Some(es));
            && (g == Blossom <==> (w && c) || (!w && !b && !l && c))
            && (g == Landscape <==> w && r && !c)
            && (g == Bamboo <==> b && !(w && (c || r)))
            && (g == Lotus <==> l && !b && !(w && (c || r)))
            && (g == Wave <==> w && !c && !r && !b && !l)
            && (g == Herb <==> !w && !b && !l && !c && p)
            && (g == Rock <==> !w && !b && !l && !c && !p && r)
            && (g == Sprout <==> !w && !b && !l && !c && !p && !r)
  {
  }

  /** The thumbnail depends only on which elements are present: reordering or
      repeating elements does not change it. */
  lemma ThumbnailIgnoresOrder(a: seq<Element>, b: seq<Element>)
    requires forall e :: e in a <==> e in b
    ensures GenerateThumbnail(Some(a)) == GenerateThumbnail(Some(b))
  {
    if a != [] {
      assert a[0] in b;
    }
    if b != [] {
      assert b[0] in a;
    }
  }

  /** An element that is neither water, rock nor plant never changes the
      thumbnail, and neither does a bamboo, lotus or cherry-blossom subtype on an
      element that is not a plant. */
  lemma ThumbnailIgnoresOtherKinds(elements: seq<Element>, extra: Element)
    requires extra.kind != "water" && extra.kind != "rock" && extra.kind != "plant"
    ensures GenerateThumbnail(Some(elements + [extra])) == GenerateThumbnail(Some(elements))
  {
    var es := elements + [extra];
    assert extra in es;
    forall k | k == "water" || k == "rock" || k == "plant"
      ensures HasKind(es, k) == HasKind(elements, k)
    {
      if HasKind(es, k) {
        var e :| e in es && e.kind == k;
        assert e in elements;
      }
    }
    forall s: string
      ensures HasPlant(es, s) == HasPlant(elements, s)
    {
      if HasPlant(es, s) {
        var e :| e in es && e.kind == "plant" && e.subtype == s;
        assert e in elements;
      }
    }
  }

  // ---------------------------------------------------------------- duplicate, export, import

  /** `duplicate`: the data `create` is called with for a copy of `original`. */
  function Duplicate(original: StoredGarden): (d: GardenInput)
    ensures d.name == Some(original.name + " (Copy)")
    ensures d.isTemplate == Some(false) && d.description == original.description
  {
    GardenInput(
      Some(original.name + " (Copy)"), None, None, None,
      original.description,
      Some(Parse(original.elements.GetOr(EmptyArrayText))),
      Some(false), None,
      Some(OrElse(original.thumbnail, GlyphText(Sprout))))
  }

  /** A copy, even of a template, is a personal garden with the original's
      description and elements, a non-empty name ending in " (Copy)" and the
      original's thumbnail or the sprout. */
  lemma DuplicateRecord(original: StoredGarden)
    ensures var r := MapForCreate(Duplicate(original));
            && r.name == Some(original.name + " (Copy)")
            && !r.isTemplate
            && r.description == original.description
            && r.elements == original.elements.GetOr(EmptyArrayText)
            && r.thumbnail == OrElse(original.thumbnail, GlyphText(Sprout))
            && r.tags == ""
  {
  }

  /** The version stamped on every export. */
  const ExportVersion := "1.0"

  /** An export: the stored record plus two metadata fields. */
  datatype ExportData = ExportData(garden: StoredGarden, exportedAt: string, version: string)

  /** `exportGarden`: the record as stored, `exportedAt` and the version. */
  function ExportGarden(garden: StoredGarden, now: string): (e: ExportData)
    ensures e.garden == garden && e.exportedAt == now && e.version == ExportVersion
  {
    ExportData(garden, now, ExportVersion)
  }

  /** The fields `importGarden` reads from the object it is given. Any other
      field, `exportedAt` and `version` among them, is ignored. */
  datatype ImportFile = ImportFile(
    name: Option<string>,
    nameField: Option<string>,
    description: Option<string>,
    elements: Option<Json>,
    thumbnail: Option<string>)

  /** An export read back as an import file: it carries the stored columns, so
      `Name` and not `name`, and its `elements` is the stored JSON text, a
      string. */
  function FileOf(e: ExportData): (f: ImportFile)
    ensures f.nameField == Some(e.garden.name) && f.name.None?
    ensures e.garden.elements.Some? ==> f.elements == Some(JString(e.garden.elements.value))
  {
    ImportFile(
      None, Some(e.garden.name), e.garden.description,
      if e.garden.elements.Some? then Some(JString(e.garden.elements.value)) else None,
      e.garden.thumbnail)
  }

  /** `importGarden` as written: `elements` is passed to `create` unchanged,
      whatever its shape. */
  function ImportGardenAsWritten(f: ImportFile): (d: GardenInput)
    ensures d.elements == f.elements && d.isTemplate == Some(false)
  {
    GardenInput(
      OrOpt(f.name, f.nameField), None, None, None,
      f.description,
      f.elements,
      Some(false), None,
      Some(OrElse(f.thumbnail, GlyphText(Sprout))))
  }

  /** Exporting a garden and importing the export with the code as written
      stores the elements JSON text inside another JSON string: reading the
      imported garden's `elements` back yields a string, not the array. */
  lemma ImportAsWrittenDoubleEncodes(g: StoredGarden, now: string, items: seq<Element>)
    requires g.elements == Some(Stringify(JArray(items)))
    ensures var r := MapForCreate(ImportGardenAsWritten(FileOf(ExportGarden(g, now))));
            Parse(r.elements) == JString(Stringify(JArray(items))) && Parse(r.elements) != JArray(items)
  {
  }

  /** `importGarden` with the elements text decoded before `create` encodes it
      again; any other shape is passed on unchanged. */
  function ImportGarden(f: ImportFile): (d: GardenInput)
    ensures f.elements.Some? && f.elements.value.JString? ==> d.elements == Some(Parse(f.elements.value.text))
    ensures !(f.elements.Some? && f.elements.value.JString?) ==> d.elements == f.elements
    ensures d.isTemplate == Some(false) && d.description == f.description
  {
    var elements := if f.elements.Some? && f.elements.value.JString? then Some(Parse(f.elements.value.text))
                    else f.elements;
    GardenInput(
      OrOpt(f.name, f.nameField), None, None, None,
      f.description,
      elements,
      Some(false), None,
      Some(OrElse(f.thumbnail, GlyphText(Sprout))))
  }

  /** Export then import reproduces the garden's elements exactly, its
      description, name and thumbnail, and makes it a personal garden. */
  lemma ExportImportRoundTrip(g: StoredGarden, now: string)
    ensures var r := MapForCreate(ImportGarden(FileOf(ExportGarden(g, now))));
            && Parse(r.elements) == Parse(g.elements.GetOr(EmptyArrayText))
            && r.description == g.description
            && r.name == (if g.name != "" then Some(g.name) else None)
            && r.thumbnail == OrElse(g.thumbnail, GlyphText(Sprout))
            && !r.isTemplate
  {
  }

  /** Both imports treat a file that carries the element array itself alike. */
  lemma ImportsAgreeOnArrays(f: ImportFile)
    requires f.elements.None? || f.elements.value.JArray?
    ensures ImportGarden(f) == ImportGardenAsWritten(f)
  {
  }

  // ---------------------------------------------------------------- queries

  /** The `orderBy` entry `sortBy` sends. */
  datatype SortOrder = SortOrder(column: string, sortType: string)

  /** The record column a page-level sort key stands for; any other key is
      passed through as a column name. */
  function SortColumn(field: string): (c: string)
    ensures field == "updatedAt" ==> c == "ModifiedOn"
    ensures field == "createdAt" ==> c == "CreatedOn"
    ensures field == "name" ==> c == "Name"
    ensures field != "updatedAt" && field != "createdAt" && field != "name" ==> c == field
  {
    if field == "updatedAt" then "ModifiedOn"
    else if field == "createdAt" then "CreatedOn"
    else if field == "name" then "Name"
    else field
  }

  /** `sortBy`: the mapped column and the direction, `asc` when missing,
      upper-cased. */
  function SortBy(field: string, direction: Option<string>): (o: SortOrder)
    ensures o.column == SortColumn(field)
    ensures direction.None? ==> o.sortType == "ASC"
    ensures direction.Some? ==> |o.sortType| == |direction.value|
    ensures direction.Some? ==> forall i :: 0 <= i < |direction.value| ==> o.sortType[i] == UpperChar(direction.value[i])
    ensures direction == Some("desc") ==> o.sortType == "DESC"
    ensures direction == Some("asc") ==> o.sortType == "ASC"
    ensures forall i :: 0 <= i < |o.sortType| ==> !('a' <= o.sortType[i] <= 'z')
  {
    SortOrder(SortColumn(field), ToUpper(direction.GetOr("asc")))
  }

  /** The direction is case-insensitive: an upper-case direction sorts the same
      way as its lower-case spelling. */
  lemma {:induction false} SortDirectionIgnoresCase(field: string, direction: string)
    ensures SortBy(field, Some(ToUpper(direction))) == SortBy(field, Some(direction))
  {
    var once := ToUpper(direction);
    var twice := ToUpper(once);
    assert forall i :: 0 <= i < |twice| ==> twice[i] == once[i];
  }

  /** The `is_template` value `getByCategory` filters on: true for `templates`,
      false for `personal`, and no filter for any other category. */
  function CategoryWhere(category: string): (w: Option<bool>)
    ensures w.Some? <==> category == "templates" || category == "personal"
    ensures w == Some(true) <==> category == "templates"
  {
    if category == "templates" then Some(true)
    else if category == "personal" then Some(false)
    else None
  }
}

=== FILE: journal_card.dfy ===
/** The journal entry card: its mood icon, the content preview, the tag row
    and the title it shows. */
module JournalCard {

  import opened Wrappers
  import opened Seqs
  import opened JournalService

  /** An icon name and its colour class. */
  datatype MoodIcon = MoodIcon(icon: string, color: string)

  const FallbackMoodIcon := MoodIcon("Circle", "text-sage-400")

  /** The moods that have an icon of their own. */
  const KnownMoods: set<string> :=
    {"peaceful", "reflective", "inspired", "centered", "grateful", "anxious", "calm", "energetic"}

  /** `getMoodIcon`. */
  function MoodIconFor(mood: Option<string>): MoodIcon
  {
    if mood.None? then FallbackMoodIcon
    else match mood.value
      case "peaceful" => MoodIcon("Smile", "text-success")
      case "reflective" => MoodIcon("Brain", "text-info")
      case "inspired" => MoodIcon("Sparkles", "text-warning")
      case "centered" => MoodIcon("Target", "text-moss-700")
      case "grateful" => MoodIcon("Heart", "text-error")
      case "anxious" => MoodIcon("AlertCircle", "text-orange-500")
      case "calm" => MoodIcon("Waves", "text-blue-500")
      case "energetic" => MoodIcon("Zap", "text-yellow-500")
      case _ => FallbackMoodIcon
  }

  /** The grey circle is shown exactly for a missing, empty or unknown mood. */
  lemma MoodIconFallback(mood: Option<string>)
    ensures MoodIconFor(mood) == FallbackMoodIcon <==> mood.None? || mood.value !in KnownMoods
  {
  }

  /** The number of characters the preview keeps of a long content. */
  const PreviewLength := 150

  /** The preview text: a content longer than 150 characters is cut to its first
      150 followed by "...", anything else is shown whole. */
  function Preview(content: Option<string>): (p: Option<string>)
    ensures content.None? ==> p.None?
    ensures content.Some? ==> p.Some? && |p.value| <= PreviewLength + 3
    ensures content.Some? && |content.value| <= PreviewLength ==> p == content
    ensures content.Some? && |content.value| > PreviewLength ==>
              p.Some? && p.value == content.value[..PreviewLength] + "..."
  {
    if content.Some? && |content.value| > PreviewLength then Some(content.value[..PreviewLength] + "...")
    else content
  }

  /** Previewing a preview changes nothing more. */
  lemma PreviewIdempotent(content: Option<string>)
    ensures Preview(Preview(content)) == Preview(content)
  {
    if content.Some? && |content.value| > PreviewLength {
      var p := Preview(content).value;
      assert p[..PreviewLength] + "..." == p;
    }
  }

  /** The tag row: at most three tags, and the number hidden behind "+N more". */
  datatype TagRow = TagRow(shown: seq<string>, more: nat)

  /** The tag row of a card; `more` is 0 when "+N more" is not shown. */
  function TagRowOf(tags: Option<seq<string>>): (r: TagRow)
    ensures tags.None? ==> r == TagRow([], 0)
    ensures tags.Some? ==> r.shown <= tags.value && |r.shown| + r.more == |tags.value|
    ensures |r.shown| <= 3
    ensures r.more > 0 ==> |r.shown| == 3
  {
    if tags.None? || tags.value == [] then TagRow([], 0)
    else TagRow(Take(tags.value, 3), if |tags.value| > 3 then |tags.value| - 3 else 0)
  }

  /** The title shown on the card: the entry's title, or "Untitled Entry" when
      it is missing or empty. */
  function DisplayTitle(title: Option<string>): (t: string)
    ensures t != ""
    ensures title.Some? && title.value != "" ==> t == title.value
    ensures title.None? || title.value == "" ==> t == Untitled
  {
    OrElse(title, Untitled)
  }

  /** The card and the service fall back to the same title: the card shows an
      entry's own title as the title `create` stores, and a stored title is shown
      as it is. */
  lemma CardShowsStoredTitle(d: EntryInput, now: string)
    requires now != ""
    ensures DisplayTitle(d.title) == EntryForCreate(d, now).title
    ensures DisplayTitle(Some(EntryForCreate(d, now).title)) == EntryForCreate(d, now).title
  {
  }
}

=== FILE: journal_editor.dfy ===
/** The journal editor: the tag list it keeps normalised and free of
    duplicates, the mood buttons, and the entry data it saves. */
module JournalEditor {

  import opened Wrappers
  import opened Seqs
  import opened Text
  import opened JournalService

  /** The editor's fields and the tag text box. */
  datatype EditorState = EditorState(
    title: string,
    content: string,
    mood: string,
    tags: seq<string>,
    tagInput: string)

  /** The form a typed tag is stored in: trimmed and lower-cased. */
  function NormalizeTag(input: string): string
  {
    ToLower(Trim(input))
  }

  /** A stored tag: non-empty, with no surrounding white space and no upper-case
      letter, so that trimming and lower-casing leave it as it is (see
      `CleanTagIsNormal`). */
  predicate CleanTag(t: string) {
    && t != ""
    && !IsSpace(t[0]) && !IsSpace(t[|t| - 1])
    && forall i :: 0 <= i < |t| ==> !('A' <= t[i] <= 'Z')
  }

  /** A clean tag is its own normal form. */
  lemma CleanTagIsNormal(t: string)
    requires CleanTag(t)
    ensures NormalizeTag(t) == t
  {
    TrimKeepsUnpadded(t);
    assert ToLower(t) == t;
  }

  /** The tag list holds clean tags, each at most once. */
  predicate CleanTags(tags: seq<string>) {
    (forall i :: 0 <= i < |tags| ==> CleanTag(tags[i]))
    && forall i, j :: 0 <= i < j < |tags| ==> tags[i] != tags[j]
  }

  /** The normal form of a non-blank input is a clean tag. */
  lemma NormalizeTagIsClean(input: string)
    requires !IsBlank(input)
    ensures CleanTag(NormalizeTag(input))
  {
    var n := ToLower(Trim(input));
    assert !IsSpace(n[0]) && !IsSpace(n[|n| - 1]);
  }

  /** `handleAddTag`: the normal form of the input is appended, and the input
      cleared, when the input is not blank and the tag is not there yet;
      otherwise nothing changes. */
  function AddTag(st: EditorState): (r: EditorState)
    ensures !IsBlank(st.tagInput) && NormalizeTag(st.tagInput) !in st.tags ==>
              r == st.(tags := st.tags + [NormalizeTag(st.tagInput)], tagInput := "")
    ensures IsBlank(st.tagInput) || NormalizeTag(st.tagInput) in st.tags ==> r == st
  {
    if Trim(st.tagInput) != "" && ToLower(Trim(st.tagInput)) !in st.tags then
      st.(tags := st.tags + [ToLower(Trim(st.tagInput))], tagInput := "")
    else st
  }

  /** Adding a tag keeps the list clean and free of duplicates. */
  lemma AddTagKeepsTagsClean(st: EditorState)
    requires CleanTags(st.tags)
    ensures CleanTags(AddTag(st).tags)
  {
    var n := NormalizeTag(st.tagInput);
    if !IsBlank(st.tagInput) && n !in st.tags {
      NormalizeTagIsClean(st.tagInput);
      var tags := st.tags + [n];
      assert AddTag(st).tags == tags;
      forall i | 0 <= i < |tags|
        ensures CleanTag(tags[i])
      {
        if i < |st.tags| {
          assert tags[i] == st.tags[i];
        }
      }
      forall i, j | 0 <= i < j < |tags|
        ensures tags[i] != tags[j]
      {
        assert tags[i] == st.tags[i] && st.tags[i] in st.tags;
      }
    }
  }

  /** Typing the same text again, in any surrounding white space, adds nothing. */
  lemma AddSameTagAgain(st: EditorState, again: string)
    requires !IsBlank(st.tagInput) && NormalizeTag(again) == NormalizeTag(st.tagInput)
    ensures var once := AddTag(st);
            AddTag(once.(tagInput := again)).tags == once.tags
  {
  }

  /** `handleRemoveTag`: every occurrence of the tag goes, the rest keep their
      order. */
  function RemoveTag(tags: seq<string>, tag: string): (r: seq<string>)
    ensures tag !in r
    ensures forall t :: t in r <==> t in tags && t != tag
    ensures IsSubsequence(r, tags)
    ensures multiset(r) == multiset(tags)[tag := 0]
  {
    FilterIsSubsequence((t: string) => t != tag, tags);
    FilterMultiset((t: string) => t != tag, tags);
    Filter((t: string) => t != tag, tags)
  }

  /** Removing a tag that was just added restores the list it was added to. */
  lemma RemoveUndoesAdd(st: EditorState)
    requires !IsBlank(st.tagInput) && NormalizeTag(st.tagInput) !in st.tags
    ensures RemoveTag(AddTag(st).tags, NormalizeTag(st.tagInput)) == st.tags
  {
    var tag := NormalizeTag(st.tagInput);
    var p := (t: string) => t != tag;
    FilterAppend(p, st.tags, [tag]);
    FilterAll(p, st.tags);
  }

  /** `handleKeyDown`: Enter adds a tag when the input is not blank; any other
      key leaves the tags alone. */
  function KeyDown(st: EditorState, key: string): (r: EditorState)
    ensures key != "Enter" ==> r == st
  {
    if key == "Enter" && Trim(st.tagInput) != "" then AddTag(st) else st
  }

  /** Enter does exactly what the add button does: the blank-input check of the
      key handler never disagrees with the one inside `handleAddTag`. */
  lemma EnterIsAddTag(st: EditorState)
    ensures KeyDown(st, "Enter") == AddTag(st)
  {
  }

  /** A mood button: clicking the selected mood clears it, clicking another
      selects it. */
  function ToggleMood(current: string, clicked: string): (r: string)
    ensures current == clicked ==> r == ""
    ensures current != clicked ==> r == clicked
  {
    if current == clicked then "" else clicked
  }

  /** Two clicks on the same button restore the mood when it was that mood or
      none; from a different mood they end with none. */
  lemma ToggleMoodTwice(current: string, clicked: string)
    requires clicked != ""
    ensures current == "" || current == clicked ==> ToggleMood(ToggleMood(current, clicked), clicked) == current
    ensures current != "" && current != clicked ==> ToggleMood(ToggleMood(current, clicked), clicked) == ""
  {
  }

  /** The effect that fills the editor from the entry being edited; without an
      entry the fields stay as they are. */
  function Load(st: EditorState, entry: Option<JournalEntry>): (r: EditorState)
    ensures entry.None? ==> r == st
    ensures entry.Some? ==> r.tagInput == st.tagInput && r.tags == entry.value.tags.GetOr([])
    ensures entry.Some? ==> r.title == OrElse(entry.value.title, "") && r.content == OrElse(entry.value.content, "")
                            && r.mood == OrElse(entry.value.mood, "")
  {
    if entry.None? then st
    else
      var e := entry.value;
      st.(title := OrElse(e.title, ""), content := OrElse(e.content, ""), mood := OrElse(e.mood, ""),
          tags := e.tags.GetOr([]))
  }

  /** `handleSave`: nothing when title and content are both blank; otherwise the
      trimmed title ("Untitled Entry" when blank), the trimmed content, the mood
      and tags as they are, and the entry's own date or `now`. */
  function SaveEntry(st: EditorState, entryDate: Option<string>, now: string): (r: Option<EntryInput>)
    ensures r.None? <==> IsBlank(st.title) && IsBlank(st.content)
    ensures r.Some? ==>
              && r.value.title == Some(if IsBlank(st.title) then Untitled else Trim(st.title))
              && r.value.content == Some(Trim(st.content))
              && r.value.mood == Some(st.mood) && r.value.tags == Some(st.tags)
              && r.value.date == Some(OrElse(entryDate, now))
              && !IsBlank(r.value.title.value)
  {
    if Trim(st.title) == "" && Trim(st.content) == "" then None
    else
      var title := OrElse(Some(Trim(st.title)), Untitled);
      assert !IsSpace(title[0]);
      Some(EntryInput(Some(title), Some(Trim(st.content)), Some(st.mood), Some(st.tags),
                      Some(OrElse(entryDate, now)), None))
  }

  /** Opening an entry whose title and content carry no surrounding white space
      and saving it unchanged hands back the same title, content, mood, tags
      and date. */
  lemma LoadThenSaveKeepsEntry(st: EditorState, e: JournalEntry, now: string)
    requires e.title.Some? && e.title.value != "" && Trim(e.title.value) == e.title.value
    requires e.content.Some? && Trim(e.content.value) == e.content.value
    requires e.date.Some? && e.date.value != ""
    ensures SaveEntry(Load(st, Some(e)), e.date, now)
            == Some(EntryInput(e.title, e.content, Some(OrElse(e.mood, "")), Some(e.tags.GetOr([])), e.date, None))
  {
  }

  /** What a saved entry is stored as: the title it was saved with in both
      title columns, never the default. */
  lemma SavedTitleIsStored(st: EditorState, entryDate: Option<string>, now: string)
    requires now != "" && SaveEntry(st, entryDate, now).Some?
    ensures var d := SaveEntry(st, entryDate, now).value;
            EntryForCreate(d, now).title == d.title.value && EntryForCreate(d, now).name == d.title.value
  {
  }
}

=== FILE: journal_page.dfy ===
/** The journal page: the search, mood and month filters over the entry list,
    the list updates after a save or a delete, and the word total. The
    date-range query behind the month filter is given as its result. */
module JournalPage {

  import opened Wrappers
  import opened Seqs
  import opened Text
  import opened JournalService

  /** The search test: the lower-cased term occurs in the lower-cased title,
      content or one of the tags, whichever are present. */
  predicate Matches(term: string, e: JournalEntry) {
    var t := ToLower(term);
    || (e.title.Some? && Contains(ToLower(e.title.value), t))
    || (e.content.Some? && Contains(ToLower(e.content.value), t))
    || (e.tags.Some? && exists k :: 0 <= k < |e.tags.value| && Contains(ToLower(e.tags.value[k]), t))
  }

  /** The search filter keeps everything when the term is blank. */
  function BySearch(term: string): JournalEntry -> bool {
    (e: JournalEntry) => IsBlank(term) || Matches(term, e)
  }

  /** The mood filter keeps everything when no mood is selected. */
  function ByMood(mood: string): JournalEntry -> bool {
    (e: JournalEntry) => mood == "" || e.mood == Some(mood)
  }

  /** The month filter keeps everything when no month is selected or the
      date-range query failed; otherwise the entries whose id the query
      returned. */
  function ByMonth(month: string, monthIds: Result<seq<int>>): JournalEntry -> bool {
    (e: JournalEntry) => month == "" || monthIds.Failure? || e.id in monthIds.value
  }

  function BySearchAndMood(term: string, mood: string): JournalEntry -> bool {
    (e: JournalEntry) => BySearch(term)(e) && ByMood(mood)(e)
  }

  /** All three filters at once. */
  function ByAll(term: string, mood: string, month: string, monthIds: Result<seq<int>>): JournalEntry -> bool {
    (e: JournalEntry) => BySearchAndMood(term, mood)(e) && ByMonth(month, monthIds)(e)
  }

  /** `filterEntries`: search (only for a non-blank term), then mood (only when
      one is selected), then the month (only when one is selected and its
      query succeeded). */
  function FilterEntries(entries: seq<JournalEntry>, term: string, mood: string, month: string,
                         monthIds: Result<seq<int>>): (r: seq<JournalEntry>)
    ensures IsSubsequence(r, entries)
    ensures forall e :: e in r <==> e in entries && ByAll(term, mood, month, monthIds)(e)
  {
    var searched := if Trim(term) != "" then Filter(BySearch(term), entries) else entries;
    var moody := if mood != "" then Filter(ByMood(mood), searched) else searched;
    var r := if month != "" && monthIds.Success? then Filter(ByMonth(month, monthIds), moody) else moody;
    FilterEntriesIsOneFilter(entries, term, mood, month, monthIds);
    FilterIsSubsequence(ByAll(term, mood, month, monthIds), entries);
    r
  }

  /** The three conditional filters amount to one filter by their conjunction. */
  lemma FilterEntriesIsOneFilter(entries: seq<JournalEntry>, term: string, mood: string, month: string,
                                 monthIds: Result<seq<int>>)
    ensures var searched := if Trim(term) != "" then Filter(BySearch(term), entries) else entries;
            var moody := if mood != "" then Filter(ByMood(mood), searched) else searched;
            (if month != "" && monthIds.Success? then Filter(ByMonth(month, monthIds), moody) else moody)
            == Filter(ByAll(term, mood, month, monthIds), entries)
  {
    var searched := if Trim(term) != "" then Filter(BySearch(term), entries) else entries;
    if Trim(term) == "" {
      FilterAll(BySearch(term), entries);
    }
    var moody := if mood != "" then Filter(ByMood(mood), searched) else searched;
    if mood == "" {
      FilterAll(ByMood(mood), searched);
    }
    FilterFilterBy(ByMood(mood), BySearch(term), BySearchAndMood(term, mood), entries);
    if !(month != "" && monthIds.Success?) {
      FilterAll(ByMonth(month, monthIds), moody);
    }
    FilterFilterBy(ByMonth(month, monthIds), BySearchAndMood(term, mood), ByAll(term, mood, month, monthIds), entries);
  }

  /** Applying the month filter first gives the same list: the order of the
      filters does not matter. */
  lemma MonthFirstSameResult(entries: seq<JournalEntry>, term: string, mood: string, month: string,
                             monthIds: Result<seq<int>>)
    ensures Filter(BySearchAndMood(term, mood), Filter(ByMonth(month, monthIds), entries))
            == FilterEntries(entries, term, mood, month, monthIds)
  {
    FilterEntriesIsOneFilter(entries, term, mood, month, monthIds);
    FilterFilterBy(BySearchAndMood(term, mood), ByMonth(month, monthIds), ByAll(term, mood, month, monthIds), entries);
  }

  /** With no term, no mood and no month every entry is listed. */
  lemma NoFiltersListsAll(entries: seq<JournalEntry>, monthIds: Result<seq<int>>)
    ensures FilterEntries(entries, "", "", "", monthIds) == entries
  {
  }

  // ---------------------------------------------------------------- list updates

  /** `handleSaveEntry` once the service call has returned `saved`: while
      editing an entry the returned one replaces those with its id, otherwise
      it is put first; a failed call changes nothing. */
  function ApplyEntrySave(entries: seq<JournalEntry>, editing: bool, current: Option<JournalEntry>,
                          saved: Result<JournalEntry>): (r: seq<JournalEntry>)
    ensures saved.Failure? ==> r == entries
    ensures saved.Success? && editing && current.Some? ==>
              |r| == |entries|
              && forall i :: 0 <= i < |entries| ==>
                   r[i] == (if entries[i].id == current.value.id then saved.value else entries[i])
    ensures saved.Success? && !(editing && current.Some?) ==> r == [saved.value] + entries
  {
    if saved.Failure? then entries
    else if editing && current.Some? then
      ReplaceWhere((e: JournalEntry) => e.id, current.value.id, saved.value, entries)
    else [saved.value] + entries
  }

  /** `handleDeleteEntry`: after a confirmed delete whose service call did not
      fail, the entries with that id are gone and the rest keep their order. */
  function DeleteEntry(entries: seq<JournalEntry>, entry: JournalEntry, confirmed: bool, outcome: Result<bool>)
    : (r: seq<JournalEntry>)
    ensures !confirmed || outcome.Failure? ==> r == entries
    ensures confirmed && outcome.Success? ==>
              IsSubsequence(r, entries) && forall e :: e in r <==> e in entries && e.id != entry.id
    ensures confirmed && outcome.Success? ==>
              forall e :: multiset(r)[e] == if e.id != entry.id then multiset(entries)[e] else 0
  {
    if !confirmed || outcome.Failure? then entries
    else
      FilterIsSubsequence((e: JournalEntry) => e.id != entry.id, entries);
      FilterMultiset((e: JournalEntry) => e.id != entry.id, entries);
      Filter((e: JournalEntry) => e.id != entry.id, entries)
  }

  /** Deleting an entry that was just created, under an id no other entry has,
      restores the list it was created in. */
  lemma DeleteUndoesCreate(entries: seq<JournalEntry>, saved: JournalEntry, outcome: bool)
    requires forall i :: 0 <= i < |entries| ==> entries[i].id != saved.id
    ensures DeleteEntry(ApplyEntrySave(entries, false, None, Success(saved)), saved, true, Success(outcome))
            == entries
  {
    var p := (e: JournalEntry) => e.id != saved.id;
    FilterAll(p, entries);
    assert ([saved] + entries)[1..] == entries;
  }

  // ---------------------------------------------------------------- word total

  /** One entry's words: `content.split(' ').length`, 0 without content. */
  function WordsIn(e: JournalEntry): (n: nat)
    ensures e.content.None? ==> n == 0
    ensures e.content.Some? ==> n == CountChar(e.content.value, ' ') + 1
  {
    if e.content.None? then 0 else |Split(e.content.value, ' ')|
  }

  /** `getTotalWordsWritten`. */
  function TotalWords(entries: seq<JournalEntry>): nat
  {
    if entries == [] then 0 else WordsIn(entries[0]) + TotalWords(entries[1..])
  }

  /** The total is additive over the list, and every entry with content adds at
      least one word, an empty one included. */
  lemma {:induction false} TotalWordsAppend(a: seq<JournalEntry>, b: seq<JournalEntry>)
    ensures TotalWords(a + b) == TotalWords(a) + TotalWords(b)
  {
    if a != [] {
      TotalWordsAppend(a[1..], b);
      assert (a + b)[1..] == a[1..] + b;
    } else {
      assert a + b == b;
    }
  }

  /** The number of entries that have content. */
  function WithContent(entries: seq<JournalEntry>): nat
  {
    if entries == [] then 0 else (if entries[0].content.Some? then 1 else 0) + WithContent(entries[1..])
  }

  /** The total is at least the number of entries with content: an empty
      content still counts as one word. */
  lemma {:induction false} TotalWordsAtLeastEntries(entries: seq<JournalEntry>)
    ensures TotalWords(entries) >= WithContent(entries)
  {
    if entries != [] {
      TotalWordsAtLeastEntries(entries[1..]);
    }
  }
}

=== FILE: journal_service.dfy ===
/** The journal service: the record it sends for a new or edited entry, the
    mood histogram it builds from the entries of the last days, and the cutoff
    of that window. The API calls themselves are not modelled; their results
    are inputs. */
module JournalService {

  import opened Wrappers
  import opened Text

  /** A journal entry as the pages hold it. */
  datatype JournalEntry = JournalEntry(
    id: int,
    title: Option<string>,
    content: Option<string>,
    mood: Option<string>,
    tags: Option<seq<string>>,
    date: Option<string>)

  const Untitled := "Untitled Entry"

  // ---------------------------------------------------------------- field mapping

  /** The entry data a caller hands to `create` or `update`. */
  datatype EntryInput = EntryInput(
    title: Option<string>,
    content: Option<string>,
    mood: Option<string>,
    tags: Option<seq<string>>,
    date: Option<string>,
    gardenUsed: Option<int>)

  /** The columns sent to the API. `name` is the `Name` column and `tags` the
      comma-separated `Tags` column. */
  datatype EntryRecord = EntryRecord(
    name: string,
    tags: string,
    date: Option<string>,
    title: string,
    content: string,
    mood: string,
    gardenUsed: Option<int>)

  /** The record an update sends: the columns plus the record id. */
  datatype EntryUpdate = EntryUpdate(id: int, record: EntryRecord)

  /** `garden_used`: a missing garden and the falsy id 0 become null. */
  function GardenRef(gardenUsed: Option<int>): (r: Option<int>)
    ensures r.Some? <==> gardenUsed.Some? && gardenUsed.value != 0
    ensures r.Some? ==> r == gardenUsed
  {
    if gardenUsed.Some? && gardenUsed.value != 0 then gardenUsed else None
  }

  /** The columns shared by create and update, with the date as given. */
  function EntryColumns(d: EntryInput, date: Option<string>): EntryRecord
  {
    EntryRecord(
      OrElse(d.title, Untitled),
      if d.tags.Some? then Join(d.tags.value, ",") else "",
      date,
      OrElse(d.title, Untitled),
      OrElse(d.content, ""),
      OrElse(d.mood, ""),
      GardenRef(d.gardenUsed))
  }

  /** The field mapping `create` applies: the title, defaulting to "Untitled
      Entry", fills both `Name` and `title`; the tags are joined with commas;
      the date defaults to `now`. */
  function EntryForCreate(d: EntryInput, now: string): (r: EntryRecord)
    requires now != ""
    ensures r.name == r.title && r.title != ""
    ensures d.title.Some? && d.title.value != "" ==> r.title == d.title.value
    ensures (d.title.None? || d.title.value == "") ==> r.title == Untitled
    ensures r.date.Some? && r.date.value != ""
              && (d.date.Some? && d.date.value != "" ==> r.date == d.date)
    ensures d.content.Some? ==> r.content == d.content.value
    ensures d.content.None? ==> r.content == ""
    ensures d.mood.Some? ==> r.mood == d.mood.value
    ensures d.tags.None? || d.tags.value == [] ==> r.tags == ""
    ensures d.tags.Some? && d.tags.value != [] && (forall k :: 0 <= k < |d.tags.value| ==> ',' !in d.tags.value[k]) ==>
              Split(r.tags, ',') == d.tags.value
  {
    TagsColumnRoundTrip(d.tags);
    EntryColumns(d, Some(OrElse(d.date, now)))
  }

  /** The `Tags` column splits back into the tags when there is at least one
      and none contains a comma. */
  lemma TagsColumnRoundTrip(tags: Option<seq<string>>)
    ensures tags.Some? && tags.value != [] && (forall k :: 0 <= k < |tags.value| ==> ',' !in tags.value[k]) ==>
              Split(Join(tags.value, ","), ',') == tags.value
  {
    if tags.Some? && tags.value != [] && (forall k :: 0 <= k < |tags.value| ==> ',' !in tags.value[k]) {
      SplitJoin(tags.value, ',');
    }
  }

  /** The field mapping `update` applies: the same columns and defaults as
      `create` except the date, which is sent as given, plus the record id. */
  function EntryForUpdate(id: int, d: EntryInput): (r: EntryUpdate)
    ensures r.id == id && r.record.date == d.date
    ensures forall now :: now != "" ==> r.record == EntryForCreate(d, now).(date := d.date)
  {
    EntryUpdate(id, EntryColumns(d, d.date))
  }

  // ---------------------------------------------------------------- mood histogram

  /** One bar of the histogram: a mood and how many entries carry it. */
  datatype MoodCount = MoodCount(mood: string, count: nat)

  /** The histogram object, its keys in insertion order. */
  type MoodHistogram = seq<MoodCount>

  predicate DistinctMoods(h: MoodHistogram) {
    forall i, j :: 0 <= i < j < |h| ==> h[i].mood != h[j].mood
  }

  /** The count stored under `mood`, or 0 when it has no bar. */
  function CountOf(h: MoodHistogram, mood: string): nat
  {
    if h == [] then 0 else if h[0].mood == mood then h[0].count else CountOf(h[1..], mood)
  }

  function SumCounts(h: MoodHistogram): nat
  {
    if h == [] then 0 else h[0].count + SumCounts(h[1..])
  }

  /** The histogram has a bar for `mood`. */
  predicate HasMood(h: MoodHistogram, mood: string) {
    exists i :: 0 <= i < |h| && h[i].mood == mood
  }

  /** `acc[mood] = (acc[mood] || 0) + 1`: raise the bar of `mood`, or add a bar
      of 1 at the end. */
  function Bump(h: MoodHistogram, mood: string): (r: MoodHistogram)
    requires DistinctMoods(h)
    ensures DistinctMoods(r)
    ensures forall k :: HasMood(r, k) <==> k == mood || HasMood(h, k)
  {
    if h == [] then
      var r := [MoodCount(mood, 1)];
      assert r[0].mood == mood;
      r
    else if h[0].mood == mood then
      var r := [h[0].(count := h[0].count + 1)] + h[1..];
      assert forall i :: 0 <= i < |r| ==> r[i].mood == h[i].mood;
      r
    else
      var rest := Bump(h[1..], mood);
      var r := [h[0]] + rest;
      forall k | HasMood(r, k)
        ensures k == mood || HasMood(h, k)
      {
        var i :| 0 <= i < |r| && r[i].mood == k;
        if i > 0 {
          assert rest[i - 1].mood == k;
          assert HasMood(rest, k);
          if k != mood {
            var j :| 0 <= j < |h[1..]| && h[1..][j].mood == k;
            assert h[j + 1].mood == k;
          }
        }
      }
      forall k | k == mood || HasMood(h, k)
        ensures HasMood(r, k)
      {
        if k == h[0].mood {
          assert r[0].mood == k;
        } else {
          if k != mood {
            var j :| 0 <= j < |h| && h[j].mood == k;
            assert h[1..][j - 1].mood == k;
          }
          assert HasMood(rest, k);
          var i :| 0 <= i < |rest| && rest[i].mood == k;
          assert r[i + 1].mood == k;
        }
      }
      assert forall j :: 0 <= j < |h[1..]| ==> h[1..][j].mood != h[0].mood;
      assert !HasMood(h[1..], h[0].mood);
      r
  }

  /** A bump adds one to the bar of its mood and to the total, and leaves the
      other bars alone. */
  lemma {:induction false} BumpCounts(h: MoodHistogram, mood: string)
    requires DistinctMoods(h)
    ensures SumCounts(Bump(h, mood)) == SumCounts(h) + 1
    ensures forall k :: CountOf(Bump(h, mood), k) == CountOf(h, k) + (if k == mood then 1 else 0)
  {
    if h != [] && h[0].mood != mood {
      BumpCounts(h[1..], mood);
      assert Bump(h, mood)[1..] == Bump(h[1..], mood);
    }
  }

  /** An entry's mood is counted when it is truthy: present and not empty. */
  predicate Counted(mood: Option<string>) {
    mood.Some? && mood.value != ""
  }

  /** The number of entries whose mood is exactly `mood`. */
  function Occurrences(moods: seq<Option<string>>, mood: string): nat
  {
    if moods == [] then 0
    else Occurrences(moods[..|moods| - 1], mood) + (if moods[|moods| - 1] == Some(mood) then 1 else 0)
  }

  /** The number of entries with a truthy mood. */
  function CountedEntries(moods: seq<Option<string>>): nat
  {
    if moods == [] then 0
    else CountedEntries(moods[..|moods| - 1]) + (if Counted(moods[|moods| - 1]) then 1 else 0)
  }

  /** The `reduce` of `getMoodStats` over the entries' moods. */
  function MoodCounts(moods: seq<Option<string>>): (h: MoodHistogram)
    ensures DistinctMoods(h)
    ensures SumCounts(h) == CountedEntries(moods)
    ensures forall k :: k != "" ==> CountOf(h, k) == Occurrences(moods, k)
    ensures forall i :: 0 <= i < |h| ==> h[i].mood != ""
    ensures forall k :: HasMood(h, k) <==> k != "" && Some(k) in moods
  {
    if moods == [] then []
    else
      var front := moods[..|moods| - 1];
      var last := moods[|moods| - 1];
      var h := MoodCounts(front);
      assert moods == front + [last];
      var r := if Counted(last) then BumpCounts(h, last.value); Bump(h, last.value) else h;
      assert forall i :: 0 <= i < |r| ==> HasMood(r, r[i].mood);
      r
  }

  /** `getMoodStats` once the API has answered: an unsuccessful response or an
      error gives the empty histogram, a missing data list counts as empty. */
  function MoodStats(response: Result<Option<seq<Option<string>>>>): (h: MoodHistogram)
    ensures response.Failure? ==> h == []
    ensures response.Success? ==> SumCounts(h) == CountedEntries(response.value.GetOr([]))
    ensures response.Success? ==>
              forall k :: k != "" ==> CountOf(h, k) == Occurrences(response.value.GetOr([]), k)
    ensures response.Success? ==>
              forall k :: HasMood(h, k) <==> k != "" && Some(k) in response.value.GetOr([])
  {
    if response.Failure? then [] else MoodCounts(response.value.GetOr([]))
  }

  /** The number of entries with a given mood is the multiplicity of that mood,
      so the histogram does not depend on the order of the entries. */
  lemma {:induction false} OccurrencesIsMultiplicity(moods: seq<Option<string>>, mood: string)
    ensures Occurrences(moods, mood) == multiset(moods)[Some(mood)]
  {
    if moods != [] {
      var front := moods[..|moods| - 1];
      OccurrencesIsMultiplicity(front, mood);
      assert moods == front + [moods[|moods| - 1]];
    }
  }

  /** Entries in any order give every mood the same count. */
  lemma MoodCountsIgnoreOrder(a: seq<Option<string>>, b: seq<Option<string>>, mood: string)
    requires multiset(a) == multiset(b) && mood != ""
    ensures CountOf(MoodCounts(a), mood) == CountOf(MoodCounts(b), mood)
  {
    OccurrencesIsMultiplicity(a, mood);
    OccurrencesIsMultiplicity(b, mood);
  }

  // ---------------------------------------------------------------- window

  const MillisPerDay := 24 * 60 * 60 * 1000
  const DefaultStatsDays := 30

  /** The start of the histogram's window, in milliseconds: `days` days before
      `now`, 30 when not given. */
  function CutoffMillis(now: int, days: Option<int>): (c: int)
    ensures days.None? ==> c == now - 2592000000
    ensures days.Some? ==> now - c == days.value * 86400000
  {
    now - days.GetOr(DefaultStatsDays) * MillisPerDay
  }

  /** A longer window starts earlier. */
  lemma CutoffMonotone(now: int, shorter: int, longer: int)
    requires shorter <= longer
    ensures CutoffMillis(now, Some(longer)) <= CutoffMillis(now, Some(shorter))
  {
  }
}

=== FILE: meditate_page.dfy ===
/** The Meditate page: the category/difficulty filter over the session list,
    the local favourites list and the beginner quick start. */
module MeditatePage {

  import opened Wrappers
  import opened Seqs
  import opened MeditationService

  /** The filter value that disables a filter. */
  const All := "All"

  predicate InCategory(category: string, s: MeditationSession) {
    category == All || s.category == category
  }

  predicate AtDifficulty(difficulty: string, s: MeditationSession) {
    difficulty == All || s.difficulty == difficulty
  }

  function ByCategory(category: string): MeditationSession -> bool {
    (s: MeditationSession) => s.category == category
  }

  function ByDifficulty(difficulty: string): MeditationSession -> bool {
    (s: MeditationSession) => s.difficulty == difficulty
  }

  function ByBoth(category: string, difficulty: string): MeditationSession -> bool {
    (s: MeditationSession) => InCategory(category, s) && AtDifficulty(difficulty, s)
  }

  /** `filterSessions`: the category filter, then the difficulty filter, each
      skipped when set to "All". */
  function FilterSessions(sessions: seq<MeditationSession>, category: string, difficulty: string)
    : (r: seq<MeditationSession>)
    ensures IsSubsequence(r, sessions)
    ensures forall s :: s in r <==> s in sessions && InCategory(category, s) && AtDifficulty(difficulty, s)
    ensures category == All && difficulty == All ==> r == sessions
  {
    var byCategory := if category != All then Filter(ByCategory(category), sessions) else sessions;
    var r := if difficulty != All then Filter(ByDifficulty(difficulty), byCategory) else byCategory;
    FilterSessionsIsOneFilter(sessions, category, difficulty);
    FilterIsSubsequence(ByBoth(category, difficulty), sessions);
    r
  }

  /** The two filters amount to one filter by their conjunction. */
  lemma FilterSessionsIsOneFilter(sessions: seq<MeditationSession>, category: string, difficulty: string)
    ensures var byCategory := if category != All then Filter(ByCategory(category), sessions) else sessions;
            (if difficulty != All then Filter(ByDifficulty(difficulty), byCategory) else byCategory)
            == Filter(ByBoth(category, difficulty), sessions)
  {
    var both := ByBoth(category, difficulty);
    if category != All && difficulty != All {
      FilterFilterBy(ByDifficulty(difficulty), ByCategory(category), both, sessions);
    } else if category != All {
      FilterExtensional(ByCategory(category), both, sessions);
    } else if difficulty != All {
      FilterExtensional(ByDifficulty(difficulty), both, sessions);
    } else {
      FilterAll(both, sessions);
    }
  }

  /** `isFavorite`: some favourite has the session's id. */
  predicate IsFavorite(favorites: seq<MeditationSession>, s: MeditationSession) {
    exists i :: 0 <= i < |favorites| && favorites[i].id == s.id
  }

  /** `handleFavoriteToggle`: removes every favourite with the session's id if
      there is one, otherwise appends the session. */
  function ToggleFavorite(favorites: seq<MeditationSession>, s: MeditationSession): (r: seq<MeditationSession>)
    ensures IsFavorite(r, s) <==> !IsFavorite(favorites, s)
    ensures IsFavorite(favorites, s) ==>
              IsSubsequence(r, favorites) && forall f :: f in favorites ==> (f in r <==> f.id != s.id)
    ensures !IsFavorite(favorites, s) ==> r == favorites + [s]
  {
    if IsFavorite(favorites, s) then
      var r := Filter((f: MeditationSession) => f.id != s.id, favorites);
      FilterIsSubsequence((f: MeditationSession) => f.id != s.id, favorites);
      r
    else
      var r := favorites + [s];
      assert r[|favorites|] == s;
      r
  }

  /** Toggling the same session twice restores its favourite status, and a
      session that was not a favourite leaves the list exactly as it was. */
  lemma ToggleTwice(favorites: seq<MeditationSession>, s: MeditationSession)
    ensures IsFavorite(ToggleFavorite(ToggleFavorite(favorites, s), s), s) == IsFavorite(favorites, s)
    ensures !IsFavorite(favorites, s) ==> ToggleFavorite(ToggleFavorite(favorites, s), s) == favorites
  {
    if !IsFavorite(favorites, s) {
      var once := favorites + [s];
      var p := (f: MeditationSession) => f.id != s.id;
      FilterAppend(p, favorites, [s]);
      FilterAll(p, favorites);
    }
  }

  /** The favourites section shows at most the first three. */
  function DisplayedFavorites(favorites: seq<MeditationSession>): (r: seq<MeditationSession>)
    ensures |r| <= 3 && r <= favorites
    ensures |r| == if |favorites| < 3 then |favorites| else 3
    ensures |favorites| <= 3 ==> r == favorites
  {
    Take(favorites, 3)
  }

  /** Favouriting a further session once three are shown leaves the section as
      it was, while unfavouriting a shown one brings the fourth into view. */
  lemma FavoritingBeyondThreeKeepsDisplay(favorites: seq<MeditationSession>, s: MeditationSession)
    requires |favorites| >= 3
    ensures !IsFavorite(favorites, s) ==>
              DisplayedFavorites(ToggleFavorite(favorites, s)) == DisplayedFavorites(favorites)
    ensures DisplayedFavorites(favorites) == favorites[..3]
  {
    var shown := DisplayedFavorites(favorites);
    assert shown == favorites[..3];
    if !IsFavorite(favorites, s) {
      var grown := favorites + [s];
      assert grown[..3] == favorites[..3];
      assert DisplayedFavorites(grown) == grown[..3];
    }
  }

  /** The quick-start button: the first session of difficulty "Beginner", if any. */
  function BeginnerPick(sessions: seq<MeditationSession>): (r: Option<MeditationSession>)
    ensures r.None? <==> forall i :: 0 <= i < |sessions| ==> sessions[i].difficulty != "Beginner"
    ensures r.Some? ==>
              exists i :: 0 <= i < |sessions| && sessions[i] == r.value && r.value.difficulty == "Beginner"
                          && forall j :: 0 <= j < i ==> sessions[j].difficulty != "Beginner"
  {
    Find((s: MeditationSession) => s.difficulty == "Beginner", sessions)
  }
}

=== FILE: meditation_card.dfy ===
/** The session card: its duration label, the colour of its difficulty badge
    and its tag list. */
module MeditationCard {

  import opened Numerals
  import opened Seqs
  import opened Wrappers

  /** `formatDuration`: whole minutes followed by " min". */
  function FormatDuration(seconds: nat): (s: string)
    ensures |s| >= 5 && s[|s| - 4..] == " min"
    ensures AllDigits(s[..|s| - 4]) && DigitsValue(s[..|s| - 4]) == seconds / 60
  {
    var digits := NatToString(seconds / 60);
    DigitsValueOfNatToString(seconds / 60);
    var s := digits + " min";
    assert s[..|s| - 4] == digits;
    s
  }

  /** The badge colours: success, warning, error, and the neutral sage. */
  datatype Tone = SuccessTone | WarningTone | ErrorTone | SageTone

  /** `getDifficultyColor`. */
  function DifficultyTone(difficulty: string): (t: Tone)
  {
    match difficulty
    case "Beginner" => SuccessTone
    case "Intermediate" => WarningTone
    case "Advanced" => ErrorTone
    case _ => SageTone
  }

  /** The three known levels get three distinct tones, and everything else,
      the empty string included, falls back to the neutral one. */
  lemma DifficultyTones(difficulty: string)
    ensures DifficultyTone(difficulty) != SageTone <==>
            difficulty in {"Beginner", "Intermediate", "Advanced"}
    ensures DifficultyTone("Beginner") == SuccessTone
    ensures DifficultyTone("Intermediate") == WarningTone
    ensures DifficultyTone("Advanced") == ErrorTone
    ensures DifficultyTone("Beginner") != DifficultyTone("Intermediate")
    ensures DifficultyTone("Intermediate") != DifficultyTone("Advanced")
    ensures DifficultyTone("Beginner") != DifficultyTone("Advanced")
  {
  }

  /** The card's tag row: nothing for a session without tags, otherwise at
      most the first three tags. */
  function ShownTags(tags: Option<seq<string>>): (r: seq<string>)
    ensures tags.None? ==> r == []
    ensures tags.Some? ==> |r| <= 3 && r <= tags.value
    ensures tags.Some? ==> |r| == if |tags.value| < 3 then |tags.value| else 3
    ensures tags.Some? && |tags.value| <= 3 ==> r == tags.value
  {
    if tags.None? then [] else Take(tags.value, 3)
  }

  /** Tags added after the third never change the row: the row of a longer tag
      list is the row of its first three tags. */
  lemma ShownTagsIgnoreLaterTags(tags: seq<string>, later: seq<string>)
    requires |tags| >= 3
    ensures ShownTags(Some(tags + later)) == ShownTags(Some(tags)) == tags[..3]
  {
    assert (tags + later)[..3] == tags[..3];
  }
}

=== FILE: meditation_service.dfy ===
/** The meditation service's in-memory progress: per-session completion
    counters in an insertion-ordered map, the totals derived from them, the
    "consecutive days" streak and the top-3 favourites. Days are integer day
    numbers (midnight-truncated dates) and "today" is a parameter. */
module MeditationService {

  import opened Wrappers
  import opened Seqs
  import opened Numerals

  /** A catalogue entry of the meditation library. */
  datatype MeditationSession = MeditationSession(
    id: int, title: string, description: string, duration: nat,
    category: string, difficulty: string, instructor: string,
    thumbnail: string, tags: seq<string>)

  /** The progress record of one session; `lastCompleted` is the day of the
      latest completion. */
  datatype Progress = Progress(completedSessions: nat, totalTime: nat, lastCompleted: Option<int>)

  /** The record reported for a session never completed. */
  const Zero := Progress(0, 0, None)

  /** One key/value pair of the progress map. */
  datatype ProgressEntry = ProgressEntry(sessionId: int, progress: Progress)

  /** The progress map as a JavaScript `Map` keeps it: pairs in insertion order,
      one per key. */
  type ProgressMap = seq<ProgressEntry>

  predicate DistinctKeys(m: ProgressMap) {
    forall i, j :: 0 <= i < j < |m| ==> m[i].sessionId != m[j].sessionId
  }

  /** `userProgress.get(id)`. */
  function Lookup(m: ProgressMap, id: int): (r: Option<Progress>)
    ensures r.None? <==> forall i :: 0 <= i < |m| ==> m[i].sessionId != id
    ensures r.Some? ==> exists i :: 0 <= i < |m| && m[i] == ProgressEntry(id, r.value)
  {
    if m == [] then None
    else if m[0].sessionId == id then Some(m[0].progress)
    else
      var r := Lookup(m[1..], id);
      assert r.Some? ==> exists i :: 0 <= i < |m| && m[i] == ProgressEntry(id, r.value) by {
        if r.Some? {
          var i :| 0 <= i < |m[1..]| && m[1..][i] == ProgressEntry(id, r.value);
          assert m[i + 1] == ProgressEntry(id, r.value);
        }
      }
      r
  }

  /** `getProgress`: the stored record, or the zero record for an unknown id. */
  function GetProgress(m: ProgressMap, id: int): (p: Progress)
    ensures (forall i :: 0 <= i < |m| ==> m[i].sessionId != id) ==> p == Zero
    ensures DistinctKeys(m) ==> forall i :: 0 <= i < |m| && m[i].sessionId == id ==> p == m[i].progress
  {
    Lookup(m, id).GetOr(Zero)
  }

  function Keys(m: ProgressMap): set<int>
  {
    set i | 0 <= i < |m| :: m[i].sessionId
  }

  lemma KeysCons(e: ProgressEntry, m: ProgressMap)
    ensures Keys([e] + m) == {e.sessionId} + Keys(m)
  {
    var r := [e] + m;
    forall k | k in Keys(r) ensures k in {e.sessionId} + Keys(m) {
      var i :| 0 <= i < |r| && r[i].sessionId == k;
      if i > 0 { assert m[i - 1].sessionId == k; }
    }
    forall k | k in Keys(m) ensures k in Keys(r) {
      var i :| 0 <= i < |m| && m[i].sessionId == k;
      assert r[i + 1].sessionId == k;
    }
    assert r[0].sessionId == e.sessionId;
  }

  /** `userProgress.set(id, p)`: replaces the value in place when the key is
      present, appends the pair otherwise. */
  function SetEntry(m: ProgressMap, id: int, p: Progress): (r: ProgressMap)
    ensures Lookup(r, id) == Some(p)
    ensures forall k :: k != id ==> Lookup(r, k) == Lookup(m, k)
  {
    if m == [] then [ProgressEntry(id, p)]
    else if m[0].sessionId == id then [ProgressEntry(id, p)] + m[1..]
    else [m[0]] + SetEntry(m[1..], id, p)
  }

  /** Setting a key adds it to the key set and keeps one pair per key. */
  lemma {:induction false} SetEntryKeys(m: ProgressMap, id: int, p: Progress)
    ensures Keys(SetEntry(m, id, p)) == Keys(m) + {id}
    ensures DistinctKeys(m) ==> DistinctKeys(SetEntry(m, id, p))
  {
    if m == [] {
    } else if m[0].sessionId == id {
      KeysCons(m[0], m[1..]);
      KeysCons(ProgressEntry(id, p), m[1..]);
      assert m == [m[0]] + m[1..];
    } else {
      var t := SetEntry(m[1..], id, p);
      SetEntryKeys(m[1..], id, p);
      KeysCons(m[0], m[1..]);
      assert m == [m[0]] + m[1..];
      KeysCons(m[0], t);
      if DistinctKeys(m) {
        assert m[0].sessionId !in Keys(m[1..]);
        forall j | 0 <= j < |t| ensures t[j].sessionId != m[0].sessionId {
          assert t[j].sessionId in Keys(t);
        }
      }
    }
  }

  /** What `updateProgress` stores and returns for one completion. */
  datatype Update = Update(map_: ProgressMap, returned: Progress)

  /** `updateProgress`: one more completion of `id`, `duration` more seconds, and
      today as the last completion; the returned copy equals the stored record
      and every other session's record is unchanged. */
  function UpdateProgress(m: ProgressMap, id: int, duration: nat, today: int): (u: Update)
    ensures u.returned.completedSessions == GetProgress(m, id).completedSessions + 1
    ensures u.returned.totalTime == GetProgress(m, id).totalTime + duration
    ensures u.returned.lastCompleted == Some(today)
    ensures Lookup(u.map_, id) == Some(u.returned)
    ensures forall k :: k != id ==> Lookup(u.map_, k) == Lookup(m, k)
  {
    var current := GetProgress(m, id);
    var updated := Progress(current.completedSessions + 1, current.totalTime + duration, Some(today));
    Update(SetEntry(m, id, updated), updated)
  }

  /** `Math.round(totalTime / 60)`: the nearest whole minute, halves rounding up. */
  function RoundMinutes(seconds: nat): (r: nat)
    ensures 60 * r <= seconds + 30 < 60 * r + 60
  {
    (seconds + 30) / 60
  }

  function SumSessions(m: ProgressMap): nat
  {
    if m == [] then 0 else m[0].progress.completedSessions + SumSessions(m[1..])
  }

  /** Minutes rounded per entry and then added up. */
  function SumMinutes(m: ProgressMap): nat
  {
    if m == [] then 0 else RoundMinutes(m[0].progress.totalTime) + SumMinutes(m[1..])
  }

  /** The days of the entries that were ever completed, in map order. */
  function CompletionDays(m: ProgressMap): (days: seq<int>)
    ensures |days| <= |m|
    ensures forall d :: d in days <==> exists i :: 0 <= i < |m| && m[i].progress.lastCompleted == Some(d)
  {
    if m == [] then []
    else
      var rest := CompletionDays(m[1..]);
      assert forall d :: (exists i :: 0 <= i < |m[1..]| && m[1..][i].progress.lastCompleted == Some(d))
                         <==> (exists i :: 1 <= i < |m| && m[i].progress.lastCompleted == Some(d)) by {
        forall d | exists i :: 1 <= i < |m| && m[i].progress.lastCompleted == Some(d)
          ensures exists i :: 0 <= i < |m[1..]| && m[1..][i].progress.lastCompleted == Some(d)
        {
          var i :| 1 <= i < |m| && m[i].progress.lastCompleted == Some(d);
          assert m[1..][i - 1] == m[i];
        }
      }
      match m[0].progress.lastCompleted
      case Some(d) => [d] + rest
      case None => rest
  }

  /** The streak walk over completion days sorted newest first: it counts while
      the distance from today equals the count so far and stops at the first
      mismatch. */
  function StreakWalk(sorted: seq<int>, today: int, k: nat): (r: nat)
    ensures k <= r <= k + |sorted|
    decreases |sorted|
  {
    if sorted == [] then k
    else if today - sorted[0] == k then StreakWalk(sorted[1..], today, k + 1)
    else k
  }

  function Identity(d: int): int { d }

  /** `calculateStreak` on a list of completion days. */
  function StreakOfDays(days: seq<int>, today: int): nat
  {
    StreakWalk(SortDesc(Identity, days), today, 0)
  }

  /** `calculateStreak`. */
  function Streak(m: ProgressMap, today: int): nat
  {
    StreakOfDays(CompletionDays(m), today)
  }

  datatype TotalStats = TotalStats(totalSessions: nat, totalMinutes: nat, streak: nat)

  /** `getTotalStats`. */
  function GetTotalStats(m: ProgressMap, today: int): TotalStats
  {
    TotalStats(SumSessions(m), SumMinutes(m), Streak(m, today))
  }

  /* ---------------- Totals ---------------- */

  /** One completion raises the session total by exactly one. */
  lemma {:induction false} UpdateAddsOneSession(m: ProgressMap, id: int, duration: nat, today: int)
    requires DistinctKeys(m)
    ensures SumSessions(UpdateProgress(m, id, duration, today).map_) == SumSessions(m) + 1
  {
    var p := UpdateProgress(m, id, duration, today).returned;
    SetEntrySum(m, id, p);
  }

  lemma {:induction false} SetEntrySum(m: ProgressMap, id: int, p: Progress)
    requires DistinctKeys(m)
    ensures SumSessions(SetEntry(m, id, p)) ==
            SumSessions(m) - GetProgress(m, id).completedSessions + p.completedSessions
  {
    if m != [] && m[0].sessionId != id {
      SetEntrySum(m[1..], id, p);
    } else if m != [] {
      AbsentSum(m[1..], id);
    }
  }

  lemma {:induction false} AbsentSum(m: ProgressMap, id: int)
    requires forall i :: 0 <= i < |m| ==> m[i].sessionId != id
    ensures GetProgress(m, id) == Zero
  {
  }

  lemma {:induction false} SetEntryMinutes(m: ProgressMap, id: int, p: Progress)
    requires DistinctKeys(m)
    ensures SumMinutes(SetEntry(m, id, p)) ==
            SumMinutes(m) - RoundMinutes(GetProgress(m, id).totalTime) + RoundMinutes(p.totalTime)
  {
    if m != [] && m[0].sessionId != id {
      SetEntryMinutes(m[1..], id, p);
    } else if m != [] {
      AbsentSum(m[1..], id);
    }
  }

  /** One completion changes the minutes total by the change of that session's
      own rounded minutes; every other session contributes as before. */
  lemma UpdateChangesOnlyItsMinutes(m: ProgressMap, id: int, duration: nat, today: int)
    requires DistinctKeys(m)
    ensures var old_ := GetProgress(m, id).totalTime;
            SumMinutes(UpdateProgress(m, id, duration, today).map_)
            == SumMinutes(m) - RoundMinutes(old_) + RoundMinutes(old_ + duration)
  {
    SetEntryMinutes(m, id, UpdateProgress(m, id, duration, today).returned);
  }

  /** Minutes are rounded per session, not once over the grand total: two
      sessions of 30 seconds count two minutes, although together they last one. */
  lemma MinutesRoundedPerEntry()
    ensures var m := [ProgressEntry(1, Progress(1, 30, None)), ProgressEntry(2, Progress(1, 30, None))];
            SumMinutes(m) == 2 && RoundMinutes(30 + 30) == 1
  {
  }

  /** A 300-second session completed twice: two sessions, 600 seconds. */
  lemma TwoCompletions(id: int, today: int)
    ensures var once := UpdateProgress([], id, 300, today);
            var twice := UpdateProgress(once.map_, id, 300, today);
            twice.returned == Progress(2, 600, Some(today))
  {
  }

  /* ---------------- Streak ---------------- */

  /** What sorting the days provides: the same days, newest first. */
  lemma SortedDays(days: seq<int>)
    ensures var sorted := SortDesc(Identity, days);
            && multiset(sorted) == multiset(days)
            && |sorted| == |days|
            && (forall d :: d in days <==> d in sorted)
            && (forall i, j :: 0 <= i < j < |sorted| ==> sorted[i] >= sorted[j])
  {
    var sorted := SortDesc(Identity, days);
    forall d ensures d in days <==> d in sorted {
      assert d in days <==> d in multiset(days);
      assert d in sorted <==> d in multiset(sorted);
    }
    forall i, j | 0 <= i < j < |sorted| ensures sorted[i] >= sorted[j] {
      assert Identity(sorted[i]) >= Identity(sorted[j]);
    }
  }

  lemma {:induction false} WalkCountsConsecutiveDays(sorted: seq<int>, today: int, k: nat)
    ensures forall i :: 0 <= i < StreakWalk(sorted, today, k) - k ==> sorted[i] == today - k - i
    decreases |sorted|
  {
    if sorted != [] && today - sorted[0] == k {
      WalkCountsConsecutiveDays(sorted[1..], today, k + 1);
      forall i | 1 <= i < StreakWalk(sorted, today, k) - k
        ensures sorted[i] == today - k - i
      {
        assert sorted[i] == sorted[1..][i - 1];
      }
    }
  }

  /** Where the walk stops, the next day in sorted order breaks the run. */
  lemma {:induction false} WalkStops(sorted: seq<int>, today: int, k: nat)
    ensures var r := StreakWalk(sorted, today, k);
            r - k < |sorted| ==> sorted[r - k] != today - r
    decreases |sorted|
  {
    if sorted != [] && today - sorted[0] == k {
      WalkStops(sorted[1..], today, k + 1);
    }
  }

  /** No completed entry, no streak. */
  lemma {:induction false} NoCompletionsNoStreak(m: ProgressMap, today: int)
    requires forall i :: 0 <= i < |m| ==> m[i].progress.lastCompleted.None?
    ensures CompletionDays(m) == [] && Streak(m, today) == 0
  {
    if m != [] {
      NoCompletionsNoStreak(m[1..], today);
    }
  }

  /** The streak never exceeds the number of completed entries, and every day
      from today back through today-(streak-1) has a completion. */
  lemma StreakDaysPresent(days: seq<int>, today: int)
    ensures StreakOfDays(days, today) <= |days|
    ensures forall d :: today - StreakOfDays(days, today) < d <= today ==> d in days
  {
    var sorted := SortDesc(Identity, days);
    SortedDays(days);
    WalkCountsConsecutiveDays(sorted, today, 0);
    var n := StreakOfDays(days, today);
    forall d | today - n < d <= today ensures d in days {
      assert sorted[today - d] == d;
    }
  }

  lemma WalkPositiveIff(sorted: seq<int>, today: int)
    requires forall i, j :: 0 <= i < j < |sorted| ==> sorted[i] >= sorted[j]
    ensures StreakWalk(sorted, today, 0) >= 1 <==>
            (today in sorted && forall d :: d in sorted ==> d <= today)
  {
    if sorted != [] {
      forall d | d in sorted ensures d <= sorted[0] {
        var i :| 0 <= i < |sorted| && sorted[i] == d;
        assert i == 0 || sorted[0] >= sorted[i];
      }
      assert sorted[0] in sorted;
      if sorted[0] == today {
        assert StreakWalk(sorted, today, 0) == StreakWalk(sorted[1..], today, 1);
      }
    }
  }

  /** The streak is positive exactly when the newest completion is today. */
  lemma StreakPositiveIffToday(days: seq<int>, today: int)
    ensures StreakOfDays(days, today) >= 1 <==>
            (today in days && forall d :: d in days ==> d <= today)
  {
    SortedDays(days);
    WalkPositiveIff(SortDesc(Identity, days), today);
  }

  /** When no two entries were last completed on the same day and none lies in
      the future, the walk finds the whole run: the day before the run has no
      completion. */
  lemma StreakIsMaximalForDistinctDays(days: seq<int>, today: int)
    requires forall i, j :: 0 <= i < j < |days| ==> days[i] != days[j]
    requires forall d :: d in days ==> d <= today
    ensures today - StreakOfDays(days, today) !in days
  {
    var sorted := SortDesc(Identity, days);
    SortedDays(days);
    DistinctSortedIsStrict(days, sorted);
    WalkMaximal(sorted, today);
  }

  lemma WalkMaximal(sorted: seq<int>, today: int)
    requires forall i, j :: 0 <= i < j < |sorted| ==> sorted[i] > sorted[j]
    requires forall d :: d in sorted ==> d <= today
    ensures today - StreakWalk(sorted, today, 0) !in sorted
  {
    var k := StreakWalk(sorted, today, 0);
    WalkCountsConsecutiveDays(sorted, today, 0);
    WalkStops(sorted, today, 0);
    forall j | 0 <= j < |sorted| ensures sorted[j] != today - k {
      if j < k {
        assert sorted[j] == today - j;
      } else if k == 0 {
        assert sorted[0] in sorted;
        assert j == 0 || sorted[0] > sorted[j];
      } else if j > k {
        assert sorted[k - 1] == today - (k - 1);
        assert sorted[k] < sorted[k - 1];
        assert sorted[k] > sorted[j];
      }
    }
  }

  /** Sorting distinct days gives a strictly decreasing list. */
  lemma DistinctSortedIsStrict(days: seq<int>, sorted: seq<int>)
    requires forall i, j :: 0 <= i < j < |days| ==> days[i] != days[j]
    requires multiset(sorted) == multiset(days)
    requires forall i, j :: 0 <= i < j < |sorted| ==> sorted[i] >= sorted[j]
    ensures forall i, j :: 0 <= i < j < |sorted| ==> sorted[i] > sorted[j]
  {
    forall i, j | 0 <= i < j < |sorted| ensures sorted[i] > sorted[j] {
      if sorted[i] == sorted[j] {
        var d := sorted[i];
        assert multiset(sorted)[d] >= 2 by {
          assert sorted == sorted[..i] + [d] + sorted[i + 1..j] + [d] + sorted[j + 1..];
        }
        DistinctCountAtMostOne(days, d);
      }
    }
  }

  lemma {:induction false} DistinctCountAtMostOne(days: seq<int>, d: int)
    requires forall i, j :: 0 <= i < j < |days| ==> days[i] != days[j]
    ensures multiset(days)[d] <= 1
  {
    if days != [] {
      assert days == [days[0]] + days[1..];
      DistinctCountAtMostOne(days[1..], d);
      if days[0] == d {
        assert d !in days[1..];
      }
    }
  }

  /** The walk is a heuristic: two sessions last completed today and one
      yesterday give a streak of 1, although yesterday had a completion too. */
  lemma SameDayCompletionsStopTheWalk(today: int)
    ensures StreakOfDays([today, today, today - 1], today) == 1
  {
    var a := [today - 1];
    var b := [today] + a;
    var c := [today] + b;
    var none: seq<int> := [];
    assert c == [today, today, today - 1];
    assert SortDesc(Identity, a) == a by {
      assert a[1..] == none;
      SortDescCons(Identity, a);
    }
    assert SortDesc(Identity, b) == b by {
      assert b[1..] == a;
      SortDescCons(Identity, b);
    }
    assert SortDesc(Identity, c) == c by {
      assert c[1..] == b;
      SortDescCons(Identity, c);
    }
    assert StreakWalk(b, today, 1) == 1;
    assert StreakWalk(c, today, 0) == StreakWalk(b, today, 1) by {
      assert c[1..] == b;
    }
  }

  /* ---------------- Favourites ---------------- */

  function CompletedCount(e: ProgressEntry): int { e.progress.completedSessions }

  function HasCompletions(e: ProgressEntry): bool { e.progress.completedSessions > 0 }

  function EntryId(e: ProgressEntry): int { e.sessionId }

  function Ids(es: seq<ProgressEntry>): (ids: seq<int>)
    ensures |ids| == |es|
    ensures forall i :: 0 <= i < |es| ==> ids[i] == es[i].sessionId
  {
    if es == [] then [] else [es[0].sessionId] + Ids(es[1..])
  }

  /** The ranking half of `getFavorites`: entries with at least one completion,
      sorted by count (ties in map order), the first three, as ids. */
  function TopSessionIds(m: ProgressMap): seq<int>
  {
    Ids(Take(SortDesc(CompletedCount, Filter(HasCompletions, m)), 3))
  }

  /** At most three ids are chosen, each of a completed entry; no completed
      entry left out has a higher count than any chosen one; and when fewer
      than three entries have completions they are all chosen. */
  lemma TopSessionIdsRanking(m: ProgressMap)
    ensures |TopSessionIds(m)| <= 3
    ensures forall k :: k in TopSessionIds(m) ==>
              exists i :: 0 <= i < |m| && m[i].sessionId == k && m[i].progress.completedSessions > 0
    ensures forall i, j :: 0 <= i < |m| && 0 <= j < |m| && m[i].progress.completedSessions > 0
              && m[i].sessionId !in TopSessionIds(m) && m[j].sessionId in TopSessionIds(m)
              && DistinctKeys(m)
              ==> m[j].progress.completedSessions >= m[i].progress.completedSessions
    ensures |TopSessionIds(m)| == if |Filter(HasCompletions, m)| < 3 then |Filter(HasCompletions, m)| else 3
  {
    TopSessionIdsCount(m);
    forall k | k in TopSessionIds(m)
      ensures exists i :: 0 <= i < |m| && m[i].sessionId == k && m[i].progress.completedSessions > 0
    {
      TopSessionIdIsCompleted(m, k);
    }
    forall i, j | 0 <= i < |m| && 0 <= j < |m| && m[i].progress.completedSessions > 0
              && m[i].sessionId !in TopSessionIds(m) && m[j].sessionId in TopSessionIds(m) && DistinctKeys(m)
      ensures m[j].progress.completedSessions >= m[i].progress.completedSessions
    {
      TopSessionIdOutranks(m, i, j);
    }
  }

  /** Three ids are chosen, or every completed entry's when there are fewer. */
  lemma TopSessionIdsCount(m: ProgressMap)
    ensures |TopSessionIds(m)| == if |Filter(HasCompletions, m)| < 3 then |Filter(HasCompletions, m)| else 3
  {
    var pos := Filter(HasCompletions, m);
    assert |SortDesc(CompletedCount, pos)| == |pos|;
  }

  /** A chosen id is the id of an entry with completions. */
  lemma TopSessionIdIsCompleted(m: ProgressMap, k: int)
    requires k in TopSessionIds(m)
    ensures exists i :: 0 <= i < |m| && m[i].sessionId == k && m[i].progress.completedSessions > 0
  {
    var pos := Filter(HasCompletions, m);
    var sorted := SortDesc(CompletedCount, pos);
    var top := Take(sorted, 3);
    var ids := Ids(top);
    var t :| 0 <= t < |top| && ids[t] == k;
    assert top[t] == sorted[t];
    assert top[t] in multiset(pos);
    assert top[t] in pos;
    var i :| 0 <= i < |m| && m[i] == top[t];
  }

  /** A chosen entry has at least the count of any completed entry left out. */
  lemma TopSessionIdOutranks(m: ProgressMap, i: int, j: int)
    requires 0 <= i < |m| && 0 <= j < |m| && m[i].progress.completedSessions > 0
    requires m[i].sessionId !in TopSessionIds(m) && m[j].sessionId in TopSessionIds(m) && DistinctKeys(m)
    ensures m[j].progress.completedSessions >= m[i].progress.completedSessions
  {
    var pos := Filter(HasCompletions, m);
    var sorted := SortDesc(CompletedCount, pos);
    var top := Take(sorted, 3);
    var ids := Ids(top);
    assert top == sorted[..|top|];
    var e := m[i];
    assert e in pos;
    assert e in multiset(sorted);
    var a :| 0 <= a < |sorted| && sorted[a] == e;
    assert a >= |top|;
    var b :| 0 <= b < |ids| && ids[b] == m[j].sessionId;
    assert top[b] in multiset(pos);
    assert top[b] in pos;
    var c :| 0 <= c < |m| && m[c] == top[b];
    assert c == j;
    assert CompletedCount(sorted[b]) >= CompletedCount(sorted[a]);
  }

  /** `getFavorites`: nothing when no session was completed; otherwise the
      catalogue sessions whose id is among the top three, in catalogue order,
      or nothing when the catalogue cannot be fetched. */
  function GetFavorites(m: ProgressMap, catalogue: Result<seq<MeditationSession>>): (r: seq<MeditationSession>)
    ensures TopSessionIds(m) == [] || catalogue.Failure? ==> r == []
    ensures catalogue.Success? ==> IsSubsequence(r, catalogue.value)
    ensures catalogue.Success? ==> forall s :: s in catalogue.value ==>
              (s in r <==> s.id in TopSessionIds(m))
  {
    var ids := TopSessionIds(m);
    if ids == [] then []
    else if catalogue.Failure? then []
    else
      var r := Filter((s: MeditationSession) => s.id in ids, catalogue.value);
      FilterIsSubsequence((s: MeditationSession) => s.id in ids, catalogue.value);
      r
  }

  /** A map key or array element as `Array.prototype.includes` compares it: a
      number never equals a string. */
  datatype JsKey = NumberKey(n: int) | StringKey(text: string)

  /** The favourite ids as `getFavorites` collects them: the progress map's keys,
      which the meditation page sets to the numeric `session.id`. */
  function NumberKeys(ids: seq<int>): (ks: seq<JsKey>)
    ensures |ks| == |ids|
    ensures forall i :: 0 <= i < |ids| ==> ks[i] == NumberKey(ids[i])
    ensures forall t :: StringKey(t) !in ks
  {
    if ids == [] then [] else [NumberKey(ids[0])] + NumberKeys(ids[1..])
  }

  /** `session.id?.toString()` for an integer id. */
  function IdText(id: int): string
  {
    if id < 0 then "-" + NatToString(-id) else NatToString(id)
  }

  /** `getFavorites` as written: each catalogue session is looked up by the
      string `session.id?.toString()` among the numeric keys. */
  function GetFavoritesAsWritten(m: ProgressMap, catalogue: Result<seq<MeditationSession>>): seq<MeditationSession>
  {
    var ids := TopSessionIds(m);
    if ids == [] then []
    else if catalogue.Failure? then []
    else Filter((s: MeditationSession) => StringKey(IdText(s.id)) in NumberKeys(ids), catalogue.value)
  }

  /** As written, no session is ever reported as a favourite, even when a
      completed session is in the catalogue and the corrected comparison
      reports it. */
  lemma FavoritesAsWrittenAreEmpty(m: ProgressMap, catalogue: Result<seq<MeditationSession>>)
    ensures GetFavoritesAsWritten(m, catalogue) == []
    ensures catalogue.Success? && (exists s :: s in catalogue.value && s.id in TopSessionIds(m))
            ==> GetFavorites(m, catalogue) != []
  {
    var ids := TopSessionIds(m);
    if ids != [] && catalogue.Success? {
      var p := (s: MeditationSession) => StringKey(IdText(s.id)) in NumberKeys(ids);
      FilterNone(p, catalogue.value);
    }
  }
}

=== FILE: numerals.dfy ===
/** Decimal rendering of non-negative integers (`n.toString()`), its inverse,
    and `padStart(2, '0')`. */
module Numerals {

  import opened Wrappers

  predicate IsDigit(c: char) {
    '0' <= c <= '9'
  }

  predicate AllDigits(s: string) {
    forall i :: 0 <= i < |s| ==> IsDigit(s[i])
  }

  function DigitChar(d: nat): (c: char)
    requires d < 10
    ensures IsDigit(c)
  {
    ('0' as int + d) as char
  }

  function DigitValue(c: char): (d: nat)
    requires IsDigit(c)
    ensures d < 10
  {
    c as int - '0' as int
  }

  /** `n.toString()` for a non-negative integer: decimal digits without
      leading zeros. */
  function NatToString(n: nat): (s: string)
    ensures s != [] && AllDigits(s)
    ensures |s| == 1 <==> n < 10
    ensures |s| > 1 ==> s[0] != '0'
  {
    if n < 10 then [DigitChar(n)] else NatToString(n / 10) + [DigitChar(n % 10)]
  }

  /** Numbers below 100 take at most two digits. */
  lemma NatToStringBelowHundred(n: nat)
    requires n < 100
    ensures |NatToString(n)| <= 2
  {
    if n >= 10 {
      assert NatToString(n) == NatToString(n / 10) + [DigitChar(n % 10)];
    }
  }

  /** The number a string of decimal digits denotes. */
  function DigitsValue(s: string): nat
    requires AllDigits(s)
  {
    if s == [] then 0 else DigitsValue(s[..|s| - 1]) * 10 + DigitValue(s[|s| - 1])
  }

  /** Reading back a rendered number gives the number. */
  lemma {:induction false} DigitsValueOfNatToString(n: nat)
    ensures DigitsValue(NatToString(n)) == n
  {
    if n >= 10 {
      var s := NatToString(n);
      assert s[..|s| - 1] == NatToString(n / 10);
      DigitsValueOfNatToString(n / 10);
    }
  }

  /** `s.padStart(2, '0')`: prefixes zeros until the string has two characters. */
  function PadTwo(s: string): (r: string)
    ensures |s| >= 2 ==> r == s
    ensures |s| < 2 ==> |r| == 2 && r[2 - |s|..] == s
    ensures forall i :: 0 <= i < |r| - |s| ==> r[i] == '0'
    decreases 2 - |s|
  {
    if |s| >= 2 then s else PadTwo(['0'] + s)
  }

  /** Leading zeros do not change the value of a digit string. */
  lemma {:induction false} DigitsValueLeadingZero(s: string)
    requires AllDigits(s)
    ensures AllDigits(['0'] + s) && DigitsValue(['0'] + s) == DigitsValue(s)
  {
    if s != [] {
      var z := ['0'] + s;
      assert z[..|z| - 1] == ['0'] + s[..|s| - 1];
      DigitsValueLeadingZero(s[..|s| - 1]);
    }
  }

  lemma {:induction false} DigitsValuePadTwo(s: string)
    requires AllDigits(s)
    ensures AllDigits(PadTwo(s)) && DigitsValue(PadTwo(s)) == DigitsValue(s)
    decreases 2 - |s|
  {
    if |s| < 2 {
      DigitsValueLeadingZero(s);
      DigitsValuePadTwo(['0'] + s);
    }
  }
}

=== FILE: player.dfy ===
/** The meditation player: elapsed time, play/pause and completion of one
    session of `duration` seconds, driven by one-second ticks and by the
    play/pause, seek, restart and skip-forward controls. */
module Player {

  import opened Wrappers
  import opened Numerals

  datatype PlayerState = PlayerState(currentTime: int, isPlaying: bool, isCompleted: bool)

  /** A freshly opened player: at 0, paused, not completed. */
  const Initial := PlayerState(0, false, false)

  /** The state after one tick, and whether that tick called `onComplete`. */
  datatype TickOutcome = TickOutcome(state: PlayerState, completedNow: bool)

  /** The interval is installed only while playing and not completed. */
  predicate Ticking(st: PlayerState) {
    st.isPlaying && !st.isCompleted
  }

  /** One elapsed second. Reaching the duration clamps the time to it, marks the
      session completed, stops playing and reports the completion. */
  function Tick(st: PlayerState, duration: nat): (o: TickOutcome)
    ensures !Ticking(st) ==> o == TickOutcome(st, false)
    ensures Ticking(st) && st.currentTime + 1 < duration ==>
              o == TickOutcome(st.(currentTime := st.currentTime + 1), false)
    ensures Ticking(st) && st.currentTime + 1 >= duration ==>
              o == TickOutcome(PlayerState(duration, false, true), true)
    ensures o.completedNow <==> !st.isCompleted && o.state.isCompleted
  {
    if !Ticking(st) then TickOutcome(st, false)
    else
      var newTime := st.currentTime + 1;
      if newTime >= duration then TickOutcome(PlayerState(duration, false, true), true)
      else TickOutcome(st.(currentTime := newTime), false)
  }

  /** The main button: on a completed session it starts over from 0 and plays;
      otherwise it toggles playing. */
  function PlayPause(st: PlayerState): (r: PlayerState)
    ensures st.isCompleted ==> r == PlayerState(0, true, false)
    ensures !st.isCompleted ==> r == st.(isPlaying := !st.isPlaying)
  {
    if st.isCompleted then PlayerState(0, true, false)
    else st.(isPlaying := !st.isPlaying)
  }

  /** A click on the progress bar at `fraction` of its width: the time becomes
      floor(fraction * duration) and completion is cleared; playing is kept. */
  function Seek(st: PlayerState, duration: nat, fraction: real): (r: PlayerState)
    ensures !r.isCompleted && r.isPlaying == st.isPlaying
    ensures r.currentTime as real <= fraction * duration as real < r.currentTime as real + 1.0
  {
    PlayerState((fraction * duration as real).Floor, st.isPlaying, false)
  }

  /** The restart button, disabled while the time is 0: otherwise it returns to
      0, paused and not completed. */
  function Restart(st: PlayerState): (r: PlayerState)
    ensures st.currentTime == 0 ==> r == st
    ensures st.currentTime != 0 ==> r == Initial
  {
    if st.currentTime == 0 then st else Initial
  }

  /** The skip-forward button, disabled once completed: jumps to the end without
      marking completion (the next tick does that if playing). */
  function Skip(st: PlayerState, duration: nat): (r: PlayerState)
    ensures st.isCompleted ==> r == st
    ensures !st.isCompleted ==> r == st.(currentTime := duration)
  {
    if st.isCompleted then st else st.(currentTime := duration)
  }

  /** Every user or timer event the player reacts to. */
  datatype Event = Second | PlayPauseClick | SeekClick(fraction: real) | RestartClick | SkipClick

  function Step(st: PlayerState, duration: nat, ev: Event): PlayerState
  {
    match ev
    case Second => Tick(st, duration).state
    case PlayPauseClick => PlayPause(st)
    case SeekClick(f) => Seek(st, duration, f)
    case RestartClick => Restart(st)
    case SkipClick => Skip(st, duration)
  }

  /** The states the player can reach: time within [0, duration], and a completed
      session sits at the end and is not playing. */
  predicate Valid(st: PlayerState, duration: nat) {
    && 0 <= st.currentTime <= duration
    && (st.isCompleted ==> st.currentTime == duration && !st.isPlaying)
  }

  /** A click lands inside the progress bar, so its fraction is within [0, 1]. */
  predicate InBar(ev: Event) {
    ev.SeekClick? ==> 0.0 <= ev.fraction <= 1.0
  }

  lemma StepPreservesValid(st: PlayerState, duration: nat, ev: Event)
    requires Valid(st, duration) && InBar(ev)
    ensures Valid(Step(st, duration, ev), duration)
  {
    if ev.SeekClick? {
      SeekStaysInBar(st, duration, ev.fraction);
    }
  }

  /** A click inside the bar seeks to a time within [0, duration]. */
  lemma SeekStaysInBar(st: PlayerState, duration: nat, fraction: real)
    requires 0.0 <= fraction <= 1.0
    ensures 0 <= Seek(st, duration, fraction).currentTime <= duration
  {
    var x := fraction * duration as real;
    FractionOfDuration(fraction, duration as real);
    FloorWithin(x, duration);
  }

  lemma FloorWithin(x: real, n: nat)
    requires 0.0 <= x <= n as real
    ensures 0 <= x.Floor <= n
  {
  }

  /** A fraction in [0, 1] of a non-negative length lies within [0, length]. */
  lemma FractionOfDuration(f: real, d: real)
    requires 0.0 <= f <= 1.0 && 0.0 <= d
    ensures 0.0 <= f * d <= d
  {
    assert d - f * d == (1.0 - f) * d;
  }

  lemma InitialValid(duration: nat)
    ensures Valid(Initial, duration)
  {
  }

  /** Once completed, ticks change nothing and report nothing until a control
      is used: `onComplete` is not called again. */
  lemma CompletedIsQuiet(st: PlayerState, duration: nat)
    requires st.isCompleted
    ensures Tick(st, duration) == TickOutcome(st, false)
  {
  }

  /** `n` ticks in a row: the final state and how many of them completed the
      session. */
  function Ticks(st: PlayerState, duration: nat, n: nat): (PlayerState, nat)
    decreases n
  {
    if n == 0 then (st, 0)
    else
      var o := Tick(st, duration);
      var (last, fired) := Ticks(o.state, duration, n - 1);
      (last, fired + if o.completedNow then 1 else 0)
  }

  /** Left playing, a session completes after duration - currentTime ticks (at
      least one), and however long the timer keeps running afterwards
      `onComplete` is called exactly once. */
  lemma {:induction false} PlayingCompletesOnce(st: PlayerState, duration: nat, n: nat)
    requires Valid(st, duration) && Ticking(st)
    requires n >= duration - st.currentTime && n >= 1
    ensures Ticks(st, duration, n) == (PlayerState(duration, false, true), 1)
    decreases n
  {
    var o := Tick(st, duration);
    if o.completedNow {
      QuietTicks(o.state, duration, n - 1);
    } else {
      PlayingCompletesOnce(o.state, duration, n - 1);
    }
  }

  lemma {:induction false} QuietTicks(st: PlayerState, duration: nat, n: nat)
    requires st.isCompleted
    ensures Ticks(st, duration, n) == (st, 0)
  {
    if n > 0 {
      QuietTicks(st, duration, n - 1);
    }
  }

  /** `formatTime`: whole minutes, a colon, and the seconds within the minute
      padded to two digits. */
  function FormatTime(seconds: nat): (s: string)
    ensures |s| >= 4 && s[|s| - 3] == ':'
  {
    NatToString(seconds / 60) + ":" + PadTwo(NatToString(seconds % 60))
  }

  /** Reads an `m:ss` label back into seconds; the inverse of `FormatTime`. */
  function ParseTime(s: string): Option<nat>
  {
    if |s| >= 4 && s[|s| - 3] == ':' && AllDigits(s[..|s| - 3]) && AllDigits(s[|s| - 2..])
       && DigitsValue(s[|s| - 2..]) < 60
    then Some(DigitsValue(s[..|s| - 3]) * 60 + DigitsValue(s[|s| - 2..]))
    else None
  }

  /** A formatted time reads back as the same number of seconds: minutes * 60
      plus the two-digit seconds field. */
  lemma FormatTimeRoundTrip(seconds: nat)
    ensures ParseTime(FormatTime(seconds)) == Some(seconds)
  {
    var m := NatToString(seconds / 60);
    var ss := PadTwo(NatToString(seconds % 60));
    NatToStringBelowHundred(seconds % 60);
    DigitsValueOfNatToString(seconds / 60);
    DigitsValueOfNatToString(seconds % 60);
    DigitsValuePadTwo(NatToString(seconds % 60));
    LabelParts(m, ss);
  }

  /** The two fields of a label `m:ss` are where `ParseTime` reads them. */
  lemma LabelParts(m: string, ss: string)
    requires |m| >= 1 && |ss| == 2
    ensures var s := m + ":" + ss;
            |s| >= 4 && s[|s| - 3] == ':' && s[..|s| - 3] == m && s[|s| - 2..] == ss
  {
  }

  /** The "remaining" label under the progress bar. */
  function RemainingLabel(st: PlayerState, duration: nat): (s: string)
    requires Valid(st, duration)
    ensures ParseTime(s) == Some(duration - st.currentTime)
  {
    var left: nat := duration - st.currentTime;
    FormatTimeRoundTrip(left);
    FormatTime(left)
  }
}

=== FILE: record_api.dfy ===
/** The part of the hosted record API's responses that the services inspect,
    and the delete result both services derive from it. */
module RecordApi {

  import opened Wrappers

  /** A response of the record API: its overall success flag and, when present,
      the per-record outcomes (`results[i].success`). */
  datatype Response = Response(success: bool, message: string, results: Option<seq<bool>>)

  /** `delete`: an unsuccessful response is an error; a response without a
      results list counts as deleted; otherwise the call reports whether at least
      one record was deleted. */
  function DeleteResult(response: Response): (r: Result<bool>)
    ensures r.Failure? <==> !response.success
    ensures r.Success? && response.results.None? ==> r.value
    ensures r.Success? && response.results.Some? ==>
              (r.value <==> exists i :: 0 <= i < |response.results.value| && response.results.value[i])
  {
    if !response.success then Failure(response.message)
    else if response.results.None? then Success(true)
    else Success(exists i :: 0 <= i < |response.results.value| && response.results.value[i])
  }

  /** A delete reports `false` exactly when every listed record failed, and an
      empty results list is such a case. */
  lemma DeleteReportsFalseOnlyWhenAllFailed(response: Response)
    requires response.success && response.results.Some?
    ensures !DeleteResult(response).value <==>
              forall i :: 0 <= i < |response.results.value| ==> !response.results.value[i]
    ensures response.results.value == [] ==> DeleteResult(response) == Success(false)
  {
  }
}

=== FILE: seqs.dfy ===
/** Sequence operations shared by the pages: JavaScript's `filter`, `map` with
    an id-matched replacement, `slice(0, n)`, and the order-preserving
    subsequence relation their results satisfy. */
module Seqs {

  import opened Wrappers

  /** `a` is obtained from `b` by deleting elements, keeping the order. */
  predicate IsSubsequence<T(==)>(a: seq<T>, b: seq<T>)
    decreases |b|
  {
    if a == [] then true
    else if b == [] then false
    else if a[0] == b[0] then IsSubsequence(a[1..], b[1..])
    else IsSubsequence(a, b[1..])
  }

  /** `Array.prototype.filter`: the elements of `s` satisfying `p`, in order. */
  function Filter<T(==)>(p: T -> bool, s: seq<T>): (r: seq<T>)
    ensures |r| <= |s|
    ensures forall i :: 0 <= i < |r| ==> r[i] in s && p(r[i])
    ensures forall i :: 0 <= i < |s| && p(s[i]) ==> s[i] in r
  {
    if s == [] then []
    else if p(s[0]) then [s[0]] + Filter(p, s[1..])
    else Filter(p, s[1..])
  }

  /** Filtering keeps every copy of a kept value and no copy of a dropped one. */
  lemma {:induction false} FilterMultiset<T>(p: T -> bool, s: seq<T>)
    ensures forall x :: multiset(Filter(p, s))[x] == if p(x) then multiset(s)[x] else 0
  {
    if s != [] {
      FilterMultiset(p, s[1..]);
      assert s == [s[0]] + s[1..];
      assert multiset(s) == multiset{s[0]} + multiset(s[1..]);
    }
  }

  lemma {:induction false} FilterIsSubsequence<T>(p: T -> bool, s: seq<T>)
    ensures IsSubsequence(Filter(p, s), s)
  {
    if s != [] {
      FilterIsSubsequence(p, s[1..]);
      if p(s[0]) {
        assert Filter(p, s)[1..] == Filter(p, s[1..]);
      } else {
        SubsequenceOfTail(Filter(p, s), s);
      }
    }
  }

  /** A subsequence of the tail is a subsequence of the whole. */
  lemma {:induction false} SubsequenceOfTail<T>(a: seq<T>, b: seq<T>)
    requires b != [] && IsSubsequence(a, b[1..])
    ensures IsSubsequence(a, b)
    decreases |b|, 1
  {
    if a != [] && a[0] == b[0] {
      DropHead(a, b[1..]);
    }
  }

  /** Dropping the first element of a subsequence keeps it a subsequence. */
  lemma {:induction false} DropHead<T>(a: seq<T>, c: seq<T>)
    requires a != [] && IsSubsequence(a, c)
    ensures IsSubsequence(a[1..], c)
    decreases |c|, 2
  {
    if a[0] == c[0] {
      SubsequenceOfTail(a[1..], c);
    } else {
      DropHead(a, c[1..]);
      SubsequenceOfTail(a[1..], c);
    }
  }

  /** Filtering twice is filtering once by the conjunction. */
  lemma {:induction false} FilterFilter<T>(p: T -> bool, q: T -> bool, s: seq<T>)
    ensures Filter(p, Filter(q, s)) == Filter(x => q(x) && p(x), s)
  {
    if s != [] {
      FilterFilter(p, q, s[1..]);
    }
  }

  /** Two filters applied in either order give the same list. */
  lemma FilterCommutes<T>(p: T -> bool, q: T -> bool, s: seq<T>)
    ensures Filter(p, Filter(q, s)) == Filter(q, Filter(p, s))
  {
    FilterFilter(p, q, s);
    FilterFilter(q, p, s);
    FilterExtensional(x => q(x) && p(x), x => p(x) && q(x), s);
  }

  /** Deleting elements twice is deleting elements once. */
  lemma {:induction false} SubsequenceTransitive<T>(a: seq<T>, b: seq<T>, c: seq<T>)
    requires IsSubsequence(a, b) && IsSubsequence(b, c)
    ensures IsSubsequence(a, c)
    decreases |c|
  {
    if a != [] && c != [] {
      if b[0] == c[0] {
        if a[0] == b[0] {
          SubsequenceTransitive(a[1..], b[1..], c[1..]);
        } else {
          SubsequenceTransitive(a, b[1..], c[1..]);
          SubsequenceOfTail(a, c);
        }
      } else {
        SubsequenceTransitive(a, b, c[1..]);
        SubsequenceOfTail(a, c);
      }
    }
  }

  /** Filters by predicates that agree on every element give the same list. */
  lemma {:induction false} FilterExtensional<T>(p: T -> bool, q: T -> bool, s: seq<T>)
    requires forall i :: 0 <= i < |s| ==> p(s[i]) == q(s[i])
    ensures Filter(p, s) == Filter(q, s)
  {
    if s != [] {
      FilterExtensional(p, q, s[1..]);
    }
  }

  /** A filter that keeps no element gives the empty list. */
  lemma {:induction false} FilterNone<T>(p: T -> bool, s: seq<T>)
    requires forall i :: 0 <= i < |s| ==> !p(s[i])
    ensures Filter(p, s) == []
  {
    if s != [] {
      FilterNone(p, s[1..]);
    }
  }

  /** A filter that keeps every element changes nothing. */
  lemma {:induction false} FilterAll<T>(p: T -> bool, s: seq<T>)
    requires forall i :: 0 <= i < |s| ==> p(s[i])
    ensures Filter(p, s) == s
  {
    if s != [] {
      FilterAll(p, s[1..]);
    }
  }

  /** Two filters in a row are one filter by any predicate that means both. */
  lemma {:induction false} FilterFilterBy<T>(p: T -> bool, q: T -> bool, both: T -> bool, s: seq<T>)
    requires forall i :: 0 <= i < |s| ==> both(s[i]) == (q(s[i]) && p(s[i]))
    ensures Filter(p, Filter(q, s)) == Filter(both, s)
  {
    if s != [] {
      FilterFilterBy(p, q, both, s[1..]);
    }
  }

  /** Filtering distributes over concatenation. */
  lemma {:induction false} FilterAppend<T>(p: T -> bool, a: seq<T>, b: seq<T>)
    ensures Filter(p, a + b) == Filter(p, a) + Filter(p, b)
  {
    if a != [] {
      assert (a + b)[1..] == a[1..] + b;
      FilterAppend(p, a[1..], b);
    } else {
      assert a + b == b;
    }
  }

  /** `slice(0, n)`: the first `n` elements, or all of them when there are fewer. */
  function Take<T>(s: seq<T>, n: nat): (r: seq<T>)
    ensures |r| <= n && |r| <= |s|
    ensures |s| <= n ==> r == s
    ensures n <= |s| ==> |r| == n
    ensures r <= s
  {
    if |s| <= n then s else s[..n]
  }

  /** `s.map(x => key(x) == k ? v : x)`: every element whose key is `k` becomes `v`. */
  function ReplaceWhere<T, K(==)>(key: T -> K, k: K, v: T, s: seq<T>): (r: seq<T>)
    ensures |r| == |s|
    ensures forall i :: 0 <= i < |s| ==> r[i] == (if key(s[i]) == k then v else s[i])
  {
    if s == [] then []
    else [if key(s[0]) == k then v else s[0]] + ReplaceWhere(key, k, v, s[1..])
  }

  /** `s.some(x => key(x) == k)`. */
  predicate AnyKey<T, K(==)>(key: T -> K, k: K, s: seq<T>)
  {
    exists i :: 0 <= i < |s| && key(s[i]) == k
  }

  /** The number of elements equal to `x`. */
  function Count<T(==)>(x: T, s: seq<T>): nat
  {
    if s == [] then 0 else (if s[0] == x then 1 else 0) + Count(x, s[1..])
  }

  /** `s.find(p)`: the first element satisfying `p`, if any. */
  function Find<T(==)>(p: T -> bool, s: seq<T>): (r: Option<T>)
    ensures r.None? <==> forall i :: 0 <= i < |s| ==> !p(s[i])
    ensures r.Some? ==> exists i :: 0 <= i < |s| && s[i] == r.value && p(r.value)
                          && forall j :: 0 <= j < i ==> !p(s[j])
  {
    if s == [] then None
    else if p(s[0]) then Some(s[0])
    else
      var r := Find(p, s[1..]);
      if r.Some? then
        var i :| 0 <= i < |s[1..]| && s[1..][i] == r.value && p(r.value)
                 && forall j :: 0 <= j < i ==> !p(s[1..][j]);
        assert s[i + 1] == r.value;
        r
      else r
  }

  /** The keys never increase along `s`. */
  predicate SortedDesc<T>(key: T -> int, s: seq<T>) {
    forall i, j :: 0 <= i < j < |s| ==> key(s[i]) >= key(s[j])
  }

  /** Inserts `x` before the first element whose key is not larger, so that
      equal keys keep `x` ahead of the elements that followed it. */
  function InsertDesc<T>(key: T -> int, x: T, s: seq<T>): (r: seq<T>)
    ensures |r| == |s| + 1
  {
    if s == [] || key(x) >= key(s[0]) then [x] + s
    else [s[0]] + InsertDesc(key, x, s[1..])
  }

  /** Insertion adds `x` and keeps every other element. */
  lemma {:induction false} InsertDescMultiset<T>(key: T -> int, x: T, s: seq<T>)
    ensures multiset(InsertDesc(key, x, s)) == multiset(s) + multiset{x}
  {
    if s != [] && key(x) < key(s[0]) {
      InsertDescMultiset(key, x, s[1..]);
      assert s == [s[0]] + s[1..];
    }
  }

  /** A bound on every key of `s` and on `x` bounds every key after insertion. */
  lemma {:induction false} InsertDescBound<T>(key: T -> int, x: T, s: seq<T>, b: int)
    requires key(x) <= b
    requires forall i :: 0 <= i < |s| ==> key(s[i]) <= b
    ensures forall i :: 0 <= i < |InsertDesc(key, x, s)| ==> key(InsertDesc(key, x, s)[i]) <= b
  {
    if s != [] && key(x) < key(s[0]) {
      InsertDescBound(key, x, s[1..], b);
      var t := InsertDesc(key, x, s[1..]);
      assert InsertDesc(key, x, s) == [s[0]] + t;
    }
  }

  /** Insertion into a sorted list keeps it sorted. */
  lemma {:induction false} InsertDescSorted<T>(key: T -> int, x: T, s: seq<T>)
    requires SortedDesc(key, s)
    ensures SortedDesc(key, InsertDesc(key, x, s))
  {
    if s != [] && key(x) < key(s[0]) {
      InsertDescSorted(key, x, s[1..]);
      InsertDescBound(key, x, s[1..], key(s[0]));
      var t := InsertDesc(key, x, s[1..]);
      var r := [s[0]] + t;
      assert InsertDesc(key, x, s) == r;
      forall i, j | 0 <= i < j < |r| ensures key(r[i]) >= key(r[j]) {
        assert r[j] == t[j - 1];
        if i > 0 {
          assert r[i] == t[i - 1];
        }
      }
    }
  }

  /** A stable sort by decreasing key, as `Array.prototype.sort` with the
      comparator `(a, b) => key(b) - key(a)`. */
  function SortDesc<T>(key: T -> int, s: seq<T>): (r: seq<T>)
    ensures SortedDesc(key, r)
    ensures multiset(r) == multiset(s)
    ensures |r| == |s|
  {
    if s == [] then []
    else
      var t := SortDesc(key, s[1..]);
      InsertDescSorted(key, s[0], t);
      InsertDescMultiset(key, s[0], t);
      assert s == [s[0]] + s[1..];
      InsertDesc(key, s[0], t)
  }

  /** An element whose key is not smaller than the head's goes in front. */
  lemma InsertDescFront<T>(key: T -> int, x: T, s: seq<T>)
    requires s == [] || key(x) >= key(s[0])
    ensures InsertDesc(key, x, s) == [x] + s
  {
  }

  /** Sorting a list whose first element's key is not smaller than the sorted
      rest's head puts that element first. */
  lemma SortDescCons<T>(key: T -> int, s: seq<T>)
    requires s != []
    requires var rest := SortDesc(key, s[1..]); rest == [] || key(s[0]) >= key(rest[0])
    ensures SortDesc(key, s) == [s[0]] + SortDesc(key, s[1..])
  {
    InsertDescFront(key, s[0], SortDesc(key, s[1..]));
  }
}

=== FILE: sound_player.dfy ===
/** The sound player widget: its own record of the current sound, whether it
    plays and the volume, kept in step with the sound service. */
module SoundPlayer {

  import opened Wrappers
  import opened SoundService

  /** The widget's state. */
  datatype PlayerUi = PlayerUi(current: Option<Sound>, isPlaying: bool, volume: real)

  const InitialUi := PlayerUi(None, false, InitialVolume)

  /** The widget and the service it drives, side by side. */
  datatype Both = Both(ui: PlayerUi, service: ServiceState)

  /** `handlePlaySound`: the sound that is playing is paused and forgotten; any
      other sound, or any sound while paused, is played and becomes current. A
      failed play leaves both states as they were. */
  function ChooseSound(b: Both, sound: Sound, lookup: Lookup): (r: Both)
    ensures b.ui.current.Some? && b.ui.current.value.id == sound.id && b.ui.isPlaying ==>
              r.ui.current.None? && !r.ui.isPlaying && r.service.currentlyPlaying.None?
    ensures !(b.ui.current.Some? && b.ui.current.value.id == sound.id && b.ui.isPlaying) ==>
              if Resolved(lookup)
              then r.ui.current == Some(sound) && r.ui.isPlaying && r.service.currentlyPlaying == Some(sound.id)
              else r == b
    ensures r.ui.volume == b.ui.volume && r.service.volume == b.service.volume
  {
    if b.ui.current.Some? && b.ui.current.value.id == sound.id && b.ui.isPlaying then
      Both(b.ui.(current := None, isPlaying := false), Pause(b.service).state)
    else
      var played := Play(b.service, sound.id, lookup);
      if played.result.Failure? then b
      else Both(b.ui.(current := Some(sound), isPlaying := true), played.state)
  }

  /** `handleVolumeChange`: the service stores the clamped level, the slider
      keeps the level as given. */
  function ChangeVolume(b: Both, level: real): (r: Both)
    ensures r.service.volume == Clamp01(level) && r.ui.volume == level
    ensures r.ui.current == b.ui.current && r.ui.isPlaying == b.ui.isPlaying
    ensures r.service.currentlyPlaying == b.service.currentlyPlaying
  {
    Both(b.ui.(volume := level), SetVolume(b.service, level).state)
  }

  /** The widget and the service agree: the widget plays exactly when it has a
      current sound, and then the service plays that sound; otherwise the
      service plays nothing. */
  predicate InStep(b: Both) {
    && (b.ui.isPlaying <==> b.ui.current.Some?)
    && b.service.currentlyPlaying == (if b.ui.isPlaying then Some(b.ui.current.value.id) else None)
  }

  /** "Now playing" is shown when there is a current sound and it plays. */
  predicate NowPlayingShown(ui: PlayerUi) {
    ui.current.Some? && ui.isPlaying
  }

  lemma InitiallyInStep()
    ensures InStep(Both(InitialUi, InitialService))
    ensures !NowPlayingShown(InitialUi)
  {
  }

  /** Both handlers keep the widget and the service in step, so "now playing"
      is shown exactly while the service plays a sound. */
  lemma HandlersKeepInStep(b: Both, sound: Sound, lookup: Lookup, level: real)
    requires InStep(b)
    ensures InStep(ChooseSound(b, sound, lookup))
    ensures InStep(ChangeVolume(b, level))
    ensures NowPlayingShown(b.ui) <==> b.service.currentlyPlaying.Some?
  {
  }

  /** Choosing the same sound twice, both lookups succeeding, returns to where
      nothing plays. */
  lemma ChooseTwiceStops(b: Both, sound: Sound, lookup: Lookup)
    requires InStep(b) && !NowPlayingShown(b.ui) && Resolved(lookup)
    ensures var twice := ChooseSound(ChooseSound(b, sound, lookup), sound, lookup);
            !NowPlayingShown(twice.ui) && twice.service.currentlyPlaying.None?
  {
  }

  /** A slider level in [0, 1] is stored unchanged on both sides. */
  lemma SliderVolumeAgrees(b: Both, level: real)
    requires 0.0 <= level <= 1.0
    ensures ChangeVolume(b, level).ui.volume == ChangeVolume(b, level).service.volume
  {
  }
}

=== FILE: sound_service.dfy ===
/** The ambient sound service: which sound is playing, the volume, mixes of
    several sounds and the popular sounds. Playback is simulated by the
    service itself; the record lookups it makes are given as their results. */
module SoundService {

  import opened Wrappers
  import opened Seqs
  import opened Numerals

  /** An ambient sound record, reduced to what the model needs. */
  datatype Sound = Sound(id: int, name: string, icon: string)

  /** What a lookup by id produced: an error, no record, or the record. */
  type Lookup = Result<Option<Sound>>

  predicate Resolved(l: Lookup) {
    l.Success? && l.value.Some?
  }

  /** The service's own state. */
  datatype ServiceState = ServiceState(currentlyPlaying: Option<int>, volume: real)

  const InitialVolume: real := 0.7

  /** The state the service starts in: nothing playing, volume 0.7. */
  const InitialService := ServiceState(None, InitialVolume)

  /** A call's effect on the service together with what it returned. */
  datatype Outcome<T> = Outcome(state: ServiceState, result: Result<T>)

  /** `play`: succeeds and records the id as playing only when the lookup found
      the sound; otherwise it fails and the state stays as it was. */
  function Play(st: ServiceState, soundId: int, lookup: Lookup): (o: Outcome<Sound>)
    ensures o.result.Success? <==> Resolved(lookup)
    ensures o.result.Success? ==> o.state == st.(currentlyPlaying := Some(soundId))
                                  && o.result.value == lookup.value.value
    ensures o.result.Failure? ==> o.state == st
  {
    if lookup.Failure? then Outcome(st, Failure(lookup.error))
    else if lookup.value.None? then Outcome(st, Failure("Sound not found"))
    else Outcome(st.(currentlyPlaying := Some(soundId)), Success(lookup.value.value))
  }

  /** `pause`: reports what was playing and clears it. */
  function Pause(st: ServiceState): (o: Outcome<Option<int>>)
    ensures o.result == Success(st.currentlyPlaying)
    ensures o.state == st.(currentlyPlaying := None)
  {
    Outcome(st.(currentlyPlaying := None), Success(st.currentlyPlaying))
  }

  /** A pause right after a successful play reports the sound just started. */
  lemma PauseReportsPlayedSound(st: ServiceState, soundId: int, lookup: Lookup)
    requires Resolved(lookup)
    ensures Pause(Play(st, soundId, lookup).state).result == Success(Some(soundId))
  {
  }

  function Clamp01(level: real): (v: real)
    ensures 0.0 <= v <= 1.0
    ensures 0.0 <= level <= 1.0 ==> v == level
    ensures level < 0.0 ==> v == 0.0
    ensures level > 1.0 ==> v == 1.0
  {
    if level < 0.0 then 0.0 else if level > 1.0 then 1.0 else level
  }

  /** `setVolume`: the level clamped to [0, 1]. */
  function SetVolume(st: ServiceState, level: real): (o: Outcome<real>)
    ensures o.state == st.(volume := Clamp01(level)) && o.result == Success(o.state.volume)
  {
    var v := Clamp01(level);
    Outcome(st.(volume := v), Success(v))
  }

  /** Setting the volume that is already set changes nothing, and the volume
      stays in [0, 1] whatever level is asked for. */
  lemma SetVolumeIdempotent(st: ServiceState, level: real)
    ensures var once := SetVolume(st, level).state;
            SetVolume(once, once.volume).state == once && 0.0 <= once.volume <= 1.0
  {
  }

  /** `getCurrentlyPlaying`: nothing when no id (or the falsy id 0) is playing,
      when the lookup fails or when it finds no record. */
  function CurrentlyPlaying(st: ServiceState, lookup: Lookup): (r: Option<Sound>)
    ensures r.Some? ==> st.currentlyPlaying.Some? && st.currentlyPlaying.value != 0 && Resolved(lookup)
    ensures st.currentlyPlaying.None? ==> r.None?
    ensures st.currentlyPlaying.Some? && st.currentlyPlaying.value != 0 && Resolved(lookup) ==>
              r == lookup.value
  {
    if st.currentlyPlaying.None? || st.currentlyPlaying.value == 0 then None
    else if Resolved(lookup) then lookup.value
    else None
  }

  /** After a successful play of a truthy id, the currently playing sound is
      the one just started, as long as its lookup still finds it; a failed
      play leaves the answer as it was. */
  lemma PlayThenCurrentlyPlaying(st: ServiceState, soundId: int, lookup: Lookup)
    ensures Resolved(lookup) && soundId != 0 ==>
              CurrentlyPlaying(Play(st, soundId, lookup).state, lookup) == Some(Play(st, soundId, lookup).result.value)
    ensures Resolved(lookup) && soundId == 0 ==> CurrentlyPlaying(Play(st, soundId, lookup).state, lookup).None?
    ensures !Resolved(lookup) ==> CurrentlyPlaying(Play(st, soundId, lookup).state, lookup) == CurrentlyPlaying(st, lookup)
  {
  }

  /** The sounds the lookups found, in the order of the ids. */
  function ValidSounds(lookups: seq<Lookup>): (r: seq<Sound>)
    ensures |r| <= |lookups|
    ensures forall i :: 0 <= i < |lookups| && Resolved(lookups[i]) ==> lookups[i].value.value in r
  {
    if lookups == [] then []
    else if Resolved(lookups[0]) then [lookups[0].value.value] + ValidSounds(lookups[1..])
    else ValidSounds(lookups[1..])
  }

  /** Every sound of a mix was found by one of the lookups. */
  lemma {:induction false} ValidSoundsFound(lookups: seq<Lookup>)
    ensures forall s :: s in ValidSounds(lookups) ==>
              exists i :: 0 <= i < |lookups| && lookups[i] == Success(Some(s))
  {
    if lookups != [] {
      ValidSoundsFound(lookups[1..]);
      forall s | s in ValidSounds(lookups[1..])
        ensures exists i :: 0 <= i < |lookups| && lookups[i] == Success(Some(s))
      {
        var i :| 0 <= i < |lookups[1..]| && lookups[1..][i] == Success(Some(s));
        assert lookups[i + 1] == Success(Some(s));
      }
    }
  }

  /** The mix keeps the input order: the sounds of two runs of ids are the
      sounds of the first run followed by those of the second. */
  lemma {:induction false} ValidSoundsAppend(a: seq<Lookup>, b: seq<Lookup>)
    ensures ValidSounds(a + b) == ValidSounds(a) + ValidSounds(b)
  {
    if a != [] {
      assert (a + b)[1..] == a[1..] + b;
      ValidSoundsAppend(a[1..], b);
    } else {
      assert a + b == b;
    }
  }

  /** A mix of sounds. `id` is the creation time in milliseconds, as text. */
  datatype Mix = Mix(id: string, name: string, sounds: seq<Sound>)

  /** `createMix`: fails when no id resolved; otherwise the resolved sounds, and
      the given name or "Custom Mix " followed by the time. The id and the
      default name read the clock separately, at `idTime` and `nameTime`. */
  function CreateMix(lookups: seq<Lookup>, name: Option<string>, idTime: nat, nameTime: nat): (r: Result<Mix>)
    ensures r.Failure? <==> ValidSounds(lookups) == []
    ensures r.Failure? ==> forall i :: 0 <= i < |lookups| ==> !Resolved(lookups[i])
    ensures r.Success? ==> r.value.sounds == ValidSounds(lookups) && r.value.name != ""
    ensures r.Success? ==> AllDigits(r.value.id) && DigitsValue(r.value.id) == idTime
    ensures r.Success? && name.Some? && name.value != "" ==> r.value.name == name.value
    ensures r.Success? && (name.None? || name.value == "") ==>
              r.value.name == "Custom Mix " + NatToString(nameTime)
  {
    var sounds := ValidSounds(lookups);
    if sounds == [] then Failure("No valid sounds for mix")
    else
      DigitsValueOfNatToString(idTime);
      Success(Mix(NatToString(idTime), OrElse(name, "Custom Mix " + NatToString(nameTime)), sounds))
  }

  /** The most popular sounds `getFavorites` returns. */
  const FavoriteLimit := 4

  /** `getFavorites`: at most the first four popular sounds; an error gives
      none. */
  function FavoriteSounds(response: Result<Option<seq<Sound>>>): (r: seq<Sound>)
    ensures |r| <= FavoriteLimit
    ensures response.Failure? ==> r == []
    ensures response.Success? ==> r <= response.value.GetOr([])
    ensures response.Success? && |response.value.GetOr([])| >= FavoriteLimit ==> |r| == FavoriteLimit
    ensures response.Success? && |response.value.GetOr([])| <= FavoriteLimit ==> r == response.value.GetOr([])
  {
    if response.Failure? then [] else Take(response.value.GetOr([]), FavoriteLimit)
  }

  /** Once four popular sounds are listed, whatever the record API lists after
      them does not change the favourites; and the favourites of the favourites
      are the favourites again. */
  lemma FavoritesArePrefix(first: seq<Sound>, later: seq<Sound>)
    requires |first| >= FavoriteLimit
    ensures FavoriteSounds(Success(Some(first + later))) == FavoriteSounds(Success(Some(first)))
    ensures var fav := FavoriteSounds(Success(Some(first)));
            FavoriteSounds(Success(Some(fav))) == fav
  {
    var a := FavoriteSounds(Success(Some(first + later)));
    var b := FavoriteSounds(Success(Some(first)));
    assert a == (first + later)[..FavoriteLimit];
    assert b == first[..FavoriteLimit];
  }
}

=== FILE: text.dfy ===
/** The string operations the application relies on: `trim`, `toLowerCase`,
    `includes`, `split(' ')`/`join(',')`, and decimal rendering of counts. */
module Text {

  /** The characters `String.prototype.trim` removes: ECMAScript's WhiteSpace
      (tab, vertical tab, form feed, space, no-break space, byte-order mark and
      every space separator) and LineTerminator (LF, CR, U+2028, U+2029). */
  predicate IsSpace(c: char) {
    || c == '\t' || c == '\n' || c == '\U{B}' || c == '\U{C}' || c == '\r'
    || c == ' ' || c == '\U{A0}' || c == '\U{1680}'
    || ('\U{2000}' <= c <= '\U{200A}')
    || c == '\U{2028}' || c == '\U{2029}' || c == '\U{202F}' || c == '\U{205F}'
    || c == '\U{3000}' || c == '\U{FEFF}'
  }

  /** Every character of `s` is white space (vacuously true of ""). */
  predicate IsBlank(s: string) {
    forall i :: 0 <= i < |s| ==> IsSpace(s[i])
  }

  /** The number of white-space characters at the start of `s`. */
  function LeadingSpaces(s: string): (n: nat)
    ensures n <= |s|
    ensures forall i :: 0 <= i < n ==> IsSpace(s[i])
    ensures n < |s| ==> !IsSpace(s[n])
  {
    if s == [] || !IsSpace(s[0]) then 0 else 1 + LeadingSpaces(s[1..])
  }

  /** The number of white-space characters at the end of `s`. */
  function TrailingSpaces(s: string): (n: nat)
    ensures n <= |s|
    ensures forall i :: |s| - n <= i < |s| ==> IsSpace(s[i])
    ensures n < |s| ==> !IsSpace(s[|s| - n - 1])
  {
    if s == [] || !IsSpace(s[|s| - 1]) then 0 else 1 + TrailingSpaces(s[..|s| - 1])
  }

  /** `s.trim()`: the slice of `s` between its leading and trailing white space.
      It is empty exactly when `s` is blank; otherwise it starts and ends with
      a non-space character and only white space was cut from either end. */
  function Trim(s: string): (r: string)
    ensures r == [] <==> IsBlank(s)
    ensures r != [] ==> !IsSpace(r[0]) && !IsSpace(r[|r| - 1])
    ensures exists i, j :: 0 <= i <= j <= |s| && r == s[i..j]
                           && IsBlank(s[..i]) && IsBlank(s[j..])
  {
    var lead := LeadingSpaces(s);
    if lead == |s| then
      assert s[0..0] == [] && IsBlank(s[..|s|]);
      []
    else
      var rest := s[lead..];
      var trail := TrailingSpaces(rest);
      var r := rest[..|rest| - trail];
      assert r == s[lead..|s| - trail];
      assert IsBlank(s[..lead]);
      assert IsBlank(s[|s| - trail..]) by {
        assert s[|s| - trail..] == rest[|rest| - trail..];
      }
      assert !IsBlank(s) by { assert !IsSpace(s[lead]); }
      r
  }

  lemma TrimIdempotent(s: string)
    ensures Trim(Trim(s)) == Trim(s)
  {
    var t := Trim(s);
    if t != [] {
      assert LeadingSpaces(t) == 0;
      assert TrailingSpaces(t) == 0;
    }
  }

  /** A string that neither starts nor ends with white space is its own trim. */
  lemma TrimKeepsUnpadded(s: string)
    requires s != [] && !IsSpace(s[0]) && !IsSpace(s[|s| - 1])
    ensures Trim(s) == s
  {
    assert LeadingSpaces(s) == 0;
    assert TrailingSpaces(s) == 0;
  }

  /** The lower-case form of one character; only the ASCII letters A-Z change. */
  function LowerChar(c: char): (d: char)
  {
    if 'A' <= c <= 'Z' then (c as int + 32) as char else c
  }

  /** `s.toLowerCase()` restricted to ASCII letters. */
  function ToLower(s: string): (r: string)
    ensures |r| == |s|
    ensures forall i :: 0 <= i < |s| ==> r[i] == LowerChar(s[i])
    ensures forall i :: 0 <= i < |r| ==> !('A' <= r[i] <= 'Z')
  {
    if s == [] then [] else [LowerChar(s[0])] + ToLower(s[1..])
  }

  lemma ToLowerIdempotent(s: string)
    ensures ToLower(ToLower(s)) == ToLower(s)
  {
  }

  /** The upper-case form of one character; only the ASCII letters a-z change. */
  function UpperChar(c: char): (d: char)
  {
    if 'a' <= c <= 'z' then (c as int - 32) as char else c
  }

  /** `s.toUpperCase()` restricted to ASCII letters. */
  function ToUpper(s: string): (r: string)
    ensures |r| == |s|
    ensures forall i :: 0 <= i < |s| ==> r[i] == UpperChar(s[i])
    ensures forall i :: 0 <= i < |r| ==> !('a' <= r[i] <= 'z')
  {
    if s == [] then [] else [UpperChar(s[0])] + ToUpper(s[1..])
  }

  /** `t` occurs in `s` starting at offset `i`. */
  predicate OccursAt(s: string, t: string, i: int) {
    0 <= i && i + |t| <= |s| && s[i..i + |t|] == t
  }

  /** `s.includes(t)`: `t` occurs somewhere in `s`; the empty string occurs
      in every string. */
  function Contains(s: string, t: string): (r: bool)
    ensures r <==> exists i :: OccursAt(s, t, i)
    decreases |s|
  {
    if t <= s then
      assert OccursAt(s, t, 0);
      true
    else if s == [] then
      assert forall i :: !OccursAt(s, t, i);
      false
    else
      var r := Contains(s[1..], t);
      forall i | 1 <= i
        ensures OccursAt(s, t, i) <==> OccursAt(s[1..], t, i - 1)
      {
        OccursShift(s, t, i);
      }
      assert !OccursAt(s, t, 0);
      if r then
        var j :| OccursAt(s[1..], t, j);
        assert OccursAt(s, t, j + 1);
        true
      else
        false
  }

  lemma OccursShift(s: string, t: string, i: int)
    requires s != [] && 1 <= i
    ensures OccursAt(s, t, i) <==> OccursAt(s[1..], t, i - 1)
  {
    if i + |t| <= |s| {
      var a, b := s[i..i + |t|], s[1..][i - 1..i - 1 + |t|];
      assert |a| == |b|;
      forall k | 0 <= k < |a| ensures a[k] == b[k] {
        assert a[k] == s[i + k] && b[k] == s[1..][i - 1 + k];
      }
      assert a == b;
    }
  }

  /** The number of occurrences of `c` in `s`. */
  function CountChar(s: string, c: char): nat
  {
    if s == [] then 0 else (if s[0] == c then 1 else 0) + CountChar(s[1..], c)
  }

  /** `s.split(sep)` for a one-character separator: the pieces between
      separators, including empty ones, so there is always at least one. */
  function Split(s: string, sep: char): (parts: seq<string>)
    ensures |parts| == CountChar(s, sep) + 1
    ensures forall k :: 0 <= k < |parts| ==> sep !in parts[k]
  {
    if s == [] then [[]]
    else
      var rest := Split(s[1..], sep);
      if s[0] == sep then [[]] + rest
      else [[s[0]] + rest[0]] + rest[1..]
  }

  /** `parts.join(sep)`. */
  function Join(parts: seq<string>, sep: string): (r: string)
  {
    if parts == [] then []
    else if |parts| == 1 then parts[0]
    else parts[0] + sep + Join(parts[1..], sep)
  }

  /** Splitting and joining with the same separator gives back the string. */
  lemma {:induction false} JoinSplit(s: string, sep: char)
    ensures Join(Split(s, sep), [sep]) == s
  {
    if s != [] {
      var rest := Split(s[1..], sep);
      JoinSplit(s[1..], sep);
      if s[0] != sep {
        if |rest| == 1 {
          assert Split(s, sep) == [[s[0]] + rest[0]];
        } else {
          assert Split(s, sep)[1..] == rest[1..];
          calc {
            Join(Split(s, sep), [sep]);
            ([s[0]] + rest[0]) + [sep] + Join(rest[1..], [sep]);
            [s[0]] + (rest[0] + [sep] + Join(rest[1..], [sep]));
            [s[0]] + Join(rest, [sep]);
            [s[0]] + s[1..];
          }
        }
      } else {
        assert Split(s, sep)[1..] == rest;
      }
    }
  }

  /** A piece without the separator, followed by the separator, splits off as
      one part. */
  lemma {:induction false} SplitAfterPiece(x: string, y: string, sep: char)
    requires sep !in x
    ensures Split(x + [sep] + y, sep) == [x] + Split(y, sep)
  {
    if x == [] {
      assert x + [sep] + y == [sep] + y;
      assert ([sep] + y)[1..] == y;
    } else {
      SplitAfterPiece(x[1..], y, sep);
      assert (x + [sep] + y)[1..] == x[1..] + [sep] + y;
      assert [x[0]] + x[1..] == x;
    }
  }

  /** A string without the separator splits into itself alone. */
  lemma {:induction false} SplitWithoutSeparator(x: string, sep: char)
    requires sep !in x
    ensures Split(x, sep) == [x]
  {
    if x != [] {
      SplitWithoutSeparator(x[1..], sep);
      assert [x[0]] + x[1..] == x;
    }
  }

  /** Joining non-empty many parts that do not contain the separator and then
      splitting gives the parts back. */
  lemma {:induction false} SplitJoin(parts: seq<string>, sep: char)
    requires parts != []
    requires forall k :: 0 <= k < |parts| ==> sep !in parts[k]
    ensures Split(Join(parts, [sep]), sep) == parts
  {
    if |parts| == 1 {
      SplitWithoutSeparator(parts[0], sep);
    } else {
      SplitJoin(parts[1..], sep);
      SplitAfterPiece(parts[0], Join(parts[1..], [sep]), sep);
      assert [parts[0]] + parts[1..] == parts;
    }
  }
}

=== FILE: wrappers.dfy ===
/** Optional values and fallible results, the model's stand-ins for JavaScript's
    `undefined`/`null` and for a thrown error or a rejected promise. */
module Wrappers {

  /** A value that may be absent (`undefined` or `null` in the application). */
  datatype Option<+T> = None | Some(value: T) {

    /** The value, or `default` when absent: the `x ?? default` idiom. */
    function GetOr(default: T): T {
      match this
      case Some(v) => v
      case None => default
    }
  }

  /** What an awaited call produced: a value, or the error it was rejected with. */
  datatype Result<+R> = Success(value: R) | Failure(error: string) {

    predicate IsFailure() {
      Failure?
    }
  }

  /** JavaScript's `a || b` on an optional string: the empty string and a missing
      value are both falsy, so either one yields `b`. */
  function OrElse(a: Option<string>, b: string): (r: string)
    ensures a.Some? && a.value != "" ==> r == a.value
    ensures (a.None? || a.value == "") ==> r == b
  {
    if a.Some? && a.value != "" then a.value else b
  }

  /** `a || b` where both sides may be missing: the result is missing only when
      both are falsy. */
  function OrOpt(a: Option<string>, b: Option<string>): (r: Option<string>)
    ensures a.Some? && a.value != "" ==> r == a
    ensures (a.None? || a.value == "") ==> r == b
  {
    if a.Some? && a.value != "" then a else b
  }

  /** Truthiness of an optional boolean: only a present `true` is truthy. */
  predicate Truthy(b: Option<bool>) {
    b == Some(true)
  }
}
